=== FILE: README.md ===
# graham-homepage in Dafny

A model of the logic inside a static personal website, with proofs about it.
The site is mostly browser glue. The parts that can be stated without a
browser are modelled here:

- **Markdown converter.** `applyInlineMarkdown` and `markdownToHtml` turn the
  site's Markdown subset into HTML. The subset is headings, paragraphs,
  bullet and numbered lists, links, bold and italics.
  - Module `Inline` models the inline rewriting as a sequence of
    left-to-right, non-greedy replace passes.
  - Module `Markdown` models the line-by-line converter as a state machine
    over `inList`/`listType`/`paragraphBuffer`. `Markdown.Convert` formats
    block text with `applyInlineMarkdown` as written (`Inline.ApplyInline`).
    `Markdown.ConvertCorrected` is the same converter over the corrected
    inline formatter (`Inline.Format`; see "Findings").
  - Module `Text` holds the JavaScript string operations they use: `trim`,
    `split`, `join`, `replace` and `startsWith`.
- **Page state machines.**
  - Module `Site` covers the sidebar's projects expander, the project link,
    the art canvas id and the newest-first blog order.
  - Module `Nicu` covers the NICU parent guide's section navigation and its
    condition accordions.
- **Manifest generation.** Module `Manifest` models the build step that
  lists projects and art pieces:
  - title-casing a folder or file name;
  - merging `project.json` over the project defaults;
  - choosing the entry page;
  - keeping only `.js` files;
  - pulling `title` and `description` out of an art module's `metadata`
    literal. Each of the two falls back to its default on its own
    (vite.config.ts:93-94).

  Directory listings, existing files and parsed JSON are inputs.
- **Four canvas drawings.** Each drawing returns the list of primitives it
  would draw; module `Canvas` defines those primitives.
  - `Maze` is the recursive geometric maze.
  - `Hatching` is the cross-hatched portrait.
  - `Circuit` is the circuit board.
  - `Speedmaster` is the chronograph face.

  `Math.random` is an oracle `rand: nat -> real`. A position `pos` counts
  the draws made so far. Angles are exact `real` multiples of π.

`Wrappers` holds `Option`.

## Model

| member | source | states |
|---|---|---|
| Inline.FormatLink | index.tsx:29-33 | `[text](url)` with text free of `[`, `*` and `_` becomes exactly `<a href="url" target="_blank" rel="noopener noreferrer">text</a>`, whatever characters other than `)` the non-empty url holds (corrected formatter) |
| Inline.ApplyInlineLink | index.tsx:27-41 | under the formatter as written, a link whose text and url are both free of `[`, `*` and `_` comes out as exactly that anchor: the later passes leave it alone |
| Inline.MatchLink | index.tsx:31 | a link match starts the string with `[text](url)`, where the text is non-empty and free of `]`, the url is non-empty and free of `)`, and the match length is that prefix's length |
| Inline.MatchLinkComplete | index.tsx:30-33 | conversely, every well-formed `[text](url)` at the start of the string is matched, whatever follows it |
| Inline.LinkTokensOfLink | index.tsx:30-33 | the link pass alone rewrites `[text](url)` to the anchor with the url in `href` and the text as its body |
| Inline.BoldBeforeItalics | index.tsx:34-39 | `**a**` and `__a__` become `<strong>a</strong>`, never nested `<em>`, under both the as-written and the corrected formatter |
| Inline.Italics | index.tsx:37-39 | `*a*` and `_a_` become `<em>a</em>` under both formatters |
| Inline.EmphasisOfBold | index.tsx:35-39 | the four emphasis passes turn a bold pair into one `strong` element and nothing else |
| Inline.EmphasisOfItalic | index.tsx:35-39 | the four emphasis passes turn an italic pair into one `em` element; the bold passes skip it |
| Inline.DoublePassSkipsSingles | index.tsx:35-36 | a bold pass finds nothing in `*a*` or `_a_`: single delimiters are not half of a double one |
| Inline.PairsMatchWhole | index.tsx:35-39 | one pass over `d a d`, where `a` holds no delimiter and no line break, yields `<tag>a</tag>` |
| Inline.PairsAtMostOne | index.tsx:35-39 | a pass over text holding at most one delimiter character changes nothing, because an unmatched opener stays literal |
| Inline.CloseFrom | index.tsx:35 | the lazy `(.*?)` closes at the first delimiter after the opener, and no line break lies between them |
| Inline.PlainUnchanged | index.tsx:27-41 | text without `[`, `*` or `_` passes through both formatters unchanged |
| Inline.FormatAgreesWithoutLinks | index.tsx:27-41 | on text without `[` the corrected formatter and the as-written one agree |
| Inline.UnderscoreUrlMangled | index.tsx:30-39 | as written, an underscore in a link's url pairs with the one in `target="_blank"`; the anchor is broken by an `<em>` element, while the corrected formatter keeps it intact |
| Inline.UnderscoreUrlExample | index.tsx:30-39 | the concrete input `[x](a_b)` shows the two formatters differ |
| Markdown.Balanced | index.tsx:50-130 | for every document, the opening and closing list tags the converter emits are balanced: no close without its open, no other kind's close, and nothing left open |
| Markdown.StepTrack | index.tsx:76-124 | each line's step keeps the list state consistent, and the tags it emits move the open list from the old state's to the new one's |
| Markdown.ClassifyHeadings | index.tsx:80-82 | lines starting `# `, `## ` and `### ` are headings of level 1, 2 and 3 with the rest of the line as text |
| Markdown.ClassifyBullet | index.tsx:85 | `*`, `-` or `+` followed by a space starts a bullet item whose content is the rest of the line |
| Markdown.ClassifyNumbered | index.tsx:99 | one or more digits, a dot and a space start a numbered item whose content is the rest of the line |
| Markdown.HeadingStep | index.tsx:80-82 | a heading flushes the pending paragraph and closes any open list, in that order, then emits the heading with its text trimmed, and leaves the converter idle |
| Markdown.AddItemOut | index.tsx:85-110 | an item of the open list's kind adds only the item; one of the other kind closes that list and opens its own; with no list open, the paragraph is flushed and the list opened |
| Markdown.SwitchList | index.tsx:85-110 | an item of the other list kind closes the current list before opening the new one |
| Markdown.SameList | index.tsx:86-96 | an item of the current list's kind adds one trimmed `<li>` and nothing else |
| Markdown.TextEndsList | index.tsx:114-123 | a text line after a list closes the list and starts a paragraph with that line |
| Markdown.BlankStep | index.tsx:118-120 | a blank line flushes the paragraph and closes any open list, leaving the converter idle |
| Markdown.Flush | index.tsx:57-63 | flushing empties the buffer and emits something exactly when the buffer held lines |
| Markdown.CloseList | index.tsx:65-74 | closing leaves no list open and does nothing when none was |
| Markdown.RunAppend | index.tsx:76-124 | converting lines `a + b` is converting `a`, then `b` from the state `a` left, with the outputs concatenated |
| Markdown.CollectText | index.tsx:118-123 | outside a list, text lines only collect into the paragraph buffer and emit nothing |
| Markdown.ParagraphJoin | index.tsx:57-122 | consecutive text lines followed by a blank line make exactly one paragraph: the lines joined with single spaces, then trimmed |
| Markdown.TextOnlyBlocks | index.tsx:50-127 | a document of text lines only becomes exactly one paragraph |
| Markdown.SingleParagraph | index.tsx:50-130 | the HTML of such a document is `<p>` around the trimmed, space-joined lines passed through `applyInlineMarkdown` as written, with the final `trim` taking off the trailing newline; the corrected converter gives the same with the corrected formatter |
| Markdown.ConvertMangles | index.tsx:27-63 | as written, a one-line document `[text](u1_u2)` converts to a paragraph whose anchor start tag holds `<em>`: the url's underscore pairs with the one in `target="_blank"` |
| Markdown.ConvertCorrectedKeepsLink | index.tsx:27-63 | with the corrected formatter, a one-line document `[text](url)` with plain text converts to `<p>` around exactly the anchor, whatever the url holds |
| Markdown.ConvertersDiffer | index.tsx:27-63 | the as-written and corrected converters differ on every such link document whose url has an underscore |
| Markdown.HtmlAgreesWithoutLinks | index.tsx:27-110 | blocks whose text holds no `[` render the same under either inline formatter |
| Markdown.EmptyDocument | index.tsx:50-130 | the empty document converts to the empty string, under either inline formatter |
| Markdown.Digits | index.tsx:99 | `\d+` takes the longest run of ASCII digits at the start |
| Markdown.UpToBreak | index.tsx:85 | `(.*)` captures the line up to, not including, the first line terminator |
| Text.Trim | index.tsx:60 | `trim` never lengthens, leaves no white space at either end, and gives the empty string exactly for blank input |
| Text.TrimAround | index.tsx:60 | trimming blank padding off a word that has no white space at its ends gives back the word |
| Text.SplitJoin | index.tsx:51 | splitting, on a separator, a join of separator-free parts gives back the parts |
| Text.JoinSplit | index.tsx:51 | joining the pieces of a split with the separator gives back the string |
| Text.ReplaceFirstSuffix | index.tsx:386 | `replace` with a string pattern removes only the first occurrence |
| Site.Click | index.tsx:277-282 | after a click, `aria-expanded` is `"true"` exactly when it was not `"true"` before; the submenu is hidden exactly when it had been expanded; the icon agrees with the new state |
| Site.ClickTwice | index.tsx:277-282 | two clicks restore the expander exactly when its attribute, hidden flag and icon agreed beforehand |
| Site.ProjectUrlSegments | index.tsx:215 | the project link is the path `content/projects/<folder>/<entry>`, and the entry defaults to `index.html` when missing or empty |
| Site.CanvasIdOfScript | index.tsx:386 | the canvas id of `<b>.js` is `canvas-<b>` |
| Site.CanvasIdNoScript | index.tsx:386 | a file name without `.js` keeps its whole name in the canvas id |
| Site.SortNewest | index.tsx:312 | the blog order is a permutation of the posts, newest first |
| Site.SortStable | index.tsx:312 | posts of the same date keep their manifest order |
| Nicu.IndexIn | public/content/projects/NICU/script.js:64 | `indexOf` gives the first position of the id, or -1 exactly when the id is absent |
| Nicu.UpdateButtons | public/content/projects/NICU/script.js:93-107 | the previous button is hidden exactly at index 0 and the next button exactly at the last index; nothing else changes |
| Nicu.Load | public/content/projects/NICU/script.js:4-18 | the guide starts at the first section, with the previous button hidden and the next button shown; the sections, nav buttons and icons keep the state the markup gives them |
| Nicu.SectionsDistinct | public/content/projects/NICU/script.js:4 | the eight section ids are distinct |
| Nicu.ShowSelects | public/content/projects/NICU/script.js:49-73 | on a complete page (every section, its nav button, and a `<header>`), showing section `i` does not throw and sets the index to `i`; that section is the only active one, its button is the only active one, and the buttons are updated |
| Nicu.ShowIndex | public/content/projects/NICU/script.js:49-73 | showing a section throws exactly when its element, its nav button or the page's `<header>` is missing; the index becomes the section's position once both lookups succeed, even when the scroll then throws, and is left alone otherwise |
| Nicu.PrevAtStart | public/content/projects/NICU/script.js:77-82 | at the first section, going back changes nothing |
| Nicu.PrevStepsBack | public/content/projects/NICU/script.js:77-82 | past the first section, going back moves the index one down |
| Nicu.NextAtEnd | public/content/projects/NICU/script.js:85-90 | at the last section, going on changes nothing |
| Nicu.NextStepsOn | public/content/projects/NICU/script.js:85-90 | before the last section, going on moves the index one up |
| Nicu.Handle | public/content/projects/NICU/script.js:21-46 | each click handler keeps the index among the values `indexOf` can give, even when it throws |
| Nicu.Replay | public/content/projects/NICU/script.js:21-46 | any sequence of clicks keeps the index among those values |
| Nicu.IndexStaysInSections | public/content/projects/NICU/script.js:77-90 | starting inside the sections, clicks whose nav targets are sections keep the index within 0..7 |
| Nicu.ToggleFlips | public/content/projects/NICU/script.js:110-121 | a toggle flips whether the condition's content is open, shows `+` exactly when it ends up closed, and changes nothing else |
| Nicu.ToggleTwice | public/content/projects/NICU/script.js:110-121 | two toggles restore which elements are open |
| Manifest.TitleCase | vite.config.ts:23 | the default title has the name's length and no `-` |
| Manifest.TitleCaseChars | vite.config.ts:23 | each `-` becomes a space, and each word character that starts a word is upper-cased; every other character is kept |
| Manifest.TitleCaseIdempotent | vite.config.ts:80 | title-casing a title again changes nothing |
| Manifest.ProjectDefaults | vite.config.ts:21-26 | a project's defaults are its folder name, title, description and entry point |
| Manifest.FirstExisting | vite.config.ts:40-46 | the entry page found is the first candidate that exists, and none is found exactly when no candidate exists |
| Manifest.ProjectRecordFields | vite.config.ts:21-46 | `project.json` fields override the defaults; the folder name stays the directory's; the entry point is the first existing candidate, otherwise the configured or default one; no other keys appear |
| Manifest.MergedFields | vite.config.ts:21-37 | `{ ...defaults, ...config, folderName }` keeps every configured field except `folderName`, keeps every default the configuration leaves out, restores the folder name, and has exactly the keys of both |
| Manifest.ProjectsNamed | vite.config.ts:15-49 | one record per directory, in listing order, each named after its directory |
| Manifest.ScriptFiles | vite.config.ts:70-72 | only names ending in `.js` are kept, and never more than were listed |
| Manifest.ScriptFilesMembers | vite.config.ts:70-72 | a name is kept exactly when a regular file of that name ending in `.js` was listed |
| Manifest.ScriptFilesAppend | vite.config.ts:70-72 | the filter works entry by entry and keeps the listing order |
| Manifest.BaseNameOfScript | vite.config.ts:76 | the base name of `<b>.js` is `<b>`, and only the first `.js` goes |
| Manifest.ArtRecordOverrides | vite.config.ts:76-95 | an extracted title or description replaces its default only when its own match succeeds; otherwise the title-cased base name and `Generative art: <base>` stay |
| Manifest.ArtPieces | vite.config.ts:70-101 | one art record per script file, in listing order, each carrying its file name |
| Manifest.MetadataAt | vite.config.ts:87 | a metadata match at a position starts with `export` there and captures a `{`…`}` block with no `}` before its end |
| Manifest.MetadataFirst | vite.config.ts:87 | the metadata found is the leftmost match, and there is none exactly when no position matches |
| Manifest.FieldAt | vite.config.ts:91-92 | a field match starts with the key, is followed by a colon, and captures a non-empty run without quotes |
| Manifest.FieldFirst | vite.config.ts:91-92 | the field found is the leftmost match, and there is none exactly when no position matches |
| Manifest.FieldRoundTrip | vite.config.ts:91-94 | `key: "v"` written with either quote is read back as `v` |
| Manifest.FieldNeedsColon | vite.config.ts:91-92 | a block with no colon after the key yields no field |
| Maze.TreeMarks | content/art/geometric-maze.js:18-35 | a square at least 4 pixels wide with depth left is drawn as its outline `(x - size/2, y - size/2, size, size)`, then the horizontal and the vertical line through its centre, before anything else |
| Maze.FirstChild | content/art/geometric-maze.js:37-40 | when the first quarter's draw exceeds 0.3 and the quarter is large and deep enough, that quarter's square comes straight after the parent's marks: an outline 0.4 of the size wide with its corner 0.45 of the size up and left of the parent's centre, then its own cross |
| Maze.TreeCount | content/art/geometric-maze.js:17-51 | every square drawn costs three marks and four draws, and a tree of `depth` levels draws at most `MaxSquares(depth)` squares |
| Maze.SubCount | content/art/geometric-maze.js:39-50 | a quarter costs one draw of its own, then three marks and four draws per square under it |
| Maze.TreeWithin | content/art/geometric-maze.js:17-51 | every mark of a square and of the squares under it lies inside that square |
| Maze.QuartersCount | content/art/geometric-maze.js:37-50 | the four quarters cost one draw each, then three marks and four draws per square under them, and each holds at most `MaxSquares(depth - 1)` squares |
| Maze.QuartersWithin | content/art/geometric-maze.js:37-50 | each quarter's square, centred a quarter of the size from the centre and 0.4 of the size wide, lies with everything under it inside the square |
| Maze.QuartersFull | content/art/geometric-maze.js:37-50 | when every draw exceeds 0.3 and the quarters are large enough, each of the four draws all `MaxSquares(depth - 1)` squares under it |
| Maze.TreeFull | content/art/geometric-maze.js:17-51 | when every draw exceeds 0.3 and the square is at least `FullSize(depth)` wide, exactly `MaxSquares(depth)` squares are drawn |
| Maze.Render | content/art/geometric-maze.js:6-53 | the picture is the white background over the canvas, then the maze of six levels centred on the canvas with its top square 0.8 of the shorter side; that square's outline and cross come first when it is at least 4 pixels; at most 1365 squares of three marks, all on the canvas, for any sequence of draws |
| Maze.SixLevels | content/art/geometric-maze.js:53 | six levels allow 1 + 4 + … + 4⁵ = 1365 squares |
| Hatching.DensityShades | content/art/hatching-portrait.js:18-41 | the density map only takes the values 0, 0.2, 0.4, 0.6, 0.7, 0.8 and 0.9 |
| Hatching.DensityMirror | content/art/hatching-portrait.js:18-41 | the density is mirror-symmetric about the face's vertical centre line |
| Hatching.HatchedWhere | content/art/hatching-portrait.js:21-40 | a point is shaded above 0.1 exactly when it lies inside the face, or in the ring out to 1.3 radii above the centre |
| Hatching.HatchArea | content/art/hatching-portrait.js:54-85 | a cell gets `floor(8d)` strokes, as many again above 0.5, and two more above 0.7 |
| Hatching.StrokeCounts | content/art/hatching-portrait.js:55-82 | the shades get 1, 3, 8, 10, 14 and 16 strokes |
| Hatching.AcrossShape | content/art/hatching-portrait.js:61-65 | the horizontal strokes span the cell, lie strictly inside it, and are evenly spaced `size/(lines+1)` apart |
| Hatching.DownShape | content/art/hatching-portrait.js:68-74 | the vertical strokes span the cell, lie strictly inside it, and are evenly spaced `size/(lines+1)` apart |
| Hatching.HatchAreaWithin | content/art/hatching-portrait.js:54-85 | every stroke of a cell lies inside the cell |
| Hatching.CellStrokes | content/art/hatching-portrait.js:46-50 | a grid cell is hatched exactly when its density exceeds 0.1, with its shade's stroke count, inside the 4-pixel cell |
| Hatching.HatchRow | content/art/hatching-portrait.js:46-51 | the inner loop draws the row's cells left to right, every 4 pixels |
| Hatching.Render | content/art/hatching-portrait.js:6-52 | the picture is the background, then the rows from the top, every 4 pixels |
| Circuit.AllGridPoints | public/content/art/circuit-board.js:17-23 | the candidate points are exactly the multiples of 20 with `20 <= x < width-20` and `20 <= y < height-20` |
| Circuit.Place | public/content/art/circuit-board.js:17-23 | every node placed is unconnected and lies on a candidate point |
| Circuit.PlaceKeeps | public/content/art/circuit-board.js:19-20 | a candidate point becomes a node exactly when its own draw exceeds 0.3 |
| Circuit.NearFromExact | public/content/art/circuit-board.js:50-56 | the nearby list of a node, from `j` on, holds exactly the nodes from `j` on that are near it, in index order: nothing else and nothing missed |
| Circuit.NearMeans | public/content/art/circuit-board.js:52-55 | two nodes are near exactly when the squared distance `dx*dx + dy*dy` lies strictly between `20²` and `60²`, which is `gridSize < distance < gridSize * 3` for the square root |
| Circuit.Route | public/content/art/circuit-board.js:26-47 | a trace is three axis-parallel legs, joined end to end, from the start node to the end node |
| Circuit.RouteBend | public/content/art/circuit-board.js:34-44 | the first leg runs along the dominant axis for 0.7 of the distance |
| Circuit.FloorIndex | public/content/art/circuit-board.js:60 | `Math.floor(random * n)` is a valid index into the nearby list |
| Circuit.AddLink | public/content/art/circuit-board.js:59-64 | drawing a connection marks both ends connected and adds its trace |
| Circuit.TargetNear | public/content/art/circuit-board.js:59-60 | when some later node is near, the node the draw picks is a later node near this one |
| Circuit.Step | public/content/art/circuit-board.js:50-65 | one turn of the wiring loop keeps the loop's invariant (the schedule of draws, the coin decisions, the target choices and the wiring so far); when the coin passes, exactly one link from this node to the picked target is appended and the earlier links are kept; otherwise the nodes, links and traces are unchanged |
| Circuit.Wire | public/content/art/circuit-board.js:50-65 | node `i`'s turn starts drawing at `at[i]`, where the turn before it left off (none, one or two draws); node `i` starts a trace exactly when some later node is near it and the draw at `at[i]` exceeds 0.6, and that trace ends at the near node `Math.floor(r * n)` of the next draw picks; the nodes keep their places; a node is connected exactly when it was already or it ends a trace; every trace joins a node to a later, nearby one; the traces are the links' routes in order |
| Circuit.Board | public/content/art/circuit-board.js:16-65 | there is one node per point the placement pass keeps, in the same place and on the grid; node `i` starts a trace exactly when some later node is near it and its coin, drawn after the placement draws and the earlier turns' draws, exceeds 0.6, and the trace ends at the near node the following draw picks; a node is connected exactly when a trace ends at it; one route is drawn per trace |
| Circuit.PinCountRange | public/content/art/circuit-board.js:80 | a component has 2 to 7 pins |
| Circuit.PartAt | public/content/art/circuit-board.js:70-80 | a component's corner, width, height and pin count stay in the ranges its draws allow |
| Circuit.PinsInside | public/content/art/circuit-board.js:81-89 | every pin lead lies strictly inside its component's width |
| Circuit.PartShape | public/content/art/circuit-board.js:75-89 | a component is its outline, then vertical pin leads strictly inside its width |
| Circuit.DrawPart | public/content/art/circuit-board.js:75-89 | a component with `n` pins costs one outline and `2n` leads |
| Circuit.PlaceVias | public/content/art/circuit-board.js:107-117 | exactly 25 vias, each a ring of radius 1.5 around a dot of radius 0.5 at a random point |
| Circuit.PlaceComponents | public/content/art/circuit-board.js:69-90 | the 15 components cost between 75 and 225 primitives |
| Circuit.Render | public/content/art/circuit-board.js:6-118 | the background first, then one route per link, the components, one dot per node, and the 25 vias last, each a ring of radius 1.5 around a filled dot of radius 0.5 at the point given by two draws after the 75 component draws; the node and link facts of `Board` hold; the dot of node k sits on the node and is filled with radius 2 exactly when a link ends at k, else outlined with radius 1 |
| Circuit.DotsMarkEndpoints | public/content/art/circuit-board.js:94-104 | in the node-dot block, each node's dot is filled exactly when a link ends at that node |
| Speedmaster.HourTurn | content/art/omega-speedmaster.js:161-166 | the hour hand's angle lies in [0, 2π) for valid clock fields |
| Speedmaster.MinuteTurn | content/art/omega-speedmaster.js:167 | the minute hand's angle lies in [0, 2π) for valid clock fields |
| Speedmaster.SecondTurn | content/art/omega-speedmaster.js:168 | the seconds hand's angle lies in [0, 2π) for valid clock fields |
| Speedmaster.ChronoTurn | content/art/omega-speedmaster.js:169 | the chronograph hand's angle lies in [0, 2π) |
| Speedmaster.HourModTwelve | content/art/omega-speedmaster.js:161 | hours 12 apart give the same hour angle |
| Speedmaster.HourFollowsMinute | content/art/omega-speedmaster.js:166-167 | the hour hand is the whole hours plus a twelfth of the minute hand's angle |
| Speedmaster.MinuteFollowsSecond | content/art/omega-speedmaster.js:167-168 | on whole seconds, the minute hand is the whole minutes plus a sixtieth of the seconds hand's angle |
| Speedmaster.ChronoPeriod | content/art/omega-speedmaster.js:169 | the chronograph hand repeats every 30 seconds |
| Speedmaster.DialSecondsInjective | content/art/omega-speedmaster.js:161-166 | two valid times have the same seconds past twelve exactly when they show the same hour, minute and second on a 12-hour dial |
| Speedmaster.HourHandTellsTime | content/art/omega-speedmaster.js:166 | the hour hand alone tells the time to the second, and it advances with it |
| Speedmaster.BatonTurn | content/art/omega-speedmaster.js:123 | baton `num` of `count` stands at angle `2·num/count·π` |
| Speedmaster.Batons | content/art/omega-speedmaster.js:116-133 | `count` batons, all about the same centre, the k-th at `2(k+1)/count·π` |
| Speedmaster.BatonAtRim | content/art/omega-speedmaster.js:117-128 | each baton is centred on its axis, ends at the rim and reaches `length` inward |
| Speedmaster.BatonSpacing | content/art/omega-speedmaster.js:122-123 | batons are exactly `2/count·π` apart, and the last lands on a full turn |
| Speedmaster.BatonsNest | content/art/omega-speedmaster.js:22-24 | every 12-hour baton coincides with a minute baton, and every minute baton with a fifth-second baton |
| Speedmaster.DecimalValue | content/art/omega-speedmaster.js:92 | `toString` of a whole number reads back as that number |
| Speedmaster.NumeralTurn | content/art/omega-speedmaster.js:105 | a numeral stands at `2·num/last·π` |
| Speedmaster.TachyTurn | content/art/omega-speedmaster.js:86 | a tachymeter mark stands at `2·(divisor/num)/last·π`; a zero divisor turns nothing |
| Speedmaster.Numbers | content/art/omega-speedmaster.js:97-114 | one numeral per number, around the given centre at its angle |
| Speedmaster.Tachymeter | content/art/omega-speedmaster.js:78-95 | one mark per number, around the given centre at its tachymeter angle |
| Speedmaster.TachymeterReadsSpeed | content/art/omega-speedmaster.js:37-38 | the mark for `n` units an hour stands where the seconds hand is after `3600/n` seconds; faster speeds sit earlier, and speeds of 60 or more lie within one turn |
| Speedmaster.TachymeterOnBaton | content/art/omega-speedmaster.js:22-38 | a speed that divides 3600 lands exactly on a minute baton |
| Speedmaster.TachymeterWithinTurn | content/art/omega-speedmaster.js:37-38 | every tachymeter number on the face lies within one turn |
| Speedmaster.Time | content/art/omega-speedmaster.js:159-180 | the hour, minute and chronograph hands are turned by their angles about the centre; the running seconds sit in the left subdial; the other two subdial hands stay at 0 |
| Speedmaster.HourHandOnBaton | content/art/omega-speedmaster.js:166 | on the hour, the hour hand points at that hour's baton |
| Speedmaster.MinuteHandOnBaton | content/art/omega-speedmaster.js:167 | on the minute, the minute hand points at that minute's baton |
| Speedmaster.ChronoOnBaton | content/art/omega-speedmaster.js:169 | the chronograph hand always points at an even minute baton |
| Speedmaster.Radius | content/art/omega-speedmaster.js:7 | the radius is 0.6 of the smaller half-side |
| Speedmaster.NumeralsOnBatons | content/art/omega-speedmaster.js:27-42 | each subdial numeral stands at one of its subdial's batons |
| Speedmaster.FrameShows | content/art/omega-speedmaster.js:12-45 | a frame draws 485 primitives; its hands carry the clock's angles; every tachymeter number lies within one turn |

## Left out

- DOM work, `fetch`, `innerHTML`, the loading and error messages, and the
  art modal in index.tsx. These are browser I/O with nothing to state.
- `import.meta.glob` and the dynamic import of art modules (the art loader).
  Bundler calls are not part of this model.
- `fs`, `path`, `JSON.parse` and the console in vite.config.ts. Directory
  listings, which files exist and parsed `project.json` objects are
  parameters.
- `project.json` values are modelled as strings. JSON numbers, arrays and
  objects are left out because nothing in the core inspects them.
- A `project.json` that fails to parse is modelled as an absent config
  (`None`). The warning it logs is left out.
- `new Date(...)` parsing in the blog sort. `YYYY-MM-DD` strings are
  compared character by character, which matches date order for that format.
- Locale date formatting in the blog list is display only.
- Floating point. Coordinates and angles are exact reals, and angles are
  multiples of π.
- `Math.sqrt` in the hatching and circuit distance tests. It is replaced by
  comparing squares, which is the same test for non-negative sides.
- Canvas state: colours, gradients, fonts, line widths, `save`/`restore`,
  `clearRect` and the speedmaster's initial `translate` to the canvas
  centre. Only the primitives' geometry is modelled.
- `requestAnimationFrame` and the speedmaster's cleanup closure. Frame
  scheduling has no logic to state. One frame is modelled, for a clock
  value passed in.
- The wall clock (`new Date()`) in the speedmaster. It is the `Clock`
  parameter.
- The other art pieces are not part of this model: particle-waves,
  flow-field and the copies under `projects/`.
- Markdown.Convert, Markdown.ConvertCorrected: their only contract would
  repeat `trim`'s own. `Markdown.SingleParagraph`, `Markdown.EmptyDocument`,
  `Markdown.ConvertMangles` and `Markdown.ConvertCorrectedKeepsLink` state
  what they produce.
- Circuit.PlaceComponents: the contract states only the 75 to 225 range.
  `Circuit.PartAt` and `Circuit.PartShape` state each component's ranges and
  shape.
- Circuit.Component: states only that one component costs 5 to 15
  primitives. Its shape is `Circuit.PartShape`.
- Circuit.Components: states only the total count range for the remaining
  components.
- Speedmaster.Head, Speedmaster.MainBatons, Speedmaster.Subdials,
  Speedmaster.Numerals: these state only their primitive counts. The
  members they are built from state the geometry.
- The JavaScript regexes are not modelled as a general regex engine. Each
  one is a hand-written scanner that matches at the same positions. The
  `replace(/…/g)` passes of `applyInlineMarkdown` scan left to right and
  globally (`Inline.Pairs`, `Inline.LinkTokens`); the `match` calls of the
  line classifier are anchored with `^` (`Markdown.Classify`); the
  metadata and field `match` calls have no `g` flag and take the leftmost
  match (`Manifest.First`). In all of them `.` stops at line terminators,
  and `(.*?)`, where a pattern uses it, is lazy.
- Nicu.UpdateButtons: the page is taken to have both `prev-button` and
  `next-button`. Without them the load handler throws before it attaches
  any listener, and nothing on the page responds.

## Findings

| source | as written | input that shows it | evidently intended | confidence | as-written member | corrected member |
|---|---|---|---|---|---|---|
| index.tsx:30-39 | the link pass writes `target="_blank"` into its output, and the emphasis passes then run over that output. The `_(.*?)_` pass pairs the `_` of `_blank` with the next `_` on the same line: one in the url (`[x](a_b)`), one later in the text (`[x](y) and _z_` gives `target="<em>blank" … and </em>z_`), or the `_blank` of a second link. Likewise the `*` pass pairs a `*` in a url with a later `*` (`[x](a*b) *c*`). Each puts `<em>` tags inside an anchor's start tag, against the intent stated at index.tsx:29 | `[x](a_b)` | the anchor produced by the link pass is left alone by the emphasis passes, so a link still works whatever `_` or `*` its url or the rest of the line holds | not executed | Inline.UnderscoreUrlMangled | Inline.FormatLink |

The corrected formatter (`Inline.Format`) treats the anchor start tag as
one opaque token that the emphasis passes cannot enter.
`Inline.ApplyInline` keeps the code as written. `Markdown.Convert` uses the
as-written formatter, as `markdownToHtml` does. `Markdown.ConvertCorrected`
uses the corrected one. `Markdown.ConvertMangles`,
`Markdown.ConvertCorrectedKeepsLink` and `Markdown.ConvertersDiffer` carry
the finding through to whole documents.

=== FILE: canvas.dfy ===
/** What the art modules draw, as values: each canvas call that puts marks
    on the page becomes one primitive, in drawing order. Coordinates are
    exact reals; the source computes them in floating point. Angles are
    stored divided by π (a `turn` of 2 is a full circle), so that they stay
    exact. */
module Canvas {

  datatype Prim =
    | FillRect(x: real, y: real, w: real, h: real)      // `fillRect`, or `rect` then `fill`
    | StrokeRect(x: real, y: real, w: real, h: real)    // `rect` then `stroke`
    | Segment(x1: real, y1: real, x2: real, y2: real)   // one `moveTo`/`lineTo` leg
    | Disc(cx: real, cy: real, r: real, filled: bool)   // a full `arc`, filled or stroked
    | Label(text: string, x: real, y: real)             // `fillText`
    | Polygon(points: seq<(real, real)>)                // a path through the points, filled
    | Turned(ox: real, oy: real, turn: real, inner: Prim)
        // `translate(ox, oy)`, `rotate(turn * π)`, then draw `inner`
    | Orbit(ox: real, oy: real, turn: real, dist: real, inner: Prim)
        // `inner` drawn upright at distance `dist` from (ox, oy) in the
        // direction `turn * π` clockwise from straight up

  /** A segment or rectangle that lies within [x0, x1] × [y0, y1]. */
  predicate Within(p: Prim, x0: real, y0: real, x1: real, y1: real) {
    match p
    case Segment(ax, ay, bx, cy) =>
      x0 <= ax <= x1 && x0 <= bx <= x1 && y0 <= ay <= y1 && y0 <= cy <= y1
    case StrokeRect(x, y, w, h) => x0 <= x && x + w <= x1 && y0 <= y && y + h <= y1 && 0.0 <= w && 0.0 <= h
    case FillRect(x, y, w, h) => x0 <= x && x + w <= x1 && y0 <= y && y + h <= y1 && 0.0 <= w && 0.0 <= h
    case _ => false
  }

  /** A middle piece of a concatenation. */
  lemma Middle(a: seq<Prim>, b: seq<Prim>, c: seq<Prim>, i: nat, j: nat)
    requires i <= j <= |b|
    ensures (a + b + c)[|a| + i .. |a| + j] == b[i..j]
  {
  }

  /** A random source: the k-th call to `Math.random()` returns `rand(k)`. */
  ghost predicate Oracle(rand: nat -> real) {
    forall k: nat :: 0.0 <= rand(k) < 1.0
  }
}

=== FILE: circuit.dfy ===
/** The circuit board (public/content/art/circuit-board.js): grid points kept
    at random become nodes; each node may be wired, with a right-angled
    three-leg trace, to one of the later nodes between one and three grid
    steps away; then fifteen components with pins, the nodes themselves
    (filled when wired) and twenty-five vias are drawn. `Math.random` is the
    oracle `rand`, consulted in the order the script calls it; `pos` counts
    the calls made so far. */
module Circuit {
  import opened Canvas

  /** The grid pitch. */
  const GridSize: int := 20

  /** A connection point. */
  datatype Node = Node(x: int, y: int, connected: bool)

  // ---------------------------------------------------------------------
  // Grid points

  /** The grid points of column `x` from row `y` down. */
  function Column(height: int, x: int, y: int): seq<(int, int)>
    decreases height - y
  {
    if y >= height - GridSize then [] else [(x, y)] + Column(height, x, y + GridSize)
  }

  /** The grid points from column `x` on, a column at a time, as the two
      nested loops visit them. */
  function Points(width: int, height: int, x: int): seq<(int, int)>
    decreases width - x
  {
    if x >= width - GridSize then [] else Column(height, x, GridSize) + Points(width, height, x + GridSize)
  }

  /** The points visited are exactly the multiples of 20 at least 20 from
      every edge (and at least 20 from the top-left corner's axes). */
  predicate OnGrid(width: int, height: int, p: (int, int)) {
    p.0 % GridSize == 0 && p.1 % GridSize == 0
    && GridSize <= p.0 < width - GridSize && GridSize <= p.1 < height - GridSize
  }

  lemma {:induction false} ColumnPoints(height: int, x: int, y: int, p: (int, int))
    requires y % GridSize == 0
    ensures p in Column(height, x, y) <==> p.0 == x && p.1 % GridSize == 0 && y <= p.1 < height - GridSize
    decreases height - y
  {
    if y < height - GridSize {
      ColumnPoints(height, x, y + GridSize, p);
    }
  }

  lemma {:induction false} GridPoints(width: int, height: int, x: int, p: (int, int))
    requires x % GridSize == 0
    ensures p in Points(width, height, x) <==>
      p.0 % GridSize == 0 && x <= p.0 < width - GridSize && p.1 % GridSize == 0 && GridSize <= p.1 < height - GridSize
    decreases width - x
  {
    if x < width - GridSize {
      ColumnPoints(height, x, GridSize, p);
      GridPoints(width, height, x + GridSize, p);
    }
  }

  /** The nested loops visit every grid point and nothing else. */
  lemma AllGridPoints(width: int, height: int, p: (int, int))
    ensures p in Points(width, height, GridSize) <==> OnGrid(width, height, p)
  {
    GridPoints(width, height, GridSize, p);
  }

  /** One draw per grid point, in visiting order; the point becomes an
      unwired node when its draw exceeds 0.3. */
  function Place(points: seq<(int, int)>, rand: nat -> real, pos: nat): (ns: seq<Node>)
    ensures |ns| <= |points|
    ensures forall k :: 0 <= k < |ns| ==> !ns[k].connected && (ns[k].x, ns[k].y) in points
    decreases |points|
  {
    if |points| == 0 then []
    else
      (if rand(pos) > 0.3 then [Node(points[0].0, points[0].1, false)] else [])
      + Place(points[1..], rand, pos + 1)
  }

  /** A point becomes a node exactly when its own draw passes. */
  lemma {:induction false} PlaceKeeps(points: seq<(int, int)>, rand: nat -> real, pos: nat, i: nat)
    requires i < |points|
    requires forall a, b :: 0 <= a < b < |points| ==> points[a] != points[b]
    ensures Node(points[i].0, points[i].1, false) in Place(points, rand, pos) <==> rand(pos + i) > 0.3
    decreases |points|
  {
    var rest := Place(points[1..], rand, pos + 1);
    var first := Node(points[0].0, points[0].1, false);
    if i == 0 {
      assert points[0] !in points[1..] by {
        forall k | 0 <= k < |points[1..]| ensures points[1..][k] != points[0] {
          assert points[1..][k] == points[k + 1];
        }
      }
      assert forall k :: 0 <= k < |rest| ==> rest[k] != first;
    } else {
      assert forall a, b :: 0 <= a < b < |points[1..]| ==> points[1..][a] != points[1..][b] by {
        forall a, b | 0 <= a < b < |points[1..]| ensures points[1..][a] != points[1..][b] {
          assert points[1..][a] == points[a + 1] && points[1..][b] == points[b + 1];
        }
      }
      PlaceKeeps(points[1..], rand, pos + 1, i - 1);
      assert points[1..][i - 1] == points[i];
      assert points[i] != points[0];
      assert Node(points[i].0, points[i].1, false) != first;
    }
  }

  // ---------------------------------------------------------------------
  // Traces

  /** The distance between two coordinates. */
  function Gap(u: int, v: int): nat {
    if u >= v then u - v else v - u
  }

  /** `d * d`, summed up from odd numbers so that no product reaches the
      solver; `SqIsProduct` shows it is the square. */
  function Sq(d: nat): nat {
    if d == 0 then 0 else Sq(d - 1) + 2 * d - 1
  }

  lemma {:induction false} SqIsProduct(d: nat)
    ensures Sq(d) == d * d
  {
    if d > 0 {
      SqIsProduct(d - 1);
      assert d * d == (d - 1) * (d - 1) + 2 * d - 1;
    }
  }

  /** More than one and less than three grid steps apart, compared as
      squared distances. */
  predicate Near(a: Node, b: Node) {
    var d := Sq(Gap(a.x, b.x)) + Sq(Gap(a.y, b.y));
    GridSize * GridSize < d < (GridSize * 3) * (GridSize * 3)
  }

  /** `Near` is `distance < gridSize * 3 && distance > gridSize` with the
      distance `Math.sqrt(dx * dx + dy * dy)`, compared as squares. */
  lemma NearMeans(a: Node, b: Node)
    ensures var dx, dy := a.x - b.x, a.y - b.y;
      Near(a, b) <==> GridSize * GridSize < dx * dx + dy * dy < (GridSize * 3) * (GridSize * 3)
  {
    SqGap(a.x, b.x);
    SqGap(a.y, b.y);
  }

  lemma SqGap(u: int, v: int)
    ensures Sq(Gap(u, v)) == (u - v) * (u - v)
  {
    SqIsProduct(Gap(u, v));
    if u < v {
      var d := v - u;
      assert (u - v) * (u - v) == (-d) * (-d) == d * d;
    }
  }

  /** Node `k` is near node `i`. */
  predicate NearAt(ns: seq<Node>, i: nat, k: nat)
    requires i < |ns| && k < |ns|
  {
    Near(ns[i], ns[k])
  }

  /** Which of the first `n` nodes are near node `i`. */
  function NearPrefix(ns: seq<Node>, i: nat, n: nat): (r: seq<bool>)
    requires i < |ns| && n <= |ns|
    ensures |r| == n
  {
    if n == 0 then [] else NearPrefix(ns, i, n - 1) + [NearAt(ns, i, n - 1)]
  }

  /** Which nodes are near node `i`. */
  function NearFlags(ns: seq<Node>, i: nat): (r: seq<bool>)
    requires i < |ns|
    ensures |r| == |ns|
  {
    NearPrefix(ns, i, |ns|)
  }

  /** The indices from `j` on whose flag is set, in order. */
  function Kept(flags: seq<bool>, j: nat): seq<nat>
    decreases |flags| - j
  {
    if j >= |flags| then [] else (if flags[j] then [j] else []) + Kept(flags, j + 1)
  }

  /** Everything `Kept` holds is a set flag from `j` on. */
  lemma {:induction false} KeptSound(flags: seq<bool>, j: nat)
    ensures forall k :: 0 <= k < |Kept(flags, j)| ==> j <= Kept(flags, j)[k] < |flags| && flags[Kept(flags, j)[k]]
    decreases |flags| - j
  {
    if j < |flags| {
      KeptSound(flags, j + 1);
      var h: seq<nat> := if flags[j] then [j] else [];
      var rest := Kept(flags, j + 1);
      assert Kept(flags, j) == h + rest;
      forall k | 0 <= k < |h + rest| ensures j <= (h + rest)[k] < |flags| && flags[(h + rest)[k]] {
        if k < |h| {
          assert (h + rest)[k] == j;
        } else {
          KeptAt(flags, j + 1, k - |h|);
          assert (h + rest)[k] == rest[k - |h|];
        }
      }
    }
  }

  /** One entry of `Kept`, from `KeptSound`. */
  lemma KeptAt(flags: seq<bool>, j: nat, k: nat)
    requires k < |Kept(flags, j)|
    requires forall k :: 0 <= k < |Kept(flags, j)| ==> j <= Kept(flags, j)[k] < |flags| && flags[Kept(flags, j)[k]]
    ensures j <= Kept(flags, j)[k] < |flags| && flags[Kept(flags, j)[k]]
  {
  }

  /** Every set flag from `j` on is in `Kept`. */
  lemma {:induction false} KeptComplete(flags: seq<bool>, j: nat, k: nat)
    requires j <= k < |flags| && flags[k]
    ensures k in Kept(flags, j)
    decreases |flags| - j
  {
    var h: seq<nat> := if flags[j] then [j] else [];
    assert Kept(flags, j) == h + Kept(flags, j + 1);
    if k == j {
      assert (h + Kept(flags, j + 1))[0] == j;
    } else {
      KeptComplete(flags, j + 1, k);
    }
  }

  /** `Kept` holds exactly the set flags from `j` on. */
  lemma KeptExact(flags: seq<bool>, j: nat)
    ensures forall k :: 0 <= k < |Kept(flags, j)| ==> j <= Kept(flags, j)[k] < |flags| && flags[Kept(flags, j)[k]]
    ensures forall k :: j <= k < |flags| && flags[k] ==> k in Kept(flags, j)
  {
    KeptSound(flags, j);
    forall k | j <= k < |flags| && flags[k] ensures k in Kept(flags, j) {
      KeptComplete(flags, j, k);
    }
  }

  /** The filter in the wiring loop: the indices from `j` on whose node is
      near node `i`, in order. */
  function NearFrom(ns: seq<Node>, i: nat, j: nat): seq<nat>
    requires i < |ns|
  {
    Kept(NearFlags(ns, i), j)
  }

  /** The nearby list of node `i` from `j` on holds exactly the nodes from
      `j` on that are near node `i`, in index order. */
  lemma NearFromExact(ns: seq<Node>, i: nat, j: nat)
    requires i < |ns|
    ensures var near := NearFrom(ns, i, j);
      forall k :: 0 <= k < |near| ==> j <= near[k] < |ns| && NearAt(ns, i, near[k])
    ensures forall k :: j <= k < |ns| && NearAt(ns, i, k) ==> k in NearFrom(ns, i, j)
  {
    var flags := NearFlags(ns, i);
    KeptExact(flags, j);
    forall k | 0 <= k < |ns| ensures flags[k] == NearAt(ns, i, k) {
      FlagMeans(ns, i, k);
    }
  }

  /** Flag `k` of the filter says whether node `k` is near node `i`. */
  lemma FlagMeans(ns: seq<Node>, i: nat, k: nat)
    requires i < |ns| && k < |ns|
    ensures NearFlags(ns, i)[k] == NearAt(ns, i, k)
  {
    FlagAt(ns, i, |ns|, k);
  }

  lemma {:induction false} FlagAt(ns: seq<Node>, i: nat, n: nat, k: nat)
    requires i < |ns| && k < n <= |ns|
    ensures NearPrefix(ns, i, n)[k] == NearAt(ns, i, k)
  {
    if k < n - 1 {
      FlagAt(ns, i, n - 1, k);
      assert NearPrefix(ns, i, n)[k] == NearPrefix(ns, i, n - 1)[k];
    }
  }

  /** `drawPath(a, b)`: a three-leg right-angled trace from `a` to `b`, along
      the longer axis for 0.7 of the way, then across, then the rest. */
  function Route(a: Node, b: Node): (r: seq<Prim>)
    ensures |r| == 3
    ensures forall k :: 0 <= k < 3 ==> r[k].Segment? && (r[k].x1 == r[k].x2 || r[k].y1 == r[k].y2)
    ensures r[0].x1 == a.x as real && r[0].y1 == a.y as real && r[2].x2 == b.x as real && r[2].y2 == b.y as real
    ensures forall k :: 0 <= k < 2 ==> r[k].x2 == r[k + 1].x1 && r[k].y2 == r[k + 1].y1
  {
    var sx, sy, tx, ty := a.x as real, a.y as real, b.x as real, b.y as real;
    var dx, dy := tx - sx, ty - sy;
    if Abs(dx) > Abs(dy) then
      var mid := sx + dx * 0.7;
      [Segment(sx, sy, mid, sy), Segment(mid, sy, mid, ty), Segment(mid, ty, tx, ty)]
    else
      var mid := sy + dy * 0.7;
      [Segment(sx, sy, sx, mid), Segment(sx, mid, tx, mid), Segment(tx, mid, tx, ty)]
  }

  function Abs(v: real): real {
    if v < 0.0 then -v else v
  }

  /** The bend sits 0.7 of the way along the longer axis. */
  lemma RouteBend(a: Node, b: Node)
    ensures var r := Route(a, b);
      var dx, dy := (b.x - a.x) as real, (b.y - a.y) as real;
      if Abs(dx) > Abs(dy) then r[0].y1 == r[0].y2 && r[0].x2 - r[0].x1 == dx * 0.7
      else r[0].x1 == r[0].x2 && r[0].y2 - r[0].y1 == dy * 0.7
  {
  }

  /** `Math.floor(r * n)` for a draw `r` picks one of `n` slots. */
  lemma FloorIndex(r: real, n: nat)
    requires 0.0 <= r < 1.0 && n >= 1
    ensures 0 <= (r * n as real).Floor < n
  {
    assert r * n as real < n as real;
  }

  /** A node is wired when it starts a trace or is the target of one. */
  predicate Endpoint(links: seq<(nat, nat)>, k: nat) {
    exists m :: 0 <= m < |links| && (links[m].0 == k || links[m].1 == k)
  }

  /** A node is connected exactly when it was at the start or it ends a
      trace. */
  predicate Flags(nodes: seq<Node>, ns: seq<Node>, links: seq<(nat, nat)>)
    requires |ns| == |nodes|
  {
    forall k :: 0 <= k < |ns| ==> (ns[k].connected <==> nodes[k].connected || Endpoint(links, k))
  }

  /** The drawing holds each trace's route, in order. */
  predicate Traced(nodes: seq<Node>, links: seq<(nat, nat)>, traces: seq<Prim>)
    requires forall m :: 0 <= m < |links| ==> links[m].1 < |nodes| && links[m].0 < |nodes|
  {
    |traces| == 3 * |links|
    && forall m :: 0 <= m < |links| ==> traces[3 * m .. 3 * m + 3] == Route(nodes[links[m].0], nodes[links[m].1])
  }

  /** What the wiring loop keeps true once the nodes before `bound` have
      been handled: the nodes keep their places and are flagged as `Flags`
      says; every trace runs from a node before `bound` to a later node
      near it; traces start at increasing nodes; and the drawing holds
      them in order. */
  predicate Wired(nodes: seq<Node>, bound: int, ns: seq<Node>, links: seq<(nat, nat)>, traces: seq<Prim>) {
    && |ns| == |nodes|
    && (forall k :: 0 <= k < |ns| ==> ns[k].x == nodes[k].x && ns[k].y == nodes[k].y)
    && Flags(nodes, ns, links)
    && LinksBelow(nodes, bound, links)
    && Traced(nodes, links, traces)
  }

  lemma FlagsStep(nodes: seq<Node>, i: nat, t: nat, ns: seq<Node>, links: seq<(nat, nat)>)
    requires |ns| == |nodes| && i < |nodes| && t < |nodes|
    requires Flags(nodes, ns, links)
    ensures Flags(nodes, ns[i := ns[i].(connected := true)][t := ns[t].(connected := true)], links + [(i, t)])
  {
    var ns' := ns[i := ns[i].(connected := true)][t := ns[t].(connected := true)];
    var links' := links + [(i, t)];
    forall k | 0 <= k < |ns'| ensures ns'[k].connected <==> nodes[k].connected || Endpoint(links', k) {
      if k == i || k == t {
        assert links'[|links|] == (i, t);
      } else {
        assert ns'[k] == ns[k];
        if Endpoint(links', k) {
          var m :| 0 <= m < |links'| && (links'[m].0 == k || links'[m].1 == k);
          assert m < |links|;
          assert links[m] == links'[m];
        }
        if Endpoint(links, k) {
          var m :| 0 <= m < |links| && (links[m].0 == k || links[m].1 == k);
          assert links'[m] == links[m];
        }
      }
    }
  }

  lemma TracedStep(nodes: seq<Node>, i: nat, t: nat, links: seq<(nat, nat)>, traces: seq<Prim>)
    requires i < |nodes| && t < |nodes|
    requires forall m :: 0 <= m < |links| ==> links[m].1 < |nodes| && links[m].0 < |nodes|
    requires Traced(nodes, links, traces)
    ensures Traced(nodes, links + [(i, t)], traces + Route(nodes[i], nodes[t]))
  {
    var links' := links + [(i, t)];
    var traces' := traces + Route(nodes[i], nodes[t]);
    forall m | 0 <= m < |links'| ensures traces'[3 * m .. 3 * m + 3] == Route(nodes[links'[m].0], nodes[links'[m].1]) {
      if m < |links| {
        assert traces'[3 * m .. 3 * m + 3] == traces[3 * m .. 3 * m + 3];
        assert links'[m] == links[m];
      } else {
        assert traces'[3 * m .. 3 * m + 3] == Route(nodes[i], nodes[t]);
      }
    }
  }

  /** The links stay ordered by their first node, near, and below the
      bound. */
  predicate LinksBelow(nodes: seq<Node>, bound: int, links: seq<(nat, nat)>) {
    && (forall m :: 0 <= m < |links| ==> links[m].0 < bound && links[m].0 < links[m].1 < |nodes| && NearAt(nodes, links[m].0, links[m].1))
    && (forall m, m' :: 0 <= m < m' < |links| ==> links[m].0 < links[m'].0)
  }

  lemma LinksStep(nodes: seq<Node>, i: nat, t: nat, links: seq<(nat, nat)>)
    requires LinksBelow(nodes, i, links)
    requires i < t < |nodes| && NearAt(nodes, i, t)
    ensures LinksBelow(nodes, i + 1, links + [(i, t)])
  {
    var links' := links + [(i, t)];
    assert forall m :: 0 <= m < |links| ==> links'[m] == links[m];
  }

  /** A node that starts no trace keeps the invariant. */
  lemma WiredWiden(nodes: seq<Node>, i: int, ns: seq<Node>, links: seq<(nat, nat)>, traces: seq<Prim>)
    requires Wired(nodes, i, ns, links, traces)
    ensures Wired(nodes, i + 1, ns, links, traces)
  {
  }

  /** Wiring node `i` to a later node `t` near it keeps the loop's
      invariant for the next node. */
  lemma AddLink(nodes: seq<Node>, i: nat, t: nat, ns: seq<Node>, links: seq<(nat, nat)>, traces: seq<Prim>)
    requires Wired(nodes, i, ns, links, traces)
    requires i < t < |nodes| && NearAt(nodes, i, t)
    ensures Wired(nodes, i + 1, ns[i := ns[i].(connected := true)][t := ns[t].(connected := true)],
      links + [(i, t)], traces + Route(nodes[i], nodes[t]))
  {
    FlagsStep(nodes, i, t, ns, links);
    TracedStep(nodes, i, t, links, traces);
    assert LinksBelow(nodes, i, links);
    LinksStep(nodes, i, t, links);
  }


  /** Node `i` starts a trace. */
  predicate Starts(links: seq<(nat, nat)>, i: nat) {
    exists m :: 0 <= m < |links| && links[m].0 == i
  }

  /** The draws node `i`'s turn takes from position `p`: none when no later
      node is near (the `&&` stops before `Math.random()`), one when the
      coin fails, and two when it passes and a target is picked. */
  function Cost(nodes: seq<Node>, rand: nat -> real, i: nat, p: nat): nat
    requires i < |nodes|
  {
    if |NearFrom(nodes, i, i + 1)| == 0 then 0 else if rand(p) > 0.6 then 2 else 1
  }

  /** `Math.floor(r * n)`. */
  function PickIndex(n: nat, r: real): int {
    (r * n as real).Floor
  }

  /** `nearbyNodes[Math.floor(rand(p) * nearbyNodes.length)]` for node `i`,
      or -1 when that index falls outside the list. */
  function Target(nodes: seq<Node>, rand: nat -> real, i: nat, p: nat): int
    requires i < |nodes|
  {
    var near := NearFrom(nodes, i, i + 1);
    var k := PickIndex(|near|, rand(p));
    if 0 <= k < |near| then near[k] else -1
  }

  /** With a later node near, the pick is one of them. */
  lemma TargetNear(nodes: seq<Node>, rand: nat -> real, i: nat, p: nat)
    requires Oracle(rand) && i < |nodes| && |NearFrom(nodes, i, i + 1)| > 0
    ensures var t := Target(nodes, rand, i, p);
      i < t < |nodes| && NearAt(nodes, i, t)
  {
    var flags := NearFlags(nodes, i);
    var near := Kept(flags, i + 1);
    KeptExact(flags, i + 1);
    FloorIndex(rand(p), |near|);
    var k := PickIndex(|near|, rand(p));
    var t := near[k];
    assert Target(nodes, rand, i, p) == t;
    assert i + 1 <= t < |nodes| && flags[t];
    FlagMeans(nodes, i, t);
  }

  /** Where the turns of the first `n` nodes start drawing, and where the
      next draw comes from: the first turn at `pos`, each later one after
      the draws of the turn before. */
  function Schedule(nodes: seq<Node>, rand: nat -> real, pos: nat, n: nat): (r: (seq<nat>, nat))
    requires n <= |nodes|
    ensures |r.0| == n
  {
    if n == 0 then ([], pos)
    else
      var prev := Schedule(nodes, rand, pos, n - 1);
      (prev.0 + [prev.1], prev.1 + Cost(nodes, rand, n - 1, prev.1))
  }

  /** One more turn extends the schedule by where it starts. */
  lemma ScheduleNext(nodes: seq<Node>, rand: nat -> real, pos: nat, n: nat, at: seq<nat>, p: nat)
    requires n < |nodes| && (at, p) == Schedule(nodes, rand, pos, n)
    ensures (at + [p], p + Cost(nodes, rand, n, p)) == Schedule(nodes, rand, pos, n + 1)
  {
  }

  /** Node `j`'s coin was drawn at `p` and passed. */
  predicate Coin(nodes: seq<Node>, rand: nat -> real, j: nat, p: nat)
    requires j < |nodes|
  {
    |NearFrom(nodes, j, j + 1)| > 0 && rand(p) > 0.6
  }

  /** Each node before `i` started a trace exactly when its coin passed. */
  predicate Decided(nodes: seq<Node>, rand: nat -> real, at: seq<nat>, links: seq<(nat, nat)>, i: nat)
    requires i <= |at| <= |nodes|
  {
    forall j :: 0 <= j < i ==> (Starts(links, j) <==> Coin(nodes, rand, j, at[j]))
  }

  /** Every trace so far starts before `i` and ends at the node its draw
      picked. */
  predicate Chosen(nodes: seq<Node>, rand: nat -> real, at: seq<nat>, links: seq<(nat, nat)>, i: nat)
    requires i <= |at| <= |nodes|
  {
    forall m :: 0 <= m < |links| ==> links[m].0 < i && links[m].1 == Target(nodes, rand, links[m].0, at[links[m].0] + 1)
  }

  lemma DecidedLonger(nodes: seq<Node>, rand: nat -> real, at: seq<nat>, links: seq<(nat, nat)>, i: nat, p: nat)
    requires i <= |at| < |nodes| && Decided(nodes, rand, at, links, i)
    ensures Decided(nodes, rand, at + [p], links, i)
  {
    var at' := at + [p];
    forall j | 0 <= j < i ensures Starts(links, j) <==> Coin(nodes, rand, j, at'[j]) {
      assert at'[j] == at[j];
    }
  }

  lemma ChosenLonger(nodes: seq<Node>, rand: nat -> real, at: seq<nat>, links: seq<(nat, nat)>, i: nat, p: nat)
    requires i <= |at| < |nodes| && Chosen(nodes, rand, at, links, i)
    ensures Chosen(nodes, rand, at + [p], links, i)
  {
    var at' := at + [p];
    forall m | 0 <= m < |links|
      ensures links[m].0 < i && links[m].1 == Target(nodes, rand, links[m].0, at'[links[m].0] + 1)
    {
      assert at'[links[m].0] == at[links[m].0];
    }
  }

  /** A node whose coin is not drawn or fails starts no trace. */
  lemma DecidedSkip(nodes: seq<Node>, rand: nat -> real, at: seq<nat>, links: seq<(nat, nat)>, i: nat)
    requires i < |at| <= |nodes| && Decided(nodes, rand, at, links, i)
    requires forall m :: 0 <= m < |links| ==> links[m].0 < i
    requires !Coin(nodes, rand, i, at[i])
    ensures Decided(nodes, rand, at, links, i + 1)
  {
    assert !Starts(links, i);
  }

  /** A node whose coin passes starts its trace. */
  lemma DecidedLink(nodes: seq<Node>, rand: nat -> real, at: seq<nat>, links: seq<(nat, nat)>, i: nat, t: nat)
    requires i < |at| <= |nodes| && Decided(nodes, rand, at, links, i)
    requires forall m :: 0 <= m < |links| ==> links[m].0 < i
    requires Coin(nodes, rand, i, at[i])
    ensures Decided(nodes, rand, at, links + [(i, t)], i + 1)
  {
    assert !Starts(links, i);
    forall j | 0 <= j <= i
      ensures Starts(links + [(i, t)], j) <==> Coin(nodes, rand, j, at[j])
    {
      StartsExtend(links, i, t, j);
    }
  }

  /** ... and it ends at the picked node. */
  lemma ChosenLink(nodes: seq<Node>, rand: nat -> real, at: seq<nat>, links: seq<(nat, nat)>, i: nat, t: nat, p: nat)
    requires i < |at| <= |nodes| && Chosen(nodes, rand, at, links, i)
    requires at[i] == p && t == Target(nodes, rand, i, p + 1)
    ensures Chosen(nodes, rand, at, links + [(i, t)], i + 1)
  {
    var links' := links + [(i, t)];
    forall m | 0 <= m < |links'|
      ensures links'[m].0 < i + 1 && links'[m].1 == Target(nodes, rand, links'[m].0, at[links'[m].0] + 1)
    {
      if m < |links| {
        assert links'[m] == links[m];
        assert links[m].0 < i && links[m].1 == Target(nodes, rand, links[m].0, at[links[m].0] + 1);
      } else {
        assert links'[m] == (i, t);
      }
    }
  }

  /** A link added for node `i` starts there and nowhere else. */
  lemma StartsExtend(links: seq<(nat, nat)>, i: nat, t: nat, j: nat)
    ensures Starts(links + [(i, t)], j) <==> Starts(links, j) || j == i
  {
    var links' := links + [(i, t)];
    if Starts(links, j) {
      var m :| 0 <= m < |links| && links[m].0 == j;
      assert links'[m] == links[m];
    }
    if j == i {
      assert links'[|links|].0 == i;
    }
    if Starts(links', j) && j != i {
      var m :| 0 <= m < |links'| && links'[m].0 == j;
      assert links[m] == links'[m];
    }
  }

  /** The wiring loop's invariant once the nodes before `i` have had their
      turn. */
  predicate Progress(nodes: seq<Node>, rand: nat -> real, pos: nat, i: nat,
                     ns: seq<Node>, links: seq<(nat, nat)>, traces: seq<Prim>, at: seq<nat>, next: nat) {
    && i <= |nodes| && pos <= next
    && Wired(nodes, i, ns, links, traces)
    && (at, next) == Schedule(nodes, rand, pos, i)
    && Decided(nodes, rand, at, links, i) && Chosen(nodes, rand, at, links, i)
  }

  /** A turn whose coin passes: the trace to the picked node is added. */
  lemma LinkTurn(nodes: seq<Node>, rand: nat -> real, pos: nat, i: nat,
                 ns: seq<Node>, links: seq<(nat, nat)>, traces: seq<Prim>, at: seq<nat>, next: nat)
    requires Oracle(rand) && i < |nodes|
    requires Progress(nodes, rand, pos, i, ns, links, traces, at, next)
    requires Coin(nodes, rand, i, next)
    ensures var t := Target(nodes, rand, i, next + 1);
      && i < t < |nodes|
      && Progress(nodes, rand, pos, i + 1, ns[i := ns[i].(connected := true)][t := ns[t].(connected := true)],
           links + [(i, t as nat)], traces + Route(nodes[i], nodes[t]), at + [next], next + 2)
  {
    TargetNear(nodes, rand, i, next + 1);
    var t: nat := Target(nodes, rand, i, next + 1);
    ScheduleNext(nodes, rand, pos, i, at, next);
    assert Cost(nodes, rand, i, next) == 2;
    RecordLink(nodes, rand, at, links, i, t, next);
    AddLink(nodes, i, t, ns, links, traces);
  }

  /** The turn starting at `p` is recorded, and its passing coin adds the
      link to the picked node. */
  lemma RecordLink(nodes: seq<Node>, rand: nat -> real, at: seq<nat>, links: seq<(nat, nat)>, i: nat, t: nat, p: nat)
    requires i == |at| < |nodes|
    requires Decided(nodes, rand, at, links, i) && Chosen(nodes, rand, at, links, i)
    requires Coin(nodes, rand, i, p) && t == Target(nodes, rand, i, p + 1)
    ensures Decided(nodes, rand, at + [p], links + [(i, t)], i + 1)
    ensures Chosen(nodes, rand, at + [p], links + [(i, t)], i + 1)
  {
    DecidedLonger(nodes, rand, at, links, i, p);
    ChosenLonger(nodes, rand, at, links, i, p);
    var at' := at + [p];
    assert at'[i] == p;
    DecidedLink(nodes, rand, at', links, i, t);
    ChosenLink(nodes, rand, at', links, i, t, p);
  }

  /** The turn starting at `p` is recorded, and its coin, not passing,
      adds nothing. */
  lemma RecordSkip(nodes: seq<Node>, rand: nat -> real, at: seq<nat>, links: seq<(nat, nat)>, i: nat, p: nat)
    requires i == |at| < |nodes|
    requires Decided(nodes, rand, at, links, i) && Chosen(nodes, rand, at, links, i)
    requires !Coin(nodes, rand, i, p)
    ensures Decided(nodes, rand, at + [p], links, i + 1)
    ensures Chosen(nodes, rand, at + [p], links, i + 1)
  {
    DecidedLonger(nodes, rand, at, links, i, p);
    ChosenLonger(nodes, rand, at, links, i, p);
    var at' := at + [p];
    assert at'[i] == p;
    DecidedSkip(nodes, rand, at', links, i);
  }

  /** A turn whose coin is not drawn or fails adds nothing. */
  lemma SkipTurn(nodes: seq<Node>, rand: nat -> real, pos: nat, i: nat,
                 ns: seq<Node>, links: seq<(nat, nat)>, traces: seq<Prim>, at: seq<nat>, next: nat)
    requires i < |nodes|
    requires Progress(nodes, rand, pos, i, ns, links, traces, at, next)
    requires !Coin(nodes, rand, i, next)
    ensures Progress(nodes, rand, pos, i + 1, ns, links, traces, at + [next],
      next + if |NearFrom(nodes, i, i + 1)| > 0 then 1 else 0)
  {
    ScheduleNext(nodes, rand, pos, i, at, next);
    RecordSkip(nodes, rand, at, links, i, next);
    WiredWiden(nodes, i, ns, links, traces);
  }

  /** A turn whose coin passes: the draw after the coin picks the target,
      its trace is drawn and both ends are marked connected. */
  method Connect(nodes: seq<Node>, rand: nat -> real, pos: nat, i: nat,
                 ns: seq<Node>, links: seq<(nat, nat)>, traces: seq<Prim>, at: seq<nat>, next: nat)
    returns (ns': seq<Node>, links': seq<(nat, nat)>, traces': seq<Prim>, next': nat)
    requires Oracle(rand) && i < |nodes|
    requires Progress(nodes, rand, pos, i, ns, links, traces, at, next)
    requires Coin(nodes, rand, i, next)
    ensures Progress(nodes, rand, pos, i + 1, ns', links', traces', at + [next], next')
    ensures |links'| == |links| + 1 && links'[..|links|] == links && links'[|links|].0 == i
      && links'[|links|].1 == Target(nodes, rand, i, next + 1)
  {
    LinkTurn(nodes, rand, pos, i, ns, links, traces, at, next);
    var t: nat := Target(nodes, rand, i, next + 1);
    ns' := ns[i := ns[i].(connected := true)][t := ns[t].(connected := true)];
    links', traces', next' := links + [(i, t)], traces + Route(nodes[i], nodes[t]), next + 2;
    assert links'[..|links|] == links;
  }

  /** One turn of the wiring loop for node `i`, drawing from `next`. When
      some later node is near and the draw at `next` exceeds 0.6, the draw
      after it picks the target, the trace is drawn and both ends are
      marked connected; otherwise nothing changes. Either way the loop's
      invariant holds for the next node. */
  method Step(nodes: seq<Node>, rand: nat -> real, pos: nat, i: nat,
              ns: seq<Node>, links: seq<(nat, nat)>, traces: seq<Prim>, at: seq<nat>, next: nat)
    returns (ns': seq<Node>, links': seq<(nat, nat)>, traces': seq<Prim>, next': nat)
    requires Oracle(rand) && i < |nodes|
    requires Progress(nodes, rand, pos, i, ns, links, traces, at, next)
    ensures Progress(nodes, rand, pos, i + 1, ns', links', traces', at + [next], next')
    ensures Coin(nodes, rand, i, next) ==>
      |links'| == |links| + 1 && links'[..|links|] == links && links'[|links|].0 == i
      && links'[|links|].1 == Target(nodes, rand, i, next + 1)
    ensures !Coin(nodes, rand, i, next) ==> ns' == ns && links' == links && traces' == traces
  {
    if Coin(nodes, rand, i, next) {
      ns', links', traces', next' := Connect(nodes, rand, pos, i, ns, links, traces, at, next);
    } else {
      SkipTurn(nodes, rand, pos, i, ns, links, traces, at, next);
      ns', links', traces' := ns, links, traces;
      next' := next + if |NearFrom(nodes, i, i + 1)| > 0 then 1 else 0;
    }
  }

  /** After the last turn, the invariant gives the loop's result. */
  lemma Finished(nodes: seq<Node>, rand: nat -> real, pos: nat,
                 i: nat, ns: seq<Node>, links: seq<(nat, nat)>, traces: seq<Prim>, at: seq<nat>, next: nat)
    requires Progress(nodes, rand, pos, i, ns, links, traces, at, next) && i >= |nodes|
    ensures pos <= next
    ensures Wired(nodes, |nodes|, ns, links, traces)
    ensures (at, next) == Schedule(nodes, rand, pos, |nodes|)
    ensures Decided(nodes, rand, at, links, |nodes|) && Chosen(nodes, rand, at, links, |nodes|)
  {
  }

  /** Before the first turn, nothing is wired and nothing drawn. */
  lemma Started(nodes: seq<Node>, rand: nat -> real, pos: nat)
    ensures Progress(nodes, rand, pos, 0, nodes, [], [], [], pos)
  {
  }

  /** The wiring loop (`nodes.forEach`): for each node in turn, when some
      later node is near it and a draw exceeds 0.6, a second draw picks one
      of the near nodes, the trace is drawn and both ends are marked
      connected. `at[i]` is where node `i`'s turn starts drawing. A node
      starts a trace exactly when some later node is near it and its coin
      passes, and the trace ends at the near node the second draw picks.
      Nothing else changes: the nodes keep their places, and afterwards a
      node is connected exactly when it was before or it ends some trace.
      The filter reads only positions, which the loop never changes, so it
      is taken over the nodes as they were placed. */
  method Wire(nodes: seq<Node>, rand: nat -> real, pos: nat)
    returns (ns: seq<Node>, links: seq<(nat, nat)>, traces: seq<Prim>, at: seq<nat>, next: nat)
    requires Oracle(rand)
    ensures pos <= next
    ensures Wired(nodes, |nodes|, ns, links, traces)
    ensures (at, next) == Schedule(nodes, rand, pos, |nodes|)
    ensures Decided(nodes, rand, at, links, |nodes|) && Chosen(nodes, rand, at, links, |nodes|)
  {
    ns, links, traces, at, next := nodes, [], [], [], pos;
    var i := 0;
    Started(nodes, rand, pos);
    while i < |nodes|
      invariant Progress(nodes, rand, pos, i, ns, links, traces, at, next)
    {
      var ns', links', traces', next' := Step(nodes, rand, pos, i, ns, links, traces, at, next);
      ns, links, traces, at, next := ns', links', traces', at + [next], next';
      i := i + 1;
    }
    Finished(nodes, rand, pos, i, ns, links, traces, at, next);
  }

  // ---------------------------------------------------------------------
  // Components, nodes and vias

  /** How many pins a component gets from its draw: 2 to 7. */
  function PinCount(r: real): int {
    (r * 6.0).Floor + 2
  }

  lemma PinCountRange(r: real)
    requires 0.0 <= r < 1.0
    ensures 2 <= PinCount(r) <= 7
  {
  }

  /** A pin's two 5-pixel leads, up from the top edge and down from the
      bottom edge. */
  function PinLeads(px: real, y: real, h: real): seq<Prim> {
    [Segment(px, y, px, y - 5.0), Segment(px, y + h, px, y + h + 5.0)]
  }

  /** The first `count` pins of a component with `n`: pin `p` (from 1)
      sits at `p / (n + 1)` of the width. */
  function PinsOf(x: real, y: real, w: real, h: real, count: nat, n: nat): (r: seq<Prim>)
    ensures |r| == 2 * count
    ensures forall k :: 0 <= k < |r| ==> r[k].Segment? && r[k].x1 == r[k].x2
    decreases count
  {
    if count == 0 then []
    else PinsOf(x, y, w, h, count - 1, n) + PinLeads(x + (count as real * w) / ((n + 1) as real), y, h)
  }

  /** Pin `p` of `n` stands strictly within the component's width. */
  lemma PinInside(x: real, w: real, p: nat, n: nat)
    requires 0.0 < w && 1 <= p <= n
    ensures x < x + (p as real * w) / ((n + 1) as real) < x + w
  {
    var f := (p as real * w) / ((n + 1) as real);
    assert f * (n + 1) as real == p as real * w;
    assert p as real * w < (n + 1) as real * w;
  }

  /** Every pin stands strictly within the component's width. */
  lemma {:induction false} PinsInside(x: real, y: real, w: real, h: real, count: nat, n: nat)
    requires 0.0 < w && count <= n
    ensures forall k :: 0 <= k < |PinsOf(x, y, w, h, count, n)| ==> x < PinsOf(x, y, w, h, count, n)[k].x1 < x + w
    decreases count
  {
    if count > 0 {
      PinsInside(x, y, w, h, count - 1, n);
      var px := x + (count as real * w) / ((n + 1) as real);
      PinInside(x, w, count, n);
      var r := PinsOf(x, y, w, h, count, n);
      var a := PinsOf(x, y, w, h, count - 1, n);
      assert r == a + PinLeads(px, y, h);
      forall k | 0 <= k < |r| ensures x < r[k].x1 < x + w {
        if k < |a| {
          assert r[k] == a[k];
        } else {
          assert r[k].x1 == px;
        }
      }
    }
  }

  /** A draw scales a length to at most that length, strictly below it when
      the length is positive. */
  lemma ScaleBounds(r: real, a: real)
    requires 0.0 <= r < 1.0
    ensures a >= 0.0 ==> 0.0 <= r * a <= a
    ensures a > 0.0 ==> r * a < a
  {
    if a > 0.0 {
      assert a - r * a == (1.0 - r) * a;
      assert (1.0 - r) * a > 0.0;
    }
  }

  /** `Math.random() * span + lo`: within `[lo, lo + span)` for a positive
      span. */
  function Spread(r: real, lo: real, span: real): (v: real)
    requires 0.0 <= r < 1.0
    ensures span >= 0.0 ==> lo <= v <= lo + span
    ensures span > 0.0 ==> v < lo + span
  {
    ScaleBounds(r, span);
    r * span + lo
  }

  /** A component: corner, size and pin count. */
  datatype Part = Part(x: real, y: real, w: real, h: real, pins: nat)

  /** A component's five draws: its corner 30 to `width - 30` across and 20
      to `height - 20` down (on a canvas at least 60 by 40), a width of 20
      to 60 and a height of 10 to 30, and 2 to 7 pins. */
  function PartAt(width: real, height: real, rand: nat -> real, pos: nat): (c: Part)
    requires Oracle(rand)
    ensures 20.0 <= c.w < 60.0 && 10.0 <= c.h < 30.0 && 2 <= c.pins <= 7
    ensures width >= 60.0 ==> 30.0 <= c.x <= width - 30.0
    ensures height >= 40.0 ==> 20.0 <= c.y <= height - 20.0
  {
    PinCountRange(rand(pos + 4));
    Part(Spread(rand(pos), 30.0, width - 60.0), Spread(rand(pos + 1), 20.0, height - 40.0),
      Spread(rand(pos + 2), 20.0, 40.0), Spread(rand(pos + 3), 10.0, 20.0), PinCount(rand(pos + 4)))
  }

  /** The component's outline, then its pins' leads. */
  function DrawPart(c: Part): (r: seq<Prim>)
    ensures |r| == 1 + 2 * c.pins
  {
    [StrokeRect(c.x, c.y, c.w, c.h)] + PinsOf(c.x, c.y, c.w, c.h, c.pins, c.pins)
  }

  /** A component is its outline followed by leads that all stand strictly
      within the outline's width. */
  lemma PartShape(c: Part)
    requires c.w > 0.0
    ensures var r := DrawPart(c);
      && r[0] == StrokeRect(c.x, c.y, c.w, c.h)
      && forall k :: 1 <= k < |r| ==> r[k].Segment? && c.x < r[k].x1 < c.x + c.w
  {
    var pins := PinsOf(c.x, c.y, c.w, c.h, c.pins, c.pins);
    PinsInside(c.x, c.y, c.w, c.h, c.pins, c.pins);
    var r := DrawPart(c);
    assert forall k :: 1 <= k < |r| ==> r[k] == pins[k - 1];
  }

  /** One component from five draws. */
  function Component(width: real, height: real, rand: nat -> real, pos: nat): (r: seq<Prim>)
    requires Oracle(rand)
    ensures 5 <= |r| <= 15
  {
    DrawPart(PartAt(width, height, rand, pos))
  }

  /** Components `i` to 14, five draws each. */
  function Components(width: real, height: real, rand: nat -> real, pos: nat, i: nat): (r: seq<Prim>)
    requires Oracle(rand) && i <= 15
    ensures 5 * (15 - i) <= |r| <= 15 * (15 - i)
    decreases 15 - i
  {
    if i == 15 then [] else Component(width, height, rand, pos) + Components(width, height, rand, pos + 5, i + 1)
  }

  /** A wired node is a filled dot of radius 2, an unwired one an outlined
      dot of radius 1. */
  function Dots(ns: seq<Node>): (r: seq<Prim>)
  {
    seq(|ns|, k requires 0 <= k < |ns| =>
      if ns[k].connected then Disc(ns[k].x as real, ns[k].y as real, 2.0, true)
      else Disc(ns[k].x as real, ns[k].y as real, 1.0, false))
  }

  /** `p` is the dot drawn for node `n`: centred on it, filled with radius 2
      when the node is wired, outlined with radius 1 otherwise. */
  predicate DotOf(p: Prim, n: Node, wired: bool) {
    && p.Disc? && p.cx == n.x as real && p.cy == n.y as real
    && p.filled == wired && p.r == (if wired then 2.0 else 1.0)
  }

  /** In a drawing whose node-dot block is `Dots(nodes)`, the dot of node `k`
      is filled exactly when a link ends at `k`. */
  lemma DotsMarkEndpoints(r: seq<Prim>, nodes: seq<Node>, links: seq<(nat, nat)>)
    requires |r| >= |nodes| + 50
    requires r[|r| - 50 - |nodes| .. |r| - 50] == Dots(nodes)
    requires forall k :: 0 <= k < |nodes| ==> (nodes[k].connected <==> Endpoint(links, k))
    ensures forall k :: 0 <= k < |nodes| ==> DotOf(r[|r| - 50 - |nodes| + k], nodes[k], Endpoint(links, k))
  {
    forall k | 0 <= k < |nodes|
      ensures DotOf(r[|r| - 50 - |nodes| + k], nodes[k], Endpoint(links, k))
    {
      assert r[|r| - 50 - |nodes| + k] == r[|r| - 50 - |nodes| .. |r| - 50][k];
    }
  }

  /** A route depends only on where its two nodes sit. */
  lemma RouteSame(a: Node, b: Node, c: Node, d: Node)
    requires a.x == c.x && a.y == c.y && b.x == d.x && b.y == d.y
    ensures Route(a, b) == Route(c, d)
  {
  }

  /** Wiring moves no node, so the routes drawn between the placed nodes
      are the routes between the wired ones. */
  lemma TracedSame(nodes: seq<Node>, ns: seq<Node>, links: seq<(nat, nat)>, traces: seq<Prim>)
    requires |ns| == |nodes|
    requires forall k :: 0 <= k < |ns| ==> ns[k].x == nodes[k].x && ns[k].y == nodes[k].y
    requires forall m :: 0 <= m < |links| ==> links[m].1 < |nodes| && links[m].0 < |nodes|
    requires Traced(nodes, links, traces)
    ensures Traced(ns, links, traces)
  {
    forall m | 0 <= m < |links|
      ensures traces[3 * m .. 3 * m + 3] == Route(ns[links[m].0], ns[links[m].1])
    {
      RouteSame(nodes[links[m].0], nodes[links[m].1], ns[links[m].0], ns[links[m].1]);
    }
  }

  /** Wiring moves no node, so linked nodes stay near each other. */
  lemma NearSame(nodes: seq<Node>, ns: seq<Node>, links: seq<(nat, nat)>)
    requires |ns| == |nodes|
    requires forall k :: 0 <= k < |ns| ==> ns[k].x == nodes[k].x && ns[k].y == nodes[k].y
    requires forall m :: 0 <= m < |links| ==> links[m].0 < links[m].1 < |nodes| && Near(nodes[links[m].0], nodes[links[m].1])
    ensures forall m :: 0 <= m < |links| ==> links[m].0 < links[m].1 < |ns| && Near(ns[links[m].0], ns[links[m].1])
  {
    forall m | 0 <= m < |links| ensures Near(ns[links[m].0], ns[links[m].1]) {
      var a, b := links[m].0, links[m].1;
      assert ns[a].x == nodes[a].x && ns[a].y == nodes[a].y;
      assert ns[b].x == nodes[b].x && ns[b].y == nodes[b].y;
    }
  }

  /** Behind the background, the drawing still holds each trace's route. */
  lemma TracedAfter(nodes: seq<Node>, links: seq<(nat, nat)>, traces: seq<Prim>, bg: Prim, tail: seq<Prim>)
    requires forall m :: 0 <= m < |links| ==> links[m].1 < |nodes| && links[m].0 < |nodes|
    requires Traced(nodes, links, traces)
    ensures forall m :: 0 <= m < |links| ==>
      ([bg] + traces + tail)[1 + 3 * m .. 1 + 3 * m + 3] == Route(nodes[links[m].0], nodes[links[m].1])
  {
    forall m | 0 <= m < |links|
      ensures ([bg] + traces + tail)[1 + 3 * m .. 1 + 3 * m + 3] == Route(nodes[links[m].0], nodes[links[m].1])
    {
      Middle([bg], traces, tail, 3 * m, 3 * m + 3);
    }
  }

  /** Nodes placed at the visited points sit on the grid. */
  lemma PlacedOnGrid(width: int, height: int, placed: seq<Node>)
    requires forall k :: 0 <= k < |placed| ==> (placed[k].x, placed[k].y) in Points(width, height, GridSize)
    ensures forall k :: 0 <= k < |placed| ==> OnGrid(width, height, (placed[k].x, placed[k].y))
  {
    forall k | 0 <= k < |placed| ensures OnGrid(width, height, (placed[k].x, placed[k].y)) {
      AllGridPoints(width, height, (placed[k].x, placed[k].y));
    }
  }

  /** Starting from unwired nodes, a node ends up wired exactly when a
      trace ends at it. */
  lemma FlagsFresh(nodes: seq<Node>, ns: seq<Node>, links: seq<(nat, nat)>)
    requires |ns| == |nodes| && Flags(nodes, ns, links)
    requires forall k :: 0 <= k < |nodes| ==> !nodes[k].connected
    ensures forall k :: 0 <= k < |ns| ==> (ns[k].connected <==> Endpoint(links, k))
  {
  }

  /** The nodes the placement pass makes on a `width` by `height` canvas. */
  function Placed(width: int, height: int, rand: nat -> real): seq<Node> {
    Place(Points(width, height, GridSize), rand, 0)
  }

  /** Where each placed node's wiring turn starts drawing (the placement
      pass takes one draw per grid point first), and where the draws after
      the wiring start. */
  function Turns(width: int, height: int, rand: nat -> real): (r: (seq<nat>, nat))
    ensures |r.0| == |Placed(width, height, rand)|
  {
    var placed := Placed(width, height, rand);
    Schedule(placed, rand, |Points(width, height, GridSize)|, |placed|)
  }

  /** The board's nodes and traces: one node per placed point, in the same
      place; the nodes sit on grid points; a node starts a trace exactly
      when some later node is near it and its coin passes, and the trace
      ends at the near node the second draw picks; a node is wired exactly
      when a trace ends at it; every trace joins a node to a later one one
      to three grid steps away; and the traces are drawn in order. */
  method Board(width: int, height: int, rand: nat -> real)
    returns (nodes: seq<Node>, links: seq<(nat, nat)>, traces: seq<Prim>, placed: seq<Node>, at: seq<nat>, next: nat)
    requires Oracle(rand)
    ensures placed == Placed(width, height, rand) && (at, next) == Turns(width, height, rand)
    ensures |nodes| == |placed| && forall k :: 0 <= k < |nodes| ==> nodes[k].x == placed[k].x && nodes[k].y == placed[k].y
    ensures forall i :: 0 <= i < |nodes| ==> (Starts(links, i) <==> Coin(placed, rand, i, at[i]))
    ensures forall m :: 0 <= m < |links| ==> links[m].0 < |nodes| && links[m].1 == Target(placed, rand, links[m].0, at[links[m].0] + 1)
    ensures forall k :: 0 <= k < |nodes| ==> OnGrid(width, height, (nodes[k].x, nodes[k].y))
    ensures forall k :: 0 <= k < |nodes| ==> (nodes[k].connected <==> Endpoint(links, k))
    ensures forall m :: 0 <= m < |links| ==> links[m].0 < links[m].1 < |nodes| && Near(nodes[links[m].0], nodes[links[m].1])
    ensures Traced(nodes, links, traces)
  {
    var points := Points(width, height, GridSize);
    placed := Place(points, rand, 0);
    PlacedOnGrid(width, height, placed);
    nodes, links, traces, at, next := Wire(placed, rand, |points|);
    FlagsFresh(placed, nodes, links);
    NearSame(placed, nodes, links);
    TracedSame(placed, nodes, links, traces);
  }

  /** Where the node dots fall in the drawing. */
  lemma Layout(bg: Prim, traces: seq<Prim>, parts: seq<Prim>, dots: seq<Prim>, vias: seq<Prim>)
    ensures var r := [bg] + traces + (parts + dots + vias);
      && |r| == 1 + |traces| + |parts| + |dots| + |vias|
      && r[0] == bg
      && r[|r| - |vias| - |dots| .. |r| - |vias|] == dots
      && r[|r| - |vias|..] == vias
  {
    var r := [bg] + traces + (parts + dots + vias);
    assert r == [bg] + traces + parts + dots + vias;
    Middle([bg] + traces + parts, dots, vias, 0, |dots|);
  }

  /** The component loop: 15 components from draws `pos` on. */
  method PlaceComponents(width: real, height: real, rand: nat -> real, pos: nat) returns (parts: seq<Prim>)
    requires Oracle(rand)
    ensures 75 <= |parts| <= 225
  {
    parts := Components(width, height, rand, pos, 0);
  }

  /** `s` is 25 vias from draw `pos` on: via `k` is an outlined ring of
      radius 1.5 around a filled hole of radius 0.5, at `rand(pos + 2k)` of
      the width and `rand(pos + 2k + 1)` of the height. */
  predicate Vias(s: seq<Prim>, width: real, height: real, rand: nat -> real, pos: nat) {
    && |s| == 50
    && forall k :: 0 <= k < 25 ==>
      var x, y := rand(pos + 2 * k) * width, rand(pos + 2 * k + 1) * height;
      s[2 * k] == Disc(x, y, 1.5, false) && s[2 * k + 1] == Disc(x, y, 0.5, true)
  }

  /** The via loop: 25 vias, each an outlined ring of radius 1.5 around a
      filled hole of radius 0.5, at a point anywhere on the canvas given by
      two draws from `pos` on. */
  method PlaceVias(width: real, height: real, rand: nat -> real, pos: nat) returns (vias: seq<Prim>)
    ensures Vias(vias, width, height, rand, pos)
  {
    vias := [];
    var i := 0;
    while i < 25
      invariant 0 <= i <= 25 && |vias| == 2 * i
      invariant forall k :: 0 <= k < i ==>
        var x, y := rand(pos + 2 * k) * width, rand(pos + 2 * k + 1) * height;
        vias[2 * k] == Disc(x, y, 1.5, false) && vias[2 * k + 1] == Disc(x, y, 0.5, true)
    {
      var x, y := rand(pos + 2 * i) * width, rand(pos + 2 * i + 1) * height;
      vias := vias + [Disc(x, y, 1.5, false), Disc(x, y, 0.5, true)];
      i := i + 1;
    }
  }

  /** The drawing after the wiring: background, traces, the 15 components,
      node dots and the 25 vias. */
  method Assemble(width: int, height: int, rand: nat -> real, next: nat, traces: seq<Prim>, nodes: seq<Node>)
    returns (r: seq<Prim>)
    requires Oracle(rand)
    ensures 1 + |traces| + 75 + |nodes| + 50 <= |r| <= 1 + |traces| + 225 + |nodes| + 50
    ensures r[0] == FillRect(0.0, 0.0, width as real, height as real)
    ensures forall k :: 0 <= k < |traces| ==> r[1 + k] == traces[k]
    ensures r[|r| - 50 - |nodes| .. |r| - 50] == Dots(nodes)
    ensures Vias(r[|r| - 50..], width as real, height as real, rand, next + 75)
  {
    var parts := PlaceComponents(width as real, height as real, rand, next);
    var vias := PlaceVias(width as real, height as real, rand, next + 75);
    var bg := FillRect(0.0, 0.0, width as real, height as real);
    var dots := Dots(nodes);
    r := Stack(bg, traces, parts, dots, vias);
  }

  /** The layers in drawing order: background, traces, components, node
      dots, vias. */
  method Stack(bg: Prim, traces: seq<Prim>, parts: seq<Prim>, dots: seq<Prim>, vias: seq<Prim>) returns (r: seq<Prim>)
    ensures |r| == 1 + |traces| + |parts| + |dots| + |vias|
    ensures r[0] == bg
    ensures forall k :: 0 <= k < |traces| ==> r[1 + k] == traces[k]
    ensures r[|r| - |vias| - |dots| .. |r| - |vias|] == dots
    ensures r[|r| - |vias|..] == vias
  {
    r := [bg] + traces + (parts + dots + vias);
    Layout(bg, traces, parts, dots, vias);
    TracesFirst(bg, traces, parts + dots + vias);
  }

  /** The traces come straight after the background. */
  lemma TracesFirst(bg: Prim, traces: seq<Prim>, rest: seq<Prim>)
    ensures var r := [bg] + traces + rest;
      forall k :: 0 <= k < |traces| ==> r[1 + k] == traces[k]
  {
  }

  /** `render`: background, traces, components, node dots, vias. The board
      is as `Board` says; the 25 vias come last, each a ring around a hole
      at a point given by two draws after the 75 component draws. */
  method Render(width: int, height: int, rand: nat -> real)
    returns (r: seq<Prim>, nodes: seq<Node>, links: seq<(nat, nat)>, placed: seq<Node>, at: seq<nat>, next: nat)
    requires Oracle(rand)
    ensures placed == Placed(width, height, rand) && (at, next) == Turns(width, height, rand)
    ensures |nodes| == |placed| && forall k :: 0 <= k < |nodes| ==> nodes[k].x == placed[k].x && nodes[k].y == placed[k].y
    ensures forall i :: 0 <= i < |nodes| ==> (Starts(links, i) <==> Coin(placed, rand, i, at[i]))
    ensures forall m :: 0 <= m < |links| ==> links[m].0 < |nodes| && links[m].1 == Target(placed, rand, links[m].0, at[links[m].0] + 1)
    ensures forall k :: 0 <= k < |nodes| ==> OnGrid(width, height, (nodes[k].x, nodes[k].y))
    ensures forall k :: 0 <= k < |nodes| ==> (nodes[k].connected <==> Endpoint(links, k))
    ensures forall m :: 0 <= m < |links| ==> links[m].0 < links[m].1 < |nodes| && Near(nodes[links[m].0], nodes[links[m].1])
    ensures |r| >= 1 + 3 * |links| + |nodes| + 50
    ensures r[0] == FillRect(0.0, 0.0, width as real, height as real)
    ensures forall m :: 0 <= m < |links| ==> r[1 + 3 * m .. 1 + 3 * m + 3] == Route(nodes[links[m].0], nodes[links[m].1])
    ensures r[|r| - 50 - |nodes| .. |r| - 50] == Dots(nodes)
    ensures forall k :: 0 <= k < |nodes| ==> DotOf(r[|r| - 50 - |nodes| + k], nodes[k], Endpoint(links, k))
    ensures Vias(r[|r| - 50..], width as real, height as real, rand, next + 75)
  {
    var traces;
    nodes, links, traces, placed, at, next := Board(width, height, rand);
    r := Assemble(width, height, rand, next, traces, nodes);
    assert r == [r[0]] + traces + r[1 + |traces|..];
    TracedAfter(nodes, links, traces, r[0], r[1 + |traces|..]);
    DotsMarkEndpoints(r, nodes, links);
  }
}

=== FILE: hatching.dfy ===
/** The hatching portrait (content/art/hatching-portrait.js): a 4-pixel grid
    over the canvas in which every cell whose shading density exceeds 0.1
    gets horizontal hatching, vertical cross-hatching above density 0.5 and
    both diagonals above 0.7. The density comes from where the cell's corner
    sits relative to an imagined face: nose, eyes, mouth and cheeks inside
    the face circle, a band of hair above it.

    The source compares `Math.sqrt(dx*dx + dy*dy)` with the radius; since
    both sides are non-negative, the model compares squares instead, which
    is the same test without the square root. */
module Hatching {
  import opened Canvas

  /** The grid pitch and hatch cell size. */
  const Pitch: int := 4

  /** The face: its centre, the canvas centre, and a radius of a quarter of
      the canvas's shorter side. */
  datatype Face = Face(cx: real, cy: real, radius: real)

  function FaceOf(width: nat, height: nat): (f: Face)
    ensures f.radius >= 0.0
  {
    var side := if width <= height then width else height;
    Face(width as real / 2.0, height as real / 2.0, side as real * 0.25)
  }

  function Abs(v: real): real {
    if v < 0.0 then -v else v
  }

  /** `getDensity(x, y)`: inside the face, the first region the point falls
      in decides (nose 0.7, eyes 0.8, mouth 0.6, cheeks 0.4, else 0.2);
      outside it, the upper half of a ring out to 1.3 radii is hair (0.9);
      everything else is blank. */
  function Density(f: Face, x: real, y: real): real {
    var dx := x - f.cx;
    var dy := y - f.cy;
    var d2 := dx * dx + dy * dy;
    if d2 < f.radius * f.radius then
      if Abs(dx) < 15.0 && dy > -20.0 && dy < 20.0 then 0.7
      else if ((dx > -40.0 && dx < -20.0) || (dx > 20.0 && dx < 40.0)) && dy > -40.0 && dy < -20.0 then 0.8
      else if Abs(dx) < 25.0 && dy > 30.0 && dy < 50.0 then 0.6
      else if Abs(dx) > 30.0 && Abs(dy) < 30.0 then 0.4
      else 0.2
    else if d2 < (f.radius * 1.3) * (f.radius * 1.3) && dy < 0.0 then 0.9
    else 0.0
  }

  /** The seven shades the map uses. */
  predicate Shade(d: real) {
    d == 0.0 || d == 0.2 || d == 0.4 || d == 0.6 || d == 0.7 || d == 0.8 || d == 0.9
  }

  lemma DensityShades(f: Face, x: real, y: real)
    ensures Shade(Density(f, x, y))
  {
  }

  /** The portrait is mirror-symmetric about the face's vertical centre
      line. */
  lemma DensityMirror(f: Face, dx: real, y: real)
    ensures Density(f, f.cx + dx, y) == Density(f, f.cx - dx, y)
  {
    assert (-dx) * (-dx) == dx * dx;
    assert f.cx + dx - f.cx == dx;
    assert f.cx - dx - f.cx == -dx;
  }

  /** A point is hatched exactly when it lies in the face, or in the hair
      ring above the face's centre. */
  lemma HatchedWhere(f: Face, x: real, y: real)
    requires f.radius >= 0.0
    ensures var dx, dy := x - f.cx, y - f.cy;
      Density(f, x, y) > 0.1 <==>
        dx * dx + dy * dy < f.radius * f.radius
        || (dx * dx + dy * dy < (f.radius * 1.3) * (f.radius * 1.3) && dy < 0.0)
  {
  }

  // ---------------------------------------------------------------------
  // One cell

  /** `Math.floor(density * 8)`. */
  function Lines(density: real): int {
    (density * 8.0).Floor
  }

  /** How many strokes a shade gets. */
  function Strokes(density: real): int {
    Lines(density) + (if density > 0.5 then Lines(density) else 0) + (if density > 0.7 then 2 else 0)
  }

  /** The spacing of `n` evenly spaced strokes across a cell. */
  function Gap(size: real, n: nat): real {
    size / (n + 1) as real
  }

  /** The horizontal strokes, the i-th at `i * gap` below the cell's top. */
  function Across(sx: real, sy: real, size: real, n: nat): seq<Prim> {
    seq(n, k => Segment(sx, sy + (k + 1) as real * Gap(size, n), sx + size, sy + (k + 1) as real * Gap(size, n)))
  }

  /** The vertical strokes, the i-th at `i * gap` right of the cell's left. */
  function Down(sx: real, sy: real, size: real, n: nat): seq<Prim> {
    seq(n, k => Segment(sx + (k + 1) as real * Gap(size, n), sy, sx + (k + 1) as real * Gap(size, n), sy + size))
  }

  /** `drawHatchArea(sx, sy, size, density)`: `lines` horizontal strokes
      evenly spaced down the cell, as many vertical ones across it when the
      density exceeds 0.5, and both diagonals when it exceeds 0.7. */
  function HatchArea(sx: real, sy: real, size: real, density: real): (h: seq<Prim>)
    requires 0.0 <= density
    ensures |h| == Strokes(density)
  {
    var n := Lines(density);
    Across(sx, sy, size, n)
    + (if density > 0.5 then Down(sx, sy, size, n) else [])
    + (if density > 0.7 then [Segment(sx, sy, sx + size, sy + size), Segment(sx + size, sy, sx, sy + size)] else [])
  }

  lemma NextMultiple(m: real, g: real)
    ensures (m + 1.0) * g - m * g == g
  {
  }

  /** The i-th of n evenly spaced strokes falls strictly inside the cell. */
  lemma Inside(i: int, n: nat, size: real)
    requires 1 <= i <= n && 0.0 < size
    ensures 0.0 < i as real * Gap(size, n) < size
  {
    var gap := Gap(size, n);
    assert gap * (n + 1) as real == size;
    assert i as real * gap < (n + 1) as real * gap;
  }

  /** The horizontal strokes span the cell, lie strictly between its top
      and bottom edges, and are `Gap` apart. */
  lemma AcrossShape(sx: real, sy: real, size: real, n: nat)
    requires 0.0 < size
    ensures var h := Across(sx, sy, size, n);
      && (forall k :: 0 <= k < n ==>
            (h[k].Segment? && h[k].y1 == h[k].y2 && h[k].x1 == sx && h[k].x2 == sx + size && sy < h[k].y1 < sy + size))
      && (forall k :: 0 <= k < n - 1 ==> h[k + 1].y1 - h[k].y1 == Gap(size, n))
  {
    var h := Across(sx, sy, size, n);
    forall k | 0 <= k < n
      ensures h[k].Segment? && h[k].y1 == h[k].y2 && h[k].x1 == sx && h[k].x2 == sx + size && sy < h[k].y1 < sy + size
      ensures k < n - 1 ==> h[k + 1].y1 - h[k].y1 == Gap(size, n)
    {
      Offset(size, n, k);
    }
  }

  /** The vertical strokes likewise, left to right. */
  lemma DownShape(sx: real, sy: real, size: real, n: nat)
    requires 0.0 < size
    ensures var h := Down(sx, sy, size, n);
      && (forall k :: 0 <= k < n ==>
            (h[k].Segment? && h[k].x1 == h[k].x2 && h[k].y1 == sy && h[k].y2 == sy + size && sx < h[k].x1 < sx + size))
      && (forall k :: 0 <= k < n - 1 ==> h[k + 1].x1 - h[k].x1 == Gap(size, n))
  {
    var h := Down(sx, sy, size, n);
    forall k | 0 <= k < n
      ensures h[k].Segment? && h[k].x1 == h[k].x2 && h[k].y1 == sy && h[k].y2 == sy + size && sx < h[k].x1 < sx + size
      ensures k < n - 1 ==> h[k + 1].x1 - h[k].x1 == Gap(size, n)
    {
      Offset(size, n, k);
    }
  }

  /** The k-th stroke's offset lies strictly inside the cell and one gap
      short of the next one's. */
  lemma Offset(size: real, n: nat, k: nat)
    requires 0.0 < size && k < n
    ensures 0.0 < (k + 1) as real * Gap(size, n) < size
    ensures (k + 2) as real * Gap(size, n) - (k + 1) as real * Gap(size, n) == Gap(size, n)
  {
    Inside(k + 1, n, size);
    NextMultiple((k + 1) as real, Gap(size, n));
  }

  /** Every stroke of a hatched cell lies in the cell. */
  lemma HatchAreaWithin(sx: real, sy: real, size: real, density: real)
    requires 0.0 <= density && 0.0 < size
    ensures forall p :: p in HatchArea(sx, sy, size, density) ==> Within(p, sx, sy, sx + size, sy + size)
  {
    var n := Lines(density);
    AcrossShape(sx, sy, size, n);
    DownShape(sx, sy, size, n);
    var a := Across(sx, sy, size, n);
    var d := Down(sx, sy, size, n);
    forall p | p in a ensures Within(p, sx, sy, sx + size, sy + size) {
      var k :| 0 <= k < |a| && a[k] == p;
    }
    forall p | p in d ensures Within(p, sx, sy, sx + size, sy + size) {
      var k :| 0 <= k < |d| && d[k] == p;
    }
  }

  /** The strokes each shade gets: the general face 1, cheeks 3, the mouth 8,
      the nose 10, the eyes 14 and the hair 16. */
  lemma StrokeCounts()
    ensures Strokes(0.2) == 1 && Strokes(0.4) == 3 && Strokes(0.6) == 8
    ensures Strokes(0.7) == 10 && Strokes(0.8) == 14 && Strokes(0.9) == 16
  {
    assert Lines(0.2) == 1 && Lines(0.4) == 3 && Lines(0.6) == 4;
    assert Lines(0.7) == 5 && Lines(0.8) == 6 && Lines(0.9) == 7;
  }

  // ---------------------------------------------------------------------
  // The grid

  /** The cell whose corner is (x, y): hatched when its density exceeds 0.1. */
  function Cell(f: Face, x: int, y: int): seq<Prim> {
    var d := Density(f, x as real, y as real);
    if d > 0.1 then HatchArea(x as real, y as real, Pitch as real, d) else []
  }

  /** A cell is hatched exactly when its density exceeds 0.1, and then gets
      its shade's number of strokes, all inside the cell. */
  lemma CellStrokes(f: Face, x: int, y: int)
    ensures var d := Density(f, x as real, y as real);
      |Cell(f, x, y)| == if d > 0.1 then Strokes(d) else 0
    ensures Cell(f, x, y) != [] <==> Density(f, x as real, y as real) > 0.1
    ensures forall p :: p in Cell(f, x, y) ==> Within(p, x as real, y as real, x as real + 4.0, y as real + 4.0)
  {
    var d := Density(f, x as real, y as real);
    DensityShades(f, x as real, y as real);
    StrokeCounts();
    if d > 0.1 {
      HatchAreaWithin(x as real, y as real, Pitch as real, d);
    }
  }

  /** The cells of row `y` from column `x` on. */
  function Row(f: Face, width: nat, y: int, x: nat): seq<Prim>
    decreases width - x
  {
    if x >= width then [] else Cell(f, x, y) + Row(f, width, y, x + Pitch)
  }

  /** The rows from `y` on. */
  function Rows(f: Face, width: nat, height: nat, y: nat): seq<Prim>
    decreases height - y
  {
    if y >= height then [] else Row(f, width, y, 0) + Rows(f, width, height, y + Pitch)
  }

  /** The cell at the head of a row's remainder: `getDensity`, then
      `drawHatchArea` when the density exceeds 0.1. */
  method HatchCell(f: Face, width: nat, y: int, x: nat) returns (c: seq<Prim>)
    requires x < width
    ensures Row(f, width, y, x) == c + Row(f, width, y, x + Pitch)
  {
    var d := Density(f, x as real, y as real);
    c := [];
    if d > 0.1 {
      c := HatchArea(x as real, y as real, Pitch as real, d);
    }
  }

  lemma Assoc(a: seq<Prim>, b: seq<Prim>, c: seq<Prim>)
    ensures (a + b) + c == a + (b + c)
  {
  }

  lemma RowEnd(f: Face, width: nat, y: int, x: nat)
    requires x >= width
    ensures Row(f, width, y, x) == []
  {
  }

  lemma RowsStep(f: Face, width: nat, height: nat, y: nat)
    requires y < height
    ensures Rows(f, width, height, y) == Row(f, width, y, 0) + Rows(f, width, height, y + Pitch)
  {
  }

  /** One row of cells, left to right. */
  method HatchRow(f: Face, width: nat, y: int) returns (row: seq<Prim>)
    ensures row == Row(f, width, y, 0)
  {
    var x: nat := 0;
    row := [];
    while x < width
      invariant row + Row(f, width, y, x) == Row(f, width, y, 0)
      decreases width - x
    {
      var c := HatchCell(f, width, y, x);
      Assoc(row, c, Row(f, width, y, x + Pitch));
      row := row + c;
      x := x + Pitch;
    }
    RowEnd(f, width, y, x);
  }

  /** `render`: a white background, then the cells row by row from the top,
      left to right within a row, exactly as `Rows` lists them. */
  method Render(width: nat, height: nat) returns (r: seq<Prim>)
    ensures r == [FillRect(0.0, 0.0, width as real, height as real)] + Rows(FaceOf(width, height), width, height, 0)
  {
    var f := FaceOf(width, height);
    var bg := [FillRect(0.0, 0.0, width as real, height as real)];
    r := bg;
    var y: nat := 0;
    while y < height
      invariant r + Rows(f, width, height, y) == bg + Rows(f, width, height, 0)
      decreases height - y
    {
      var row := HatchRow(f, width, y);
      RowsStep(f, width, height, y);
      Assoc(r, row, Rows(f, width, height, y + Pitch));
      r := r + row;
      y := y + Pitch;
    }
  }
}

=== FILE: inline.dfy ===
/** Inline Markdown formatting (index.tsx, `applyInlineMarkdown`): five
    global regex replacements run in a fixed order — links, `**bold**`,
    `__bold__`, `*italic*`, `_italic_`.

    A global `replace` scans left to right: at each position it either
    matches (emits the replacement and continues after the match) or copies
    one character. Whether the pattern matches at a position depends only on
    the text from that position on, so each pass is a recursion over
    suffixes.

    The emphasis passes work over tokens: a token is a character, or the
    start tag of an anchor the link pass produced. The source flattens the
    anchor into characters before the emphasis passes run (`ApplyInline`);
    `Format` keeps the start tag as one opaque token, so that underscores in
    the URL and in `target="_blank"` are never taken for italics. */
module Inline {
  import opened Wrappers
  import opened Text

  // ---------------------------------------------------------------------
  // Tokens

  datatype Tok = Ch(c: char) | Start(url: string)

  /** The start tag the link pass writes for a URL:
      `<a href="URL" target="_blank" rel="noopener noreferrer">`. */
  function AnchorStart(url: string): string {
    HrefOpen + url + TargetOpen + "_" + BlankRest
  }

  const HrefOpen: string := "<a href=\""
  const TargetOpen: string := "\" target=\""
  /** The start tag after the `_` of `_blank`: the rest of the target
      value, then the `rel` attribute. */
  const BlankRest: string := "blank\"" + RelAttribute
  const RelAttribute: string := " rel=\"noopener noreferrer\">"
  const AnchorEnd: string := "</a>"

  /** The start tag's own text holds a single underscore and no star. */
  lemma AnchorLiterals()
    ensures Plain(HrefOpen) && Plain(TargetOpen) && Plain(BlankRest) && Plain(AnchorEnd)
    ensures |TargetOpen| > 0 && TargetOpen[0] != '_' && |BlankRest| > 0 && BlankRest[0] != '_'
    ensures forall k :: 0 <= k < |TargetOpen| ==> !IsLineTerminator(TargetOpen[k])
  {
    HrefLiterals();
    TargetLiteral();
    BlankLiteral();
  }

  lemma HrefLiterals()
    ensures Plain(HrefOpen) && Plain(AnchorEnd)
  {
  }

  lemma TargetLiteral()
    ensures Plain(TargetOpen) && |TargetOpen| > 0 && TargetOpen[0] != '_'
    ensures forall k :: 0 <= k < |TargetOpen| ==> !IsLineTerminator(TargetOpen[k])
  {
  }

  lemma BlankLiteral()
    ensures Plain(BlankRest) && |BlankRest| > 0 && BlankRest[0] != '_'
  {
    assert Plain("blank\"");
    assert Plain(RelAttribute);
    PlainAppend("blank\"", RelAttribute);
  }

  lemma PlainAppend(a: string, b: string)
    requires Plain(a) && Plain(b)
    ensures Plain(a + b)
  {
  }

  function Lift(s: string): (ts: seq<Tok>)
  {
    seq(|s|, i requires 0 <= i < |s| => Ch(s[i]))
  }

  function Piece(t: Tok): string {
    match t
    case Ch(c) => [c]
    case Start(url) => AnchorStart(url)
  }

  /** The HTML text a token sequence stands for. */
  function Flatten(ts: seq<Tok>): string {
    if |ts| == 0 then [] else Piece(ts[0]) + Flatten(ts[1..])
  }

  lemma {:induction false} FlattenAppend(a: seq<Tok>, b: seq<Tok>)
    ensures Flatten(a + b) == Flatten(a) + Flatten(b)
  {
    if |a| > 0 {
      assert (a + b)[0] == a[0];
      assert (a + b)[1..] == a[1..] + b;
      FlattenAppend(a[1..], b);
      var p, x, y := Piece(a[0]), Flatten(a[1..]), Flatten(b);
      assert Flatten(a + b) == p + Flatten(a[1..] + b) == p + (x + y);
      assert Flatten(a) == p + x;
      AppendAssoc(p, x, y);
    } else {
      assert a + b == b;
    }
  }

  lemma AppendAssoc(p: string, x: string, y: string)
    ensures p + (x + y) == (p + x) + y
  {
  }

  /** Flattening undoes lifting. */
  lemma {:induction false} FlattenLift(s: string)
    ensures Flatten(Lift(s)) == s
  {
    if |s| > 0 {
      assert Lift(s)[1..] == Lift(s[1..]);
      FlattenLift(s[1..]);
    }
  }

  lemma LiftAppend(a: string, b: string)
    ensures Lift(a + b) == Lift(a) + Lift(b)
  {
  }

  lemma LiftExcludes(s: string, c: char)
    ensures c !in s ==> Ch(c) !in Lift(s)
  {
  }

  // ---------------------------------------------------------------------
  // The link pass: /\[([^\]]+)\]\(([^)]+)\)/g

  datatype Link = Link(text: string, url: string, len: nat)

  /** The text `[text](url)` the link pattern recognises. */
  function LinkSyntax(text: string, url: string): string {
    "[" + text + "](" + url + ")"
  }

  /** The capture groups `[^\]]+` and `[^)]+`: non-empty, without the closing bracket. */
  predicate LinkParts(text: string, url: string) {
    |text| > 0 && ']' !in text && |url| > 0 && ')' !in url
  }

  /** The first index at or after `from` holding `c`. */
  function FindChar(s: string, c: char, from: nat): (r: Option<nat>)
    requires from <= |s|
    ensures r.Some? ==> from <= r.value < |s| && s[r.value] == c
    ensures forall k :: from <= k < |s| && (r.None? || k < r.value) ==> s[k] != c
    decreases |s| - from
  {
    if from == |s| then None
    else if s[from] == c then Some(from)
    else FindChar(s, c, from + 1)
  }

  /** The link pattern anchored at the start of `s`. Because `[^\]]+` cannot
      cross a `]` and `[^)]+` cannot cross a `)`, backtracking never finds a
      second way to match: the text runs to the first `]`, the URL to the
      first `)` after it. */
  function MatchLink(s: string): (m: Option<Link>)
    ensures m.Some? ==> LinkParts(m.value.text, m.value.url)
    ensures m.Some? ==> m.value.len == |LinkSyntax(m.value.text, m.value.url)| <= |s|
    ensures m.Some? ==> s[..m.value.len] == LinkSyntax(m.value.text, m.value.url)
  {
    if |s| == 0 || s[0] != '[' then None
    else
      match FindChar(s, ']', 1)
      case None => None
      case Some(j) =>
        if j == 1 || j + 1 >= |s| || s[j + 1] != '(' then None
        else
          match FindChar(s, ')', j + 2)
          case None => None
          case Some(k) =>
            if k == j + 2 then None
            else
              var text, url := s[1..j], s[j + 2..k];
              assert s[..k + 1] == LinkSyntax(text, url);
              Some(Link(text, url, k + 1))
  }

  /** Conversely, every `[text](url)` with well-formed parts is matched, with
      exactly those parts. */
  lemma MatchLinkComplete(text: string, url: string, rest: string)
    requires LinkParts(text, url)
    ensures MatchLink(LinkSyntax(text, url) + rest)
         == Some(Link(text, url, |LinkSyntax(text, url)|))
  {
    var s := LinkSyntax(text, url) + rest;
    var j := |text| + 1;
    var k := j + 2 + |url|;
    assert s[j] == ']' && s[j + 1] == '(' && s[k] == ')';
    assert forall i :: 1 <= i < j ==> s[i] == text[i - 1];
    assert FindChar(s, ']', 1) == Some(j);
    assert forall i :: j + 2 <= i < k ==> s[i] == url[i - j - 2];
    assert FindChar(s, ')', j + 2) == Some(k);
    assert s[1..j] == text && s[j + 2..k] == url;
  }

  /** The link pass, keeping each anchor's start tag as one token. */
  function LinkTokens(s: string): seq<Tok>
  {
    if |s| == 0 then []
    else
      match MatchLink(s)
      case Some(l) => [Start(l.url)] + Lift(l.text) + Lift(AnchorEnd) + LinkTokens(s[l.len..])
      case None => [Ch(s[0])] + LinkTokens(s[1..])
  }

  /** The link pass as the source writes it: a string-to-string replacement. */
  function ReplaceLinks(s: string): string {
    Flatten(LinkTokens(s))
  }

  /** Text without `[` holds no link, and the link pass leaves it alone. */
  lemma {:induction false} LinkTokensNoBracket(s: string)
    requires '[' !in s
    ensures LinkTokens(s) == Lift(s)
  {
    if |s| > 0 {
      LinkTokensNoBracket(s[1..]);
      assert Lift(s) == [Ch(s[0])] + Lift(s[1..]);
    }
  }

  /** A lone link becomes one anchor whose text and URL are the captures. */
  lemma LinkTokensOfLink(text: string, url: string)
    requires LinkParts(text, url)
    ensures LinkTokens(LinkSyntax(text, url)) == [Start(url)] + Lift(text) + Lift(AnchorEnd)
    ensures ReplaceLinks(LinkSyntax(text, url)) == AnchorStart(url) + text + AnchorEnd
  {
    var s := LinkSyntax(text, url);
    MatchLinkComplete(text, url, []);
    assert s + [] == s;
    assert s[|s|..] == [];
    assert LinkTokens(s[|s|..]) == [];
    FlattenAnchor(text, url);
  }

  /** The anchor's tokens flatten to its HTML. */
  lemma FlattenAnchor(text: string, url: string)
    ensures Flatten([Start(url)] + Lift(text) + Lift(AnchorEnd)) == AnchorStart(url) + text + AnchorEnd
  {
    var ts := [Start(url)] + Lift(text) + Lift(AnchorEnd);
    FlattenAppend([Start(url)], Lift(text) + Lift(AnchorEnd));
    FlattenAppend(Lift(text), Lift(AnchorEnd));
    FlattenLift(text);
    FlattenLift(AnchorEnd);
    assert Flatten([Start(url)]) == AnchorStart(url);
    assert ts == [Start(url)] + (Lift(text) + Lift(AnchorEnd));
  }

  // ---------------------------------------------------------------------
  // The emphasis passes: /\*\*(.*?)\*\*/g, /__(.*?)__/g, /\*(.*?)\*/g, /_(.*?)_/g

  /** A token `.` does not match. An anchor start tag is not one. */
  predicate IsBreak(t: Tok) {
    t.Ch? && IsLineTerminator(t.c)
  }

  /** The delimiter `d` begins at token index `i`. */
  predicate DelimAt(ts: seq<Tok>, d: string, i: nat) {
    i + |d| <= |ts| && ts[i..i + |d|] == Lift(d)
  }

  /** A delimiter occurrence spells the delimiter out token by token. */
  lemma DelimAtChars(ts: seq<Tok>, d: string, i: nat)
    ensures DelimAt(ts, d, i) ==> forall k :: 0 <= k < |d| ==> ts[i + k] == Ch(d[k])
  {
    if DelimAt(ts, d, i) {
      forall k | 0 <= k < |d| ensures ts[i + k] == Ch(d[k]) {
        assert ts[i..i + |d|][k] == ts[i + k];
      }
    }
  }

  /** The lazy `(.*?)` followed by the closing delimiter: the first index at
      or after `j` where `d` begins, provided no line terminator comes first. */
  function CloseFrom(ts: seq<Tok>, d: string, j: nat): (r: Option<nat>)
    requires |d| > 0 && j <= |ts|
    ensures r.Some? ==> j <= r.value && DelimAt(ts, d, r.value)
    ensures r.Some? ==> forall k :: j <= k < r.value ==> !IsBreak(ts[k]) && !DelimAt(ts, d, k)
    decreases |ts| - j
  {
    if DelimAt(ts, d, j) then Some(j)
    else if j == |ts| || IsBreak(ts[j]) then None
    else CloseFrom(ts, d, j + 1)
  }

  function OpenTag(tag: string): seq<Tok> { Lift("<" + tag + ">") }
  function CloseTag(tag: string): seq<Tok> { Lift("</" + tag + ">") }

  /** `<tag>a</tag>`. */
  function Wrap(tag: string, a: string): string { "<" + tag + ">" + a + "</" + tag + ">" }

  lemma WrapSpelled(tag: string, a: string)
    ensures tag == "strong" ==> Wrap(tag, a) == "<strong>" + a + "</strong>"
    ensures tag == "em" ==> Wrap(tag, a) == "<em>" + a + "</em>"
  {
  }

  /** One emphasis pass: every `d … d` on one line, scanned left to right,
      becomes `<tag> … </tag>`; the content may be empty. */
  function Pairs(ts: seq<Tok>, d: string, tag: string): seq<Tok>
    requires |d| > 0
    decreases |ts|
  {
    if |ts| == 0 then []
    else if DelimAt(ts, d, 0) && CloseFrom(ts, d, |d|).Some? then
      var k := CloseFrom(ts, d, |d|).value;
      OpenTag(tag) + ts[|d|..k] + CloseTag(tag) + Pairs(ts[k + |d|..], d, tag)
    else [ts[0]] + Pairs(ts[1..], d, tag)
  }

  /** The four emphasis passes in source order: bold before italics. */
  function Emphasis(ts: seq<Tok>): seq<Tok> {
    var b1 := Pairs(ts, "**", "strong");
    var b2 := Pairs(b1, "__", "strong");
    var i1 := Pairs(b2, "*", "em");
    Pairs(i1, "_", "em")
  }

  /** `applyInlineMarkdown` as written: the anchors are flattened into plain
      characters before the emphasis passes see them. */
  function ApplyInline(text: string): string {
    Flatten(Emphasis(Lift(ReplaceLinks(text))))
  }

  /** The inline formatter the converter uses: the same passes, with each
      anchor start tag kept out of reach of the emphasis passes. */
  function Format(text: string): string {
    Flatten(Emphasis(LinkTokens(text)))
  }

  // ---------------------------------------------------------------------
  // Facts about one emphasis pass

  /** A pass leaves alone tokens that never begin its delimiter. */
  lemma {:induction false} PairsNoDelim(ts: seq<Tok>, d: string, tag: string)
    requires |d| > 0
    requires Ch(d[0]) !in ts
    ensures Pairs(ts, d, tag) == ts
  {
    if |ts| > 0 {
      assert ts[0] != Ch(d[0]);
      DelimAtChars(ts, d, 0);
      assert ts == [ts[0]] + ts[1..];
      PairsNoDelim(ts[1..], d, tag);
    }
  }

  /** A delimiter-free prefix is copied unchanged. */
  lemma {:induction false} PairsPrefix(p: seq<Tok>, rest: seq<Tok>, d: string, tag: string)
    requires |d| > 0
    requires Ch(d[0]) !in p
    ensures Pairs(p + rest, d, tag) == p + Pairs(rest, d, tag)
  {
    if |p| > 0 {
      assert (p + rest)[0] == p[0] != Ch(d[0]);
      DelimAtChars(p + rest, d, 0);
      assert (p + rest)[1..] == p[1..] + rest;
      PairsPrefix(p[1..], rest, d, tag);
    } else {
      assert p + rest == rest;
    }
  }

  lemma {:induction false} CloseFromSkip(ts: seq<Tok>, d: string, j: nat, e: nat)
    requires |d| > 0 && j <= e <= |ts|
    requires DelimAt(ts, d, e)
    requires forall k :: j <= k < e ==> !IsBreak(ts[k]) && !DelimAt(ts, d, k)
    ensures CloseFrom(ts, d, j) == Some(e)
    decreases e - j
  {
    if j < e {
      CloseFromSkip(ts, d, j + 1, e);
    }
  }

  /** `d m d` on one line, with no delimiter character in `m`, becomes `<tag>m</tag>`. */
  lemma PairsMatchFront(m: seq<Tok>, rest: seq<Tok>, d: string, tag: string)
    requires |d| > 0
    requires Ch(d[0]) !in m
    requires forall k :: 0 <= k < |m| ==> !IsBreak(m[k])
    ensures Pairs(Lift(d) + m + Lift(d) + rest, d, tag)
         == OpenTag(tag) + m + CloseTag(tag) + Pairs(rest, d, tag)
  {
    var ts := Lift(d) + m + Lift(d) + rest;
    var e := |d| + |m|;
    assert ts[..|d|] == Lift(d);
    assert ts[e..e + |d|] == Lift(d);
    forall k | |d| <= k < e ensures !IsBreak(ts[k]) && !DelimAt(ts, d, k) {
      assert ts[k] == m[k - |d|];
      DelimAtChars(ts, d, k);
    }
    CloseFromSkip(ts, d, |d|, e);
    assert ts[|d|..e] == m;
    assert ts[e + |d|..] == rest;
  }

  /** The whole of `d m d` becomes `<tag>m</tag>`. */
  lemma PairsMatchWhole(a: string, d: string, tag: string)
    requires |d| > 0
    requires d[0] !in a
    requires forall k :: 0 <= k < |a| ==> !IsLineTerminator(a[k])
    ensures Pairs(Lift(d + a + d), d, tag) == Lift(Wrap(tag, a))
  {
    var m := Lift(a);
    LiftWrap(d, a);
    LiftExcludes(a, d[0]);
    assert forall k :: 0 <= k < |m| ==> !IsBreak(m[k]) by {
      forall k | 0 <= k < |m| ensures !IsBreak(m[k]) {
        assert m[k] == Ch(a[k]);
      }
    }
    PairsMatchFront(m, [], d, tag);
    assert Pairs([], d, tag) == [];
    LiftWrapTag(tag, a);
  }

  /** Lifting a wrapped string gives the wrapped tokens. */
  lemma LiftWrap(d: string, a: string)
    ensures Lift(d + a + d) == Lift(d) + Lift(a) + Lift(d) + []
  {
    LiftAppend(d + a, d);
    LiftAppend(d, a);
  }

  /** Tokens with at most one occurrence of `x`. */
  predicate AtMostOne(ts: seq<Tok>, x: Tok) {
    forall i, j :: 0 <= i < j < |ts| && ts[i] == x ==> ts[j] != x
  }

  /** A match needs two delimiter characters, so a pass cannot fire when its
      delimiter character occurs at most once. */
  lemma {:induction false} PairsAtMostOne(ts: seq<Tok>, d: string, tag: string)
    requires |d| > 0
    requires AtMostOne(ts, Ch(d[0]))
    ensures Pairs(ts, d, tag) == ts
  {
    if |ts| > 0 {
      DelimAtChars(ts, d, 0);
      if DelimAt(ts, d, 0) {
        var c := CloseFrom(ts, d, |d|);
        if c.Some? {
          DelimAtChars(ts, d, c.value);
        }
      }
      assert AtMostOne(ts[1..], Ch(d[0])) by {
        forall i, j | 0 <= i < j < |ts| - 1 && ts[1..][i] == Ch(d[0])
          ensures ts[1..][j] != Ch(d[0])
        {
          assert ts[1..][i] == ts[i + 1] && ts[1..][j] == ts[j + 1];
        }
      }
      PairsAtMostOne(ts[1..], d, tag);
    }
  }

  /** No emphasis delimiter, no change. */
  lemma EmphasisPlain(ts: seq<Tok>)
    requires Ch('*') !in ts && Ch('_') !in ts
    ensures Emphasis(ts) == ts
  {
    PairsNoDelim(ts, "**", "strong");
    PairsNoDelim(ts, "__", "strong");
    PairsNoDelim(ts, "*", "em");
    PairsNoDelim(ts, "_", "em");
  }

  // ---------------------------------------------------------------------
  // Properties of the whole formatter

  /** Text with no `[`, `*` or `_`. */
  predicate Plain(s: string) {
    '[' !in s && '*' !in s && '_' !in s
  }

  /** Plain text passes through both formatters unchanged. */
  lemma PlainUnchanged(s: string)
    requires Plain(s)
    ensures ApplyInline(s) == s
    ensures Format(s) == s
  {
    LinkTokensNoBracket(s);
    FlattenLift(s);
    assert ReplaceLinks(s) == s;
    EmphasisPlain(Lift(s));
  }

  /** Where there is no link the two formatters agree. */
  lemma FormatAgreesWithoutLinks(s: string)
    requires '[' !in s
    ensures Format(s) == ApplyInline(s)
  {
    LinkTokensNoBracket(s);
    FlattenLift(s);
  }

  /** `<tag>a</tag>` has no emphasis delimiter when `a` and `tag` have none. */
  lemma WrapPlain(tag: string, a: string)
    requires Plain(a) && Plain(tag)
    ensures Ch('*') !in Lift(Wrap(tag, a)) && Ch('_') !in Lift(Wrap(tag, a))
  {
    assert '*' !in Wrap(tag, a) && '_' !in Wrap(tag, a);
  }

  /** Without a link, what the emphasis passes see is the text itself. */
  lemma NoLinkInput(s: string)
    requires '[' !in s
    ensures ApplyInline(s) == Format(s) == Flatten(Emphasis(Lift(s)))
  {
    LinkTokensNoBracket(s);
    FlattenLift(s);
  }

  /** The four passes, one step at a time. */
  lemma EmphasisSteps(ts: seq<Tok>, b1: seq<Tok>, b2: seq<Tok>, i1: seq<Tok>, r: seq<Tok>)
    requires Pairs(ts, "**", "strong") == b1
    requires Pairs(b1, "__", "strong") == b2
    requires Pairs(b2, "*", "em") == i1
    requires Pairs(i1, "_", "em") == r
    ensures Emphasis(ts) == r
  {
  }

  lemma EmphasisOfBold(a: string, d: string)
    requires d == "**" || d == "__"
    requires Plain(a) && forall k :: 0 <= k < |a| ==> !IsLineTerminator(a[k])
    ensures Emphasis(Lift(d + a + d)) == Lift(Wrap("strong", a))
  {
    if d == "**" {
      BoldStars(a);
    } else {
      BoldUnderscores(a);
    }
  }

  lemma BoldStars(a: string)
    requires Plain(a) && forall k :: 0 <= k < |a| ==> !IsLineTerminator(a[k])
    ensures Emphasis(Lift("**" + a + "**")) == Lift(Wrap("strong", a))
  {
    var out := Lift(Wrap("strong", a));
    BoldPass(a, "**");
    EmphasisSteps(Lift("**" + a + "**"), out, out, out, out);
  }

  lemma BoldUnderscores(a: string)
    requires Plain(a) && forall k :: 0 <= k < |a| ==> !IsLineTerminator(a[k])
    ensures Emphasis(Lift("__" + a + "__")) == Lift(Wrap("strong", a))
  {
    var ts, out := Lift("__" + a + "__"), Lift(Wrap("strong", a));
    BoldPass(a, "__");
    DelimFree("__" + a + "__", '*');
    EmphasisSteps(ts, ts, out, out, out);
  }

  /** The bold pass of delimiter `d` wraps `d a d`, and the later passes
      leave the result alone. */
  lemma BoldPass(a: string, d: string)
    requires d == "**" || d == "__"
    requires Plain(a) && forall k :: 0 <= k < |a| ==> !IsLineTerminator(a[k])
    ensures var out := Lift(Wrap("strong", a));
      && Pairs(Lift(d + a + d), d, "strong") == out
      && Pairs(out, "__", "strong") == out && Pairs(out, "*", "em") == out && Pairs(out, "_", "em") == out
  {
    PairsMatchWhole(a, d, "strong");
    WrapPlain("strong", a);
    PlainPasses(Lift(Wrap("strong", a)));
  }

  /** Tokens without delimiter characters pass every emphasis pass unchanged. */
  lemma PlainPasses(ts: seq<Tok>)
    requires Ch('*') !in ts && Ch('_') !in ts
    ensures Pairs(ts, "**", "strong") == ts && Pairs(ts, "__", "strong") == ts
    ensures Pairs(ts, "*", "em") == ts && Pairs(ts, "_", "em") == ts
  {
    PairsNoDelim(ts, "**", "strong");
    PairsNoDelim(ts, "__", "strong");
    PairsNoDelim(ts, "*", "em");
    PairsNoDelim(ts, "_", "em");
  }

  /** Text without the character `c` passes both of its passes, doubled
      and single, unchanged. */
  lemma DelimFree(s: string, c: char)
    requires c !in s
    ensures Pairs(Lift(s), [c, c], "strong") == Lift(s) && Pairs(Lift(s), [c], "em") == Lift(s)
  {
    LiftExcludes(s, c);
    PairsNoDelim(Lift(s), [c, c], "strong");
    PairsNoDelim(Lift(s), [c], "em");
  }

  /** On text that stays on one line and has no markup of its own, `**a**`
      and `__a__` turn into `<strong>a</strong>`: the bold passes run first,
      so the italic passes never see the doubled delimiters and no `<em>` appears. */
  lemma BoldBeforeItalics(a: string, d: string)
    requires d == "**" || d == "__"
    requires Plain(a) && forall k :: 0 <= k < |a| ==> !IsLineTerminator(a[k])
    ensures ApplyInline(d + a + d) == "<strong>" + a + "</strong>"
    ensures Format(d + a + d) == "<strong>" + a + "</strong>"
  {
    assert '[' !in d + a + d;
    NoLinkInput(d + a + d);
    EmphasisOfBold(a, d);
    FlattenLift(Wrap("strong", a));
    WrapSpelled("strong", a);
  }

  /** A doubled-delimiter pass leaves `c a c` alone when `a` holds no `c`:
      the two single delimiters are never adjacent, or, for empty `a`, the
      pair has nothing after it to close it. */
  lemma DoublePassSkipsSingles(a: string, c: char, tag: string)
    requires c !in a
    ensures Pairs(Lift([c] + a + [c]), [c, c], tag) == Lift([c] + a + [c])
  {
    var ts := Lift([c] + a + [c]);
    var d := [c, c];
    var tail := Lift(a) + [Ch(c)];
    assert ts == [Ch(c)] + tail;
    DelimAtChars(ts, d, 0);
    if |a| == 0 {
      assert CloseFrom(ts, d, 2) == None;
    } else {
      assert ts[1] == Ch(a[0]) && a[0] != c;
      assert !DelimAt(ts, d, 0);
      LiftExcludes(a, c);
      PairsPrefix(Lift(a), [Ch(c)], d, tag);
    }
    PairsOne(Ch(c), d, tag);
    assert Pairs(tail, d, tag) == tail;
    assert ts[1..] == tail;
    PairsKeepHead(ts, d, tag);
  }

  /** Where no pair opens at the front, a pass keeps the first token. */
  lemma PairsKeepHead(ts: seq<Tok>, d: string, tag: string)
    requires |d| > 0 && |ts| > 0
    requires !(DelimAt(ts, d, 0) && CloseFrom(ts, d, |d|).Some?)
    ensures Pairs(ts, d, tag) == [ts[0]] + Pairs(ts[1..], d, tag)
  {
  }

  /** A lone token is shorter than a doubled delimiter: a pass keeps it. */
  lemma PairsOne(t: Tok, d: string, tag: string)
    requires |d| >= 2
    ensures Pairs([t], d, tag) == [t]
  {
    assert [t][1..] == [];
  }

  lemma EmphasisOfItalic(a: string, d: string)
    requires d == "*" || d == "_"
    requires Plain(a) && forall k :: 0 <= k < |a| ==> !IsLineTerminator(a[k])
    ensures Emphasis(Lift(d + a + d)) == Lift(Wrap("em", a))
  {
    var ts, out := Lift(d + a + d), Lift(Wrap("em", a));
    ItalicPass(a, d);
    if d == "*" {
      DelimFree(d + a + d, '_');
      EmphasisSteps(ts, ts, ts, out, out);
    } else {
      DelimFree(d + a + d, '*');
      EmphasisSteps(ts, ts, ts, ts, out);
    }
  }

  /** The italic pass of delimiter `d` wraps `d a d`; the doubled pass of
      the same character skips it, and the underscore pass leaves the result
      alone. */
  lemma ItalicPass(a: string, d: string)
    requires d == "*" || d == "_"
    requires Plain(a) && forall k :: 0 <= k < |a| ==> !IsLineTerminator(a[k])
    ensures var ts, out := Lift(d + a + d), Lift(Wrap("em", a));
      && Pairs(ts, d, "em") == out
      && (d == "*" ==> Pairs(ts, "**", "strong") == ts)
      && (d == "_" ==> Pairs(ts, "__", "strong") == ts)
      && Pairs(out, "_", "em") == out
  {
    PairsMatchWhole(a, d, "em");
    WrapPlain("em", a);
    PlainPasses(Lift(Wrap("em", a)));
    DoubleSkipsItalic(a, d);
  }

  lemma DoubleSkipsItalic(a: string, d: string)
    requires d == "*" || d == "_"
    requires Plain(a)
    ensures d == "*" ==> Pairs(Lift(d + a + d), "**", "strong") == Lift(d + a + d)
    ensures d == "_" ==> Pairs(Lift(d + a + d), "__", "strong") == Lift(d + a + d)
  {
    var c := d[0];
    assert d + a + d == [c] + a + [c];
    assert [c, c] == d + d;
    DoublePassSkipsSingles(a, c, "strong");
  }

  /** `*a*` and `_a_` turn into `<em>a</em>`. */
  lemma Italics(a: string, d: string)
    requires d == "*" || d == "_"
    requires Plain(a) && forall k :: 0 <= k < |a| ==> !IsLineTerminator(a[k])
    ensures ApplyInline(d + a + d) == "<em>" + a + "</em>"
    ensures Format(d + a + d) == "<em>" + a + "</em>"
  {
    assert '[' !in d + a + d;
    NoLinkInput(d + a + d);
    EmphasisOfItalic(a, d);
    FlattenLift(Wrap("em", a));
    WrapSpelled("em", a);
  }

  // ---------------------------------------------------------------------
  // Links through the whole formatter

  /** A pass copies the first token when its delimiter does not begin there. */
  lemma PairsSkipFront(ts: seq<Tok>, d: string, tag: string)
    requires |d| > 0 && |ts| > 0 && !DelimAt(ts, d, 0)
    ensures Pairs(ts, d, tag) == [ts[0]] + Pairs(ts[1..], d, tag)
  {
  }

  /** One occurrence of `c` between two `c`-free strings. */
  lemma LoneChar(p: string, c: char, q: string)
    requires c !in p && c !in q
    ensures AtMostOne(Lift(p + [c] + q), Ch(c))
  {
    var s := p + [c] + q;
    assert forall k :: 0 <= k < |p| ==> s[k] == p[k];
    assert forall k :: |p| < k < |s| ==> s[k] == q[k - |p| - 1];
  }

  /** The corrected formatter turns a link into exactly one anchor, whatever
      characters its URL holds (other than the closing parenthesis). */
  lemma FormatLink(text: string, url: string)
    requires LinkParts(text, url) && Plain(text)
    ensures Format(LinkSyntax(text, url)) == AnchorStart(url) + text + AnchorEnd
  {
    LinkTokensOfLink(text, url);
    var ts := [Start(url)] + Lift(text) + Lift(AnchorEnd);
    AnchorTokensPlain(text, url);
    EmphasisPlain(ts);
    FlattenAnchor(text, url);
  }

  /** An anchor around plain text holds no emphasis delimiter token: the
      URL sits inside the start token, out of the passes' reach. */
  lemma AnchorTokensPlain(text: string, url: string)
    requires Plain(text)
    ensures var ts := [Start(url)] + Lift(text) + Lift(AnchorEnd);
      Ch('*') !in ts && Ch('_') !in ts
  {
    LiftExcludes(text, '*');
    LiftExcludes(text, '_');
    assert '*' !in AnchorEnd && '_' !in AnchorEnd;
    LiftExcludes(AnchorEnd, '*');
    LiftExcludes(AnchorEnd, '_');
  }

  /** As written, a link whose URL and text hold no `[`, `*` or `_` survives the
      emphasis passes: the only underscore left is the one in `_blank`. */
  lemma ApplyInlineLink(text: string, url: string)
    requires LinkParts(text, url) && Plain(text) && Plain(url)
    ensures ApplyInline(LinkSyntax(text, url)) == AnchorStart(url) + text + AnchorEnd
  {
    LinkTokensOfLink(text, url);
    var a := AnchorStart(url) + text + AnchorEnd;
    OneUnderscore(text, url);
    var ts := Lift(a);
    LiftExcludes(a, '*');
    PairsNoDelim(ts, "**", "strong");
    PairsAtMostOne(ts, "__", "strong");
    PairsNoDelim(ts, "*", "em");
    PairsAtMostOne(ts, "_", "em");
    EmphasisSteps(ts, ts, ts, ts, ts);
    FlattenLift(a);
  }

  /** The anchor's only underscore is the one in `_blank`. */
  lemma OneUnderscore(text: string, url: string)
    requires Plain(text) && Plain(url)
    ensures var a := AnchorStart(url) + text + AnchorEnd;
      '*' !in a && AtMostOne(Lift(a), Ch('_'))
  {
    AnchorLiterals();
    var a := AnchorStart(url) + text + AnchorEnd;
    var p := HrefOpen + url + TargetOpen;
    var q := BlankRest + text + AnchorEnd;
    assert a == p + ['_'] + q;
    LoneChar(p, '_', q);
  }

  /** The anchor text that an underscore in the URL produces as written:
      the URL's underscore pairs with the one in `target="_blank"`. */
  function MangledAnchor(text: string, u1: string, u2: string): string {
    HrefOpen + u1 + "<em>" + u2 + TargetOpen + "</em>" + BlankRest + text + AnchorEnd
  }

  /** No two neighbouring tokens are both `x`. */
  predicate NoDouble(ts: seq<Tok>, x: Tok) {
    forall i :: 0 <= i < |ts| - 1 ==> !(ts[i] == x && ts[i + 1] == x)
  }

  /** A doubled-delimiter pass cannot fire where the character never appears
      twice in a row. */
  lemma {:induction false} PairsNoDouble(ts: seq<Tok>, c: char, tag: string)
    requires NoDouble(ts, Ch(c))
    ensures Pairs(ts, [c, c], tag) == ts
  {
    if |ts| > 0 {
      DelimAtChars(ts, [c, c], 0);
      assert !DelimAt(ts, [c, c], 0) by {
        if |ts| >= 2 {
          assert !(ts[0] == Ch(c) && ts[1] == Ch(c));
          assert [c, c][0] == c && [c, c][1] == c;
        }
      }
      PairsSkipFront(ts, [c, c], tag);
      NoDoubleTail(ts, Ch(c));
      PairsNoDouble(ts[1..], c, tag);
      assert ts == [ts[0]] + ts[1..];
    }
  }

  lemma NoDoubleTail(ts: seq<Tok>, x: Tok)
    requires |ts| > 0 && NoDouble(ts, x)
    ensures NoDouble(ts[1..], x)
  {
    forall i | 0 <= i < |ts[1..]| - 1
      ensures !(ts[1..][i] == x && ts[1..][i + 1] == x)
    {
      assert ts[1..][i] == ts[i + 1] && ts[1..][i + 1] == ts[i + 2];
    }
  }

  /** Lifting `p c m c r` keeps the two `c` as separate tokens. */
  lemma LiftAroundPair(p: string, c: char, m: string, r: string)
    ensures Lift(p + [c] + m + [c] + r) == Lift(p) + (Lift([c]) + Lift(m) + Lift([c]) + Lift(r))
  {
    LiftAppend(p + [c] + m + [c], r);
    LiftAppend(p + [c] + m, [c]);
    LiftAppend(p + [c], m);
    LiftAppend(p, [c]);
  }

  /** Two single `c` separated by a non-empty `c`-free run are never adjacent. */
  lemma SeparatedPair(p: string, c: char, m: string, r: string)
    requires c !in p && c !in m && c !in r && |m| > 0
    ensures NoDouble(Lift(p + [c] + m + [c] + r), Ch(c))
  {
    var s := p + [c] + m + [c] + r;
    var e := |p| + 1 + |m|;
    assert forall k :: 0 <= k < |p| ==> s[k] == p[k];
    assert forall k :: |p| < k < e ==> s[k] == m[k - |p| - 1];
    assert forall k :: e < k < |s| ==> s[k] == r[k - e - 1];
  }

  /** The single-delimiter pass wraps the run between the two `c`. */
  lemma SinglePassWraps(p: string, c: char, m: string, r: string, tag: string)
    requires c !in p && c !in m && c !in r
    requires forall k :: 0 <= k < |m| ==> !IsLineTerminator(m[k])
    ensures Pairs(Lift(p + [c] + m + [c] + r), [c], tag) == Lift(p + Wrap(tag, m) + r)
  {
    var P, D, M, R := Lift(p), Lift([c]), Lift(m), Lift(r);
    var W := OpenTag(tag) + M + CloseTag(tag);
    LiftAroundPair(p, c, m, r);
    LiftExcludes(p, c);
    LiftExcludes(m, c);
    LiftExcludes(r, c);
    PairsPrefix(P, D + M + D + R, [c], tag);
    PairsMatchFront(M, R, [c], tag);
    PairsNoDelim(R, [c], tag);
    LiftAroundWrap(p, tag, m, r);
    Assoc(P, W, R);
  }

  lemma LiftAroundWrap(p: string, tag: string, m: string, r: string)
    ensures Lift(p + Wrap(tag, m) + r) == Lift(p) + (OpenTag(tag) + Lift(m) + CloseTag(tag)) + Lift(r)
  {
    LiftAppend(p + Wrap(tag, m), r);
    LiftAppend(p, Wrap(tag, m));
    LiftWrapTag(tag, m);
  }

  lemma Assoc(a: seq<Tok>, b: seq<Tok>, c: seq<Tok>)
    ensures a + (b + c) == a + b + c
  {
  }

  lemma LiftWrapTag(tag: string, m: string)
    ensures Lift(Wrap(tag, m)) == OpenTag(tag) + Lift(m) + CloseTag(tag)
  {
    LiftAppend("<" + tag + ">" + m, "</" + tag + ">");
    LiftAppend("<" + tag + ">", m);
  }

  /** The flattened anchor for `u1_u2`, cut at its two underscores. */
  lemma MangledPieces(text: string, u1: string, u2: string)
    requires Plain(text) && Plain(u1) && Plain(u2)
    requires forall k :: 0 <= k < |u2| ==> !IsLineTerminator(u2[k])
    ensures var p, m, r := HrefOpen + u1, u2 + TargetOpen, BlankRest + text + AnchorEnd;
      && AnchorStart(u1 + "_" + u2) + text + AnchorEnd == p + ['_'] + m + ['_'] + r
      && '*' !in p + ['_'] + m + ['_'] + r
      && '_' !in p && '_' !in m && '_' !in r && |m| > 0
      && (forall k :: 0 <= k < |m| ==> !IsLineTerminator(m[k]))
      && MangledAnchor(text, u1, u2) == p + Wrap("em", m) + r
  {
    AnchorLiterals();
    var m := u2 + TargetOpen;
    assert forall k :: |u2| <= k < |m| ==> m[k] == TargetOpen[k - |u2|];
    WrapSpelled("em", m);
  }

  /** The passes on `p _ m _ r`: only the single-underscore pass fires. */
  lemma EmphasisOfSeparatedPair(p: string, m: string, r: string)
    requires '*' !in p + ['_'] + m + ['_'] + r
    requires '_' !in p && '_' !in m && '_' !in r && |m| > 0
    requires forall k :: 0 <= k < |m| ==> !IsLineTerminator(m[k])
    ensures Emphasis(Lift(p + ['_'] + m + ['_'] + r)) == Lift(p + Wrap("em", m) + r)
  {
    var a := p + ['_'] + m + ['_'] + r;
    var ts := Lift(a);
    LiftExcludes(a, '*');
    PairsNoDelim(ts, "**", "strong");
    SeparatedPair(p, '_', m, r);
    PairsNoDouble(ts, '_', "strong");
    PairsNoDelim(ts, "*", "em");
    SinglePassWraps(p, '_', m, r, "em");
    EmphasisSteps(ts, ts, ts, ts, Lift(p + Wrap("em", m) + r));
  }

  /** As written, a URL with one underscore is rewritten by the `_x_` italics
      pass: an `<em>` opens inside the `href` value and closes inside the
      `target` attribute. The corrected formatter keeps the URL intact. */
  lemma UnderscoreUrlMangled(text: string, u1: string, u2: string)
    requires LinkParts(text, u1 + "_" + u2) && Plain(text) && Plain(u1) && Plain(u2)
    requires forall k :: 0 <= k < |u2| ==> !IsLineTerminator(u2[k])
    ensures ApplyInline(LinkSyntax(text, u1 + "_" + u2)) == MangledAnchor(text, u1, u2)
    ensures Format(LinkSyntax(text, u1 + "_" + u2)) == AnchorStart(u1 + "_" + u2) + text + AnchorEnd
    ensures ApplyInline(LinkSyntax(text, u1 + "_" + u2)) != Format(LinkSyntax(text, u1 + "_" + u2))
  {
    var url := u1 + "_" + u2;
    LinkTokensOfLink(text, url);
    FormatLink(text, url);
    MangledPieces(text, u1, u2);
    var p, m, r := HrefOpen + u1, u2 + TargetOpen, BlankRest + text + AnchorEnd;
    var a := p + ['_'] + m + ['_'] + r;
    var w := p + Wrap("em", m) + r;
    EmphasisOfSeparatedPair(p, m, r);
    FlattenLift(w);
    assert ApplyInline(LinkSyntax(text, url)) == w;
    assert w[|p|] == '<' && a[|p|] == '_';
  }

  /** The smallest instance: `[x](a_b)`. */
  lemma UnderscoreUrlExample()
    ensures ApplyInline(LinkSyntax("x", "a_b")) != Format(LinkSyntax("x", "a_b"))
  {
    var url := "a" + "_" + "b";
    assert url == "a_b";
    assert LinkParts("x", url) && Plain("x") && Plain("a") && Plain("b");
    assert !IsLineTerminator("b"[0]);
    UnderscoreUrlMangled("x", "a", "b");
  }
}

=== FILE: manifest.dfy ===
/** The build step that writes the projects and art manifests
    (vite.config.ts, `generateManifests`). Directory listings, which files
    exist, the parsed `project.json` of each folder and the text of each art
    file are inputs; nothing is read or written here. */
module Manifest {
  import opened Wrappers
  import opened Text

  // ---------------------------------------------------------------------
  // Titles

  /** `\b\w`: a word character at the start of `s` or after a non-word one. */
  predicate WordStart(s: string, i: nat)
    requires i < |s|
  {
    IsWordChar(s[i]) && (i == 0 || !IsWordChar(s[i - 1]))
  }

  /** `.replace(/\b\w/g, l => l.toUpperCase())`. */
  function UpperWordStarts(s: string): string
  {
    seq(|s|, i requires 0 <= i < |s| => if WordStart(s, i) then UpperAscii(s[i]) else s[i])
  }

  /** The default title of a folder or art file: dashes become spaces and
      every word starts with a capital. */
  function TitleCase(name: string): (t: string)
    ensures |t| == |name|
    ensures '-' !in t
  {
    var t := UpperWordStarts(ReplaceChar(name, '-', ' '));
    assert forall i :: 0 <= i < |t| ==> t[i] != '-' by {
      forall i | 0 <= i < |t| ensures t[i] != '-' {
        var spaced := ReplaceChar(name, '-', ' ');
        assert spaced[i] != '-';
      }
    }
    t
  }

  /** Character by character: a dash becomes a space, the first character of
      each word is upper-cased, and everything else is kept. */
  lemma TitleCaseChars(name: string)
    ensures forall i :: 0 <= i < |name| ==>
      TitleCase(name)[i] ==
        if name[i] == '-' then ' '
        else if IsWordChar(name[i]) && (i == 0 || !IsWordChar(name[i - 1])) then UpperAscii(name[i])
        else name[i]
  {
    var spaced := ReplaceChar(name, '-', ' ');
    var t := TitleCase(name);
    assert forall j :: 0 <= j < |name| ==> (IsWordChar(spaced[j]) <==> IsWordChar(name[j]));
    forall i | 0 <= i < |name|
      ensures t[i] == if name[i] == '-' then ' '
        else if IsWordChar(name[i]) && (i == 0 || !IsWordChar(name[i - 1])) then UpperAscii(name[i])
        else name[i]
    {
      assert t[i] == if WordStart(spaced, i) then UpperAscii(spaced[i]) else spaced[i];
    }
  }

  /** Title-casing twice is title-casing once. */
  lemma TitleCaseIdempotent(name: string)
    ensures TitleCase(TitleCase(name)) == TitleCase(name)
  {
    var t := TitleCase(name);
    TitleCaseChars(name);
    TitleCaseChars(t);
    forall i | 0 <= i < |t| ensures TitleCase(t)[i] == t[i] {
      if i > 0 {
        assert IsWordChar(t[i - 1]) <==> IsWordChar(name[i - 1]);
      }
    }
  }

  // ---------------------------------------------------------------------
  // Projects

  /** A directory entry from `readdirSync(..., { withFileTypes: true })`. */
  datatype Entry = Entry(name: string, isDir: bool, isFile: bool)

  /** A manifest record: field name to value. The source builds it as a
      JavaScript object and spreads `project.json` over it. */
  type Record = map<string, string>

  const EntryCandidates: seq<string> := ["index.html", "app.html", "main.html"]

  function ProjectDefaults(folderName: string): (d: Record)
    ensures d.Keys == {"folderName", "title", "description", "entryPoint"}
  {
    map["folderName" := folderName, "title" := TitleCase(folderName),
        "description" := "Project: " + folderName, "entryPoint" := "index.html"]
  }

  /** The first of `names` that exists. */
  function FirstExisting(names: seq<string>, present: set<string>): (r: Option<string>)
    ensures r.Some? ==> r.value in names && r.value in present
    ensures r.Some? ==> exists k :: 0 <= k < |names| && names[k] == r.value
                          && forall j :: 0 <= j < k ==> names[j] !in present
    ensures r.None? <==> forall k :: 0 <= k < |names| ==> names[k] !in present
  {
    if |names| == 0 then None
    else if names[0] in present then Some(names[0])
    else
      var r := FirstExisting(names[1..], present);
      if r.Some? then
        var k :| 0 <= k < |names[1..]| && names[1..][k] == r.value
                 && forall j :: 0 <= j < k ==> names[1..][j] !in present;
        assert names[k + 1] == r.value;
        r
      else r
  }

  /** One folder's record: the defaults, then `project.json` (None when the
      file is missing or does not parse), then the folder name again; then
      the first existing entry file replaces whatever entry point that
      gave. `files` are the names that exist inside the folder. */
  function ProjectRecord(folderName: string, config: Option<Record>, files: set<string>): (r: Record)
    ensures "folderName" in r && r["folderName"] == folderName
  {
    var merged := Merged(folderName, config);
    match FirstExisting(EntryCandidates, files)
    case Some(entry) => merged["entryPoint" := entry]
    case None => merged
  }

  /** The defaults, overridden by `project.json` when there is one, with
      `folderName` put back. */
  function Merged(folderName: string, config: Option<Record>): Record {
    match config
    case None => ProjectDefaults(folderName)
    case Some(c) => ProjectDefaults(folderName) + c + map["folderName" := folderName]
  }

  /** The merge keeps every configured field but `folderName` and every
      default the configuration leaves out. */
  lemma MergedFields(folderName: string, config: Option<Record>)
    ensures var m := Merged(folderName, config);
      && "folderName" in m && m["folderName"] == folderName
      && (forall k :: k != "folderName" && config.Some? && k in config.value ==>
            k in m && m[k] == config.value[k])
      && (forall k :: k in ProjectDefaults(folderName) && (config.None? || k !in config.value) ==>
            k in m && m[k] == ProjectDefaults(folderName)[k])
      && m.Keys == ProjectDefaults(folderName).Keys + (if config.Some? then config.value.Keys else {})
  {
  }

  /** `folderName` is always the directory's own name; every other field of
      `project.json` overrides the default; the entry point is the first of
      `index.html`, `app.html`, `main.html` present in the folder, and only
      when none is present does the configured (or default) value stand. */
  lemma ProjectRecordFields(folderName: string, config: Option<Record>, files: set<string>)
    ensures var r := ProjectRecord(folderName, config, files);
      && r["folderName"] == folderName
      && (forall k :: k != "folderName" && k != "entryPoint" && config.Some? && k in config.value ==>
            k in r && r[k] == config.value[k])
      && (forall k :: k in ProjectDefaults(folderName) && (config.None? || k !in config.value) ==>
            k in r && (k == "entryPoint" || r[k] == ProjectDefaults(folderName)[k]))
      && "entryPoint" in r
      && (FirstExisting(EntryCandidates, files).Some? ==>
            r["entryPoint"] == FirstExisting(EntryCandidates, files).value)
      && (FirstExisting(EntryCandidates, files).None? ==>
            r["entryPoint"] == if config.Some? && "entryPoint" in config.value
                               then config.value["entryPoint"] else "index.html")
      && r.Keys == ProjectDefaults(folderName).Keys + (if config.Some? then config.value.Keys else {})
  {
    MergedFields(folderName, config);
  }

  /** The record `listProjects` builds for directory `f`. */
  function DirRecord(f: string, configs: map<string, Record>, files: map<string, set<string>>): Record {
    ProjectRecord(f, if f in configs then Some(configs[f]) else None, if f in files then files[f] else {})
  }

  /** `listProjects`: one record per directory entry, in listing order;
      other entries are skipped. */
  function Projects(entries: seq<Entry>, configs: map<string, Record>, files: map<string, set<string>>): seq<Record> {
    if |entries| == 0 then []
    else
      var rest := Projects(entries[1..], configs, files);
      if entries[0].isDir then [DirRecord(entries[0].name, configs, files)] + rest else rest
  }

  /** Directories only, in listing order, one record each, named after
      its directory. */
  lemma {:induction false} ProjectsNamed(entries: seq<Entry>, configs: map<string, Record>, files: map<string, set<string>>)
    ensures var ps := Projects(entries, configs, files);
      && |ps| == |Dirs(entries)|
      && forall k :: 0 <= k < |ps| ==> "folderName" in ps[k] && ps[k]["folderName"] == Dirs(entries)[k]
  {
    if |entries| > 0 {
      ProjectsNamed(entries[1..], configs, files);
      var rest := Projects(entries[1..], configs, files);
      if entries[0].isDir {
        var f := entries[0].name;
        var r := DirRecord(f, configs, files);
        PrependRecord(r, f, rest, Dirs(entries[1..]));
        assert Dirs(entries) == [f] + Dirs(entries[1..]);
      } else {
        assert Dirs(entries) == Dirs(entries[1..]);
      }
    }
  }

  lemma PrependRecord(r: Record, f: string, rest: seq<Record>, names: seq<string>)
    requires "folderName" in r && r["folderName"] == f
    requires |rest| == |names|
    requires forall k :: 0 <= k < |rest| ==> "folderName" in rest[k] && rest[k]["folderName"] == names[k]
    ensures var ps, ns := [r] + rest, [f] + names;
      |ps| == |ns| && forall k :: 0 <= k < |ps| ==> "folderName" in ps[k] && ps[k]["folderName"] == ns[k]
  {
    var ps, ns := [r] + rest, [f] + names;
    forall k | 0 <= k < |ps| ensures "folderName" in ps[k] && ps[k]["folderName"] == ns[k] {
      if k > 0 {
        assert ps[k] == rest[k - 1] && ns[k] == names[k - 1];
      }
    }
  }

  function Dirs(entries: seq<Entry>): seq<string> {
    if |entries| == 0 then []
    else (if entries[0].isDir then [entries[0].name] else []) + Dirs(entries[1..])
  }

  // ---------------------------------------------------------------------
  // Art

  /** Regular files whose name ends in `.js`, in listing order. */
  function ScriptFiles(entries: seq<Entry>): (names: seq<string>)
    ensures forall k :: 0 <= k < |names| ==> EndsWith(names[k], ".js")
    ensures |names| <= |entries|
  {
    if |entries| == 0 then []
    else
      var e := entries[0];
      (if e.isFile && EndsWith(e.name, ".js") then [e.name] else []) + ScriptFiles(entries[1..])
  }

  /** The filter keeps the listing's order: it distributes over
      concatenation, and keeps a single entry exactly when it is a `.js`
      file. */
  lemma {:induction false} ScriptFilesAppend(a: seq<Entry>, b: seq<Entry>)
    ensures ScriptFiles(a + b) == ScriptFiles(a) + ScriptFiles(b)
    ensures |a| == 1 ==> ScriptFiles(a) == if a[0].isFile && EndsWith(a[0].name, ".js") then [a[0].name] else []
    decreases |a|
  {
    if |a| == 0 {
      assert a + b == b;
    } else {
      assert (a + b)[0] == a[0];
      assert (a + b)[1..] == a[1..] + b;
      ScriptFilesAppend(a[1..], b);
      if |a| == 1 {
        assert a[1..] == [];
      }
    }
  }

  /** A name is listed exactly when some regular-file entry ending in `.js`
      carries it. */
  lemma {:induction false} ScriptFilesMembers(entries: seq<Entry>, x: string)
    ensures x in ScriptFiles(entries) <==>
      exists k :: 0 <= k < |entries| && entries[k].isFile && entries[k].name == x && EndsWith(x, ".js")
    decreases |entries|
  {
    if |entries| > 0 {
      ScriptFilesMembers(entries[1..], x);
      if x in ScriptFiles(entries[1..]) {
        var k :| 0 <= k < |entries[1..]| && entries[1..][k].isFile && entries[1..][k].name == x && EndsWith(x, ".js");
        assert entries[k + 1] == entries[1..][k];
      }
      if exists k :: 0 <= k < |entries| && entries[k].isFile && entries[k].name == x && EndsWith(x, ".js") {
        var k :| 0 <= k < |entries| && entries[k].isFile && entries[k].name == x && EndsWith(x, ".js");
        if k > 0 {
          assert entries[1..][k - 1] == entries[k];
        }
      }
    }
  }

  datatype ArtPiece = ArtPiece(fileName: string, title: string, description: string)

  /** `fileName.replace('.js', '')`: only the first `.js` goes. */
  function BaseName(fileName: string): string {
    ReplaceFirst(fileName, ".js", "")
  }

  /** For `b.js` with no earlier `.js`, the base name is `b`; only one `.js`
      is removed from `a.js.js`. */
  lemma BaseNameOfScript(b: string)
    requires forall i :: 0 <= i < |b| ==> !OccursAt(b + ".js", ".js", i)
    ensures BaseName(b + ".js") == b
    ensures BaseName(b + ".js" + ".js") == b + ".js"
  {
    ReplaceFirstSuffix(b, ".js", "");
    ReplaceFirstSuffix(b, ".js", ".js");
    assert b + ".js" + "" == b + ".js";
  }

  /** An art file's record: defaults from the base name, overridden field by
      field by what the file's metadata block gives. `content` is None when
      the file cannot be read, which the source catches and ignores. */
  function ArtRecord(fileName: string, content: Option<string>): (a: ArtPiece)
    ensures a.fileName == fileName
  {
    var base := BaseName(fileName);
    var defaults := ArtPiece(fileName, TitleCase(base), "Generative art: " + base);
    match content
    case None => defaults
    case Some(text) =>
      match Metadata(text)
      case None => defaults
      case Some(block) =>
        defaults.(title := Field(block, "title").GetOr(defaults.title),
                  description := Field(block, "description").GetOr(defaults.description))
  }

  /** A field overrides its default only when its pattern matches. */
  lemma ArtRecordOverrides(fileName: string, content: Option<string>)
    ensures var a := ArtRecord(fileName, content);
      var base := BaseName(fileName);
      var block := if content.Some? then Metadata(content.value) else None;
      && (block.Some? && Field(block.value, "title").Some? ==> a.title == Field(block.value, "title").value)
      && (block.None? || Field(block.value, "title").None? ==> a.title == TitleCase(base))
      && (block.Some? && Field(block.value, "description").Some? ==>
            a.description == Field(block.value, "description").value)
      && (block.None? || Field(block.value, "description").None? ==> a.description == "Generative art: " + base)
  {
  }

  /** One record per `.js` file, in listing order. */
  function ArtPieces(entries: seq<Entry>, contents: map<string, string>): (ps: seq<ArtPiece>)
    ensures |ps| == |ScriptFiles(entries)|
    ensures forall k :: 0 <= k < |ps| ==> ps[k].fileName == ScriptFiles(entries)[k]
  {
    var names := ScriptFiles(entries);
    seq(|names|, k requires 0 <= k < |names| =>
      ArtRecord(names[k], if names[k] in contents then Some(contents[names[k]]) else None))
  }

  // ---------------------------------------------------------------------
  // The metadata patterns

  /** The first index at or after `i` that is not `\s`. */
  function SkipSpaces(s: string, i: nat): (j: nat)
    requires i <= |s|
    ensures i <= j <= |s|
    ensures forall k :: i <= k < j ==> IsSpace(s[k])
    ensures j < |s| ==> !IsSpace(s[j])
    decreases |s| - i
  {
    if i < |s| && IsSpace(s[i]) then SkipSpaces(s, i + 1) else i
  }

  /** The first index at or after `i` holding `c`. */
  function FindFrom(s: string, i: nat, c: char): (r: Option<nat>)
    requires i <= |s|
    ensures r.Some? ==> i <= r.value < |s| && s[r.value] == c
    ensures forall k :: i <= k < |s| && (r.None? || k < r.value) ==> s[k] != c
    decreases |s| - i
  {
    if i == |s| then None else if s[i] == c then Some(i) else FindFrom(s, i + 1, c)
  }

  predicate IsQuote(c: char) { c == '"' || c == '\'' }

  /** The first quote of either kind at or after `i`. */
  function FindQuote(s: string, i: nat): (r: Option<nat>)
    requires i <= |s|
    ensures r.Some? ==> i <= r.value < |s| && IsQuote(s[r.value])
    ensures forall k :: i <= k < |s| && (r.None? || k < r.value) ==> !IsQuote(s[k])
    decreases |s| - i
  {
    if i == |s| then None else if IsQuote(s[i]) then Some(i) else FindQuote(s, i + 1)
  }

  /** `export\s+const\s+metadata\s*=\s*({[^}]+})` anchored at `i`: each `\s`
      run ends where a non-space must follow, and `[^}]+` runs to the first
      `}`, so a match at `i` is determined without backtracking. Gives the
      braced block. */
  function MetadataAt(s: string, i: nat): (r: Option<string>)
    requires i <= |s|
    ensures r.Some? ==> |r.value| >= 3 && r.value[0] == '{' && r.value[|r.value| - 1] == '}'
    ensures r.Some? ==> '}' !in r.value[..|r.value| - 1]
    ensures r.Some? ==> OccursAt(s, "export", i)
  {
    if !OccursAt(s, "export", i) then None
    else
      var a := SkipSpaces(s, i + 6);
      if a == i + 6 || !OccursAt(s, "const", a) then None
      else
        var b := SkipSpaces(s, a + 5);
        if b == a + 5 || !OccursAt(s, "metadata", b) then None
        else
          var c := SkipSpaces(s, b + 8);
          if c == |s| || s[c] != '=' then None
          else
            var d := SkipSpaces(s, c + 1);
            if d == |s| || s[d] != '{' then None
            else Braced(s, d)
  }

  /** `({[^}]+})` at `d`: the brace, at least one non-`}` character and the
      first `}` after it. */
  function Braced(s: string, d: nat): (r: Option<string>)
    requires d < |s| && s[d] == '{'
    ensures r.Some? ==> |r.value| >= 3 && r.value[0] == '{' && r.value[|r.value| - 1] == '}'
    ensures r.Some? ==> '}' !in r.value[..|r.value| - 1]
  {
    match FindFrom(s, d + 1, '}')
    case None => None
    case Some(e) =>
      if e == d + 1 then None
      else
        var b := s[d..e + 1];
        assert b[..|b| - 1] == s[d..e];
        Some(b)
  }

  /** `key\s*:\s*["']([^"']+)["']` anchored at `i`: the captured value is
      the non-empty run up to the next quote of either kind. */
  function FieldAt(s: string, key: string, i: nat): (r: Option<string>)
    requires i <= |s|
    ensures r.Some? ==> |r.value| > 0 && forall k :: 0 <= k < |r.value| ==> !IsQuote(r.value[k])
    ensures r.Some? ==> OccursAt(s, key, i)
    ensures r.Some? ==> exists k :: i + |key| <= k < |s| && s[k] == ':'
  {
    if !OccursAt(s, key, i) then None
    else
      var a := SkipSpaces(s, i + |key|);
      if a == |s| || s[a] != ':' then None
      else
        var b := SkipSpaces(s, a + 1);
        if b == |s| || !IsQuote(s[b]) then None
        else
          match FindQuote(s, b + 1)
          case None => None
          case Some(e) =>
            if e == b + 1 then None
            else
              Some(s[b + 1..e])
  }

  /** `String.prototype.match` without `g` picks the leftmost position
      where the pattern matches: the first `Some` of `ms` at or after `i`,
      with its index. */
  function First<T>(ms: seq<Option<T>>, i: nat): (r: Option<(nat, T)>)
    requires i <= |ms|
    ensures r.Some? ==> i <= r.value.0 < |ms| && ms[r.value.0] == Some(r.value.1)
    ensures r.Some? ==> forall k :: i <= k < r.value.0 ==> ms[k].None?
    ensures r.None? ==> forall k :: i <= k < |ms| ==> ms[k].None?
    decreases |ms| - i
  {
    if i == |ms| then None
    else
      match ms[i]
      case Some(v) => Some((i, v))
      case None => First(ms, i + 1)
  }

  /** Whatever the positions hold, the search returns the first `Some`, and
      None exactly when every position is None. */
  lemma FirstIsLeftmost<T>(ms: seq<Option<T>>, j: nat)
    requires j < |ms|
    ensures ms[j].Some? && (forall k :: 0 <= k < j ==> ms[k].None?) ==> First(ms, 0) == Some((j, ms[j].value))
    ensures First(ms, 0).None? <==> forall k :: 0 <= k < |ms| ==> ms[k].None?
  {
  }

  /** What the metadata pattern gives when anchored at each position. */
  function MetadataMatches(s: string): (ms: seq<Option<string>>)
    ensures |ms| == |s| + 1
    ensures forall k :: 0 <= k <= |s| ==> ms[k] == MetadataAt(s, k)
  {
    seq(|s| + 1, k requires 0 <= k <= |s| => MetadataAt(s, k))
  }

  /** `content.match(metadataPattern)`, group 1. */
  function Metadata(s: string): Option<string> {
    match First(MetadataMatches(s), 0)
    case Some((_, b)) => Some(b)
    case None => None
  }

  /** The block found is the one at the first position where the pattern
      matches, and there is none exactly when no position matches. */
  lemma MetadataFirst(s: string, j: nat)
    requires j <= |s|
    ensures MetadataAt(s, j).Some? && (forall k :: 0 <= k < j ==> MetadataAt(s, k).None?) ==>
      Metadata(s) == MetadataAt(s, j)
    ensures Metadata(s).None? <==> forall k :: 0 <= k <= |s| ==> MetadataAt(s, k).None?
  {
    FirstIsLeftmost(MetadataMatches(s), j);
  }

  /** What the field pattern gives when anchored at each position. */
  function FieldMatches(s: string, key: string): (ms: seq<Option<string>>)
    ensures |ms| == |s| + 1
    ensures forall k :: 0 <= k <= |s| ==> ms[k] == FieldAt(s, key, k)
  {
    seq(|s| + 1, k requires 0 <= k <= |s| => FieldAt(s, key, k))
  }

  /** `block.match(pattern)`, group 1. */
  function Field(block: string, key: string): Option<string> {
    match First(FieldMatches(block, key), 0)
    case Some((_, v)) => Some(v)
    case None => None
  }

  /** The value found is the one at the first position where the pattern
      matches, and there is none exactly when no position matches. */
  lemma FieldFirst(s: string, key: string, j: nat)
    requires j <= |s|
    ensures FieldAt(s, key, j).Some? && (forall k :: 0 <= k < j ==> FieldAt(s, key, k).None?) ==>
      Field(s, key) == FieldAt(s, key, j)
    ensures Field(s, key).None? <==> forall k :: 0 <= k <= |s| ==> FieldAt(s, key, k).None?
  {
    FirstIsLeftmost(FieldMatches(s, key), j);
  }

  /** `key: 'value'` at the front of a block gives back the value. */
  lemma FieldRoundTrip(key: string, v: string, q: char, rest: string)
    requires |key| > 0 && !IsSpace(key[0]) && IsQuote(q)
    requires |v| > 0 && forall k :: 0 <= k < |v| ==> !IsQuote(v[k])
    ensures FieldAt(key + ": " + [q] + v + [q] + rest, key, 0) == Some(v)
  {
    var s := key + ": " + [q] + v + [q] + rest;
    var n := |key|;
    assert s[..n] == key;
    assert s[n] == ':' && s[n + 1] == ' ' && s[n + 2] == q;
    assert s[n + 3 + |v|] == q;
    assert s[n + 3..n + 3 + |v|] == v;
    FieldLaidOut(s, key, v);
  }

  /** A block laid out as `key: ` then a quoted non-empty value without
      quotes gives back the value. */
  lemma FieldLaidOut(s: string, key: string, v: string)
    requires |key| > 0 && !IsSpace(key[0]) && |v| > 0
    requires forall k :: 0 <= k < |v| ==> !IsQuote(v[k])
    requires var n := |key|;
      && n + 3 + |v| < |s| && s[..n] == key
      && s[n] == ':' && s[n + 1] == ' ' && IsQuote(s[n + 2])
      && s[n + 3..n + 3 + |v|] == v && IsQuote(s[n + 3 + |v|])
    ensures FieldAt(s, key, 0) == Some(v)
  {
    var n := |key|;
    assert SkipSpaces(s, n) == n;
    assert SkipSpaces(s, n + 1) == n + 2 by {
      assert SkipSpaces(s, n + 2) == n + 2;
    }
    assert FindQuote(s, n + 3) == Some(n + 3 + |v|) by {
      forall k | n + 3 <= k < n + 3 + |v| ensures !IsQuote(s[k]) {
        assert s[k] == s[n + 3..n + 3 + |v|][k - n - 3];
      }
      FindQuoteAt(s, n + 3, n + 3 + |v|);
    }
  }

  lemma {:induction false} FindQuoteAt(s: string, i: nat, e: nat)
    requires i <= e < |s| && IsQuote(s[e])
    requires forall k :: i <= k < e ==> !IsQuote(s[k])
    ensures FindQuote(s, i) == Some(e)
    decreases e - i
  {
    if i < e {
      FindQuoteAt(s, i + 1, e);
    }
  }

  /** A field whose block has no `:` after the key's first possible end
      cannot match: in `{title: 'T'}` with no `:` in `T`, the description
      pattern finds nothing and the default description stays. */
  lemma FieldNeedsColon(s: string, key: string)
    requires forall k :: |key| <= k < |s| ==> s[k] != ':'
    ensures Field(s, key).None?
  {
    assert forall j :: 0 <= j <= |s| ==> FieldAt(s, key, j).None?;
  }
}

=== FILE: markdown.dfy ===
/** The block-level Markdown converter (index.tsx, `markdownToHtml`).

    The source walks the lines of the document once, keeping three pieces of
    state — whether a list is open, which kind it is, and the lines of the
    paragraph collected so far — and appends HTML to one string. Here the
    two list variables are one `Option<ListKind>` (the source always sets
    them together), and each step returns the blocks it appends instead of
    appending text; `Html` spells the blocks out exactly as the source's
    template strings do. */
module Markdown {
  import opened Wrappers
  import opened Text
  import opened Inline

  datatype ListKind = Bullets | Numbers

  /** One piece of the output, in the order the source appends them. */
  datatype Block =
    | Para(text: string)
    | Heading(level: nat, text: string)
    | Open(kind: ListKind)
    | Close(kind: ListKind)
    | Item(text: string)

  /** `inList`/`listType` and `paragraphBuffer`. */
  datatype State = State(list: Option<ListKind>, buffer: seq<string>)

  /** The state after a step and the blocks the step appended. */
  datatype Emit = Emit(st: State, out: seq<Block>)

  const Initial: State := State(None, [])

  // ---------------------------------------------------------------------
  // Rendering

  function ListTag(kind: ListKind): string {
    match kind
    case Bullets => "ul"
    case Numbers => "ol"
  }

  function HeadingTag(level: nat): string {
    if level == 1 then "h1" else if level == 2 then "h2" else "h3"
  }

  /** Which inline formatter the block text goes through: `applyInlineMarkdown`
      as written, or the corrected one that leaves anchor start tags alone. */
  datatype Inliner = AsWritten | Corrected

  function Inlined(f: Inliner, t: string): string {
    match f
    case AsWritten => ApplyInline(t)
    case Corrected => Format(t)
  }

  /** The HTML one block appends; the text of paragraphs, headings and items
      goes through the inline formatter. */
  function Render(f: Inliner, b: Block): string {
    match b
    case Para(t) => "<p>" + Inlined(f, t) + "</p>\n"
    case Heading(n, t) => "<" + HeadingTag(n) + ">" + Inlined(f, t) + "</" + HeadingTag(n) + ">\n"
    case Open(k) => "<" + ListTag(k) + ">\n"
    case Close(k) => "</" + ListTag(k) + ">\n"
    case Item(t) => "<li>" + Inlined(f, t) + "</li>\n"
  }

  function Html(f: Inliner, bs: seq<Block>): string {
    if |bs| == 0 then [] else Render(f, bs[0]) + Html(f, bs[1..])
  }

  lemma {:induction false} HtmlAppend(f: Inliner, a: seq<Block>, b: seq<Block>)
    ensures Html(f, a + b) == Html(f, a) + Html(f, b)
  {
    if |a| > 0 {
      assert (a + b)[0] == a[0];
      assert (a + b)[1..] == a[1..] + b;
      HtmlAppend(f, a[1..], b);
    } else {
      assert a + b == b;
    }
  }

  // ---------------------------------------------------------------------
  // Classifying a line

  /** What a line is, in the order the source tests: headings, a bullet
      item, a numbered item, a blank line, otherwise paragraph text. */
  datatype Line =
    | HeadingLine(level: nat, rest: string)
    | ItemLine(kind: ListKind, content: string)
    | BlankLine
    | TextLine

  /** The number of ASCII digits `s` starts with (`\d+`). */
  function Digits(s: string): (n: nat)
    ensures n <= |s|
    ensures forall i :: 0 <= i < n ==> IsDigit(s[i])
    ensures n < |s| ==> !IsDigit(s[n])
  {
    if |s| > 0 && IsDigit(s[0]) then 1 + Digits(s[1..]) else 0
  }

  /** What `(.*)` captures: everything up to the first line terminator. */
  function UpToBreak(s: string): (r: string)
    ensures |r| <= |s| && r == s[..|r|]
    ensures forall i :: 0 <= i < |r| ==> !IsLineTerminator(r[i])
    ensures |r| < |s| ==> IsLineTerminator(s[|r|])
  {
    if |s| == 0 || IsLineTerminator(s[0]) then [] else [s[0]] + UpToBreak(s[1..])
  }

  /** `^(\*|-|\+) (.*)`. */
  predicate IsBullet(line: string) {
    |line| >= 2 && (line[0] == '*' || line[0] == '-' || line[0] == '+') && line[1] == ' '
  }

  /** `^(\d+)\. (.*)`: the digit run is maximal, since a digit is never `.`. */
  predicate IsNumbered(line: string) {
    var n := Digits(line);
    0 < n && n + 2 <= |line| && line[n] == '.' && line[n + 1] == ' '
  }

  function Classify(line: string): Line {
    if StartsWith(line, "# ") then HeadingLine(1, line[2..])
    else if StartsWith(line, "## ") then HeadingLine(2, line[3..])
    else if StartsWith(line, "### ") then HeadingLine(3, line[4..])
    else if IsBullet(line) then ItemLine(Bullets, UpToBreak(line[2..]))
    else if IsNumbered(line) then ItemLine(Numbers, UpToBreak(line[Digits(line) + 2..]))
    else if IsBlank(line) then BlankLine
    else TextLine
  }

  /** The heading prefixes pick the level and hand over the rest of the line. */
  lemma ClassifyHeadings(x: string)
    ensures Classify("# " + x) == HeadingLine(1, x)
    ensures Classify("## " + x) == HeadingLine(2, x)
    ensures Classify("### " + x) == HeadingLine(3, x)
  {
    assert ("# " + x)[..2] == "# " && ("# " + x)[2..] == x;
    assert ("## " + x)[..3] == "## " && ("## " + x)[3..] == x;
    assert ("### " + x)[..4] == "### " && ("### " + x)[4..] == x;
    assert ("## " + x)[1] == '#' && ("### " + x)[1] == '#' && ("### " + x)[2] == '#';
  }

  /** `* `, `- ` and `+ ` start a bullet item whose content runs to the end
      of the line. */
  lemma ClassifyBullet(c: char, x: string)
    requires c == '*' || c == '-' || c == '+'
    requires forall i :: 0 <= i < |x| ==> !IsLineTerminator(x[i])
    ensures Classify([c, ' '] + x) == ItemLine(Bullets, x)
  {
    var line := [c, ' '] + x;
    assert line[0] == c && line[1] == ' ' && line[2..] == x;
    assert !StartsWith(line, "# ") && !StartsWith(line, "## ") && !StartsWith(line, "### ") by {
      assert line[0] != '#';
    }
  }

  /** A run of digits followed by `. ` starts a numbered item. */
  lemma ClassifyNumbered(d: string, x: string)
    requires |d| > 0 && forall i :: 0 <= i < |d| ==> IsDigit(d[i])
    requires forall i :: 0 <= i < |x| ==> !IsLineTerminator(x[i])
    ensures Classify(d + ". " + x) == ItemLine(Numbers, x)
  {
    var line := d + ". " + x;
    DigitsPrefix(d, ". " + x);
    assert line == d + (". " + x);
    assert line[|d|] == '.' && line[|d| + 1] == ' ' && line[|d| + 2..] == x;
    assert !StartsWith(line, "# ") && !StartsWith(line, "## ") && !StartsWith(line, "### ") by {
      assert line[0] == d[0] && line[0] != '#';
    }
    assert !IsBullet(line) by {
      assert line[0] == d[0];
    }
  }

  lemma {:induction false} DigitsPrefix(d: string, rest: string)
    requires forall i :: 0 <= i < |d| ==> IsDigit(d[i])
    requires |rest| > 0 && !IsDigit(rest[0])
    ensures Digits(d + rest) == |d|
  {
    if |d| > 0 {
      assert (d + rest)[0] == d[0];
      assert (d + rest)[1..] == d[1..] + rest;
      DigitsPrefix(d[1..], rest);
    } else {
      assert d + rest == rest;
    }
  }

  // ---------------------------------------------------------------------
  // One line at a time

  /** `flushParagraph`: the collected lines become one paragraph, joined by
      single spaces and trimmed. */
  function Flush(st: State): (e: Emit)
    ensures e.st == State(st.list, [])
    ensures |st.buffer| == 0 <==> e.out == []
  {
    if |st.buffer| > 0 then Emit(State(st.list, []), [Para(Trim(Join(st.buffer, " ")))])
    else Emit(st, [])
  }

  /** `closeList`: flushes, then closes the open list, if there is one. */
  function CloseList(st: State): (e: Emit)
    ensures e.st.list == None
    ensures st.list.None? ==> e == Emit(st, [])
  {
    match st.list
    case None => Emit(st, [])
    case Some(k) =>
      var f := Flush(st);
      Emit(State(None, f.st.buffer), f.out + [Close(k)])
  }

  /** Flush, then close: what a heading, a blank line and the end of input do
      before anything else. */
  function EndBlocks(st: State): (e: Emit)
    ensures e.st == Initial
  {
    var f := Flush(st);
    var c := CloseList(f.st);
    Emit(c.st, f.out + c.out)
  }

  /** A list item: a paragraph in progress is flushed; an item of the other
      kind closes the open list; a new list is opened unless one of the same
      kind is open. */
  function AddItem(st: State, kind: ListKind, content: string): Emit {
    var f := Flush(st);
    var closing := if f.st.list.Some? && f.st.list != Some(kind) then [Close(f.st.list.value)] else [];
    var opening := if f.st.list != Some(kind) then [Open(kind)] else [];
    Emit(State(Some(kind), []), f.out + closing + opening + [Item(Trim(content))])
  }

  /** One iteration of the loop over the lines. */
  function Step(st: State, line: string): Emit {
    Apply(st, Classify(line), line)
  }

  /** What the loop body does with a line of the given kind. */
  function Apply(st: State, kind: Line, line: string): Emit {
    match kind
    case HeadingLine(n, rest) =>
      var e := EndBlocks(st);
      Emit(e.st, e.out + [Heading(n, Trim(rest))])
    case ItemLine(kind, content) => AddItem(st, kind, content)
    case BlankLine => EndBlocks(st)
    case TextLine =>
      var c := CloseList(st);
      Emit(State(c.st.list, c.st.buffer + [line]), c.out)
  }

  /** Runs `step` over the lines in order, collecting what each appends. */
  function Fold(step: (State, string) -> Emit, st: State, lines: seq<string>): Emit
    decreases |lines|
  {
    if |lines| == 0 then Emit(st, [])
    else
      var e := step(st, lines[0]);
      var r := Fold(step, e.st, lines[1..]);
      Emit(r.st, e.out + r.out)
  }

  /** The loop over all lines of the document. */
  function Run(st: State, lines: seq<string>): Emit {
    Fold(Step, st, lines)
  }

  /** Every block the converter appends, the final flush and close included. */
  function Blocks(md: string): seq<Block> {
    var r := Run(Initial, Split(md, '\n'));
    r.out + EndBlocks(r.st).out
  }

  /** `markdownToHtml`, with `applyInlineMarkdown` as written. */
  function Convert(md: string): string {
    Trim(Html(AsWritten, Blocks(md)))
  }

  /** The same converter over the corrected inline formatter. */
  function ConvertCorrected(md: string): string {
    Trim(Html(Corrected, Blocks(md)))
  }

  // ---------------------------------------------------------------------
  // Well-nested output

  /** A paragraph is only ever collected outside a list. */
  predicate Inv(st: State) {
    st.list.Some? ==> st.buffer == []
  }

  /** Replays blocks from an open list (or none): lists never nest, every
      close matches the open list, items sit inside a list, and paragraphs
      and headings outside one. Gives the list left open at the end, or None
      on the first violation. */
  function Track(open: Option<ListKind>, bs: seq<Block>): Option<Option<ListKind>>
    decreases |bs|
  {
    if |bs| == 0 then Some(open)
    else
      match bs[0]
      case Open(k) => if open.None? then Track(Some(k), bs[1..]) else None
      case Close(k) => if open == Some(k) then Track(None, bs[1..]) else None
      case Item(_) => if open.Some? then Track(open, bs[1..]) else None
      case Para(_) => if open.None? then Track(open, bs[1..]) else None
      case Heading(_, _) => if open.None? then Track(open, bs[1..]) else None
  }

  lemma {:induction false} TrackAppend(open: Option<ListKind>, a: seq<Block>, b: seq<Block>)
    requires Track(open, a).Some?
    ensures Track(open, a + b) == Track(Track(open, a).value, b)
    decreases |a|
  {
    if |a| == 0 {
      assert a + b == b;
    } else {
      assert (a + b)[0] == a[0];
      assert (a + b)[1..] == a[1..] + b;
      match a[0]
      case Open(k) => TrackAppend(Some(k), a[1..], b);
      case Close(k) => TrackAppend(None, a[1..], b);
      case Item(_) => TrackAppend(open, a[1..], b);
      case Para(_) => TrackAppend(open, a[1..], b);
      case Heading(_, _) => TrackAppend(open, a[1..], b);
    }
  }

  lemma EndBlocksTrack(st: State)
    requires Inv(st)
    ensures Track(st.list, EndBlocks(st).out) == Some(None)
  {
    if st.list.Some? {
      assert EndBlocks(st).out == [Close(st.list.value)];
    }
  }

  /** What an item appends, by the list open before it. */
  lemma AddItemOut(st: State, kind: ListKind, content: string)
    requires Inv(st)
    ensures var t := Trim(content); var out := AddItem(st, kind, content).out;
      && (st.list == Some(kind) ==> out == [Item(t)])
      && (st.list.Some? && st.list != Some(kind) ==> out == [Close(st.list.value), Open(kind), Item(t)])
      && (st.list.None? ==> out == Flush(st).out + [Open(kind), Item(t)])
  {
  }

  lemma AddItemTrack(st: State, kind: ListKind, content: string)
    requires Inv(st)
    ensures Track(st.list, AddItem(st, kind, content).out) == Some(Some(kind))
  {
    AddItemOut(st, kind, content);
    var t := Trim(content);
    TrackItems(kind, t);
    if st.list.Some? && st.list != Some(kind) {
      TrackSwitch(st.list.value, kind, t);
    } else if st.list.None? {
      FlushTrack(st);
      TrackAppend(None, Flush(st).out, [Open(kind), Item(t)]);
    }
  }

  /** An item inside its list, or a list opened for it, leaves that list open. */
  lemma TrackItems(kind: ListKind, t: string)
    ensures Track(Some(kind), [Item(t)]) == Some(Some(kind))
    ensures Track(None, [Open(kind), Item(t)]) == Some(Some(kind))
  {
    assert [Item(t)][1..] == [];
    assert [Open(kind), Item(t)][1..] == [Item(t)];
  }

  /** Closing the other list and opening this one for the item. */
  lemma TrackSwitch(o: ListKind, kind: ListKind, t: string)
    ensures Track(Some(o), [Close(o), Open(kind), Item(t)]) == Some(Some(kind))
  {
    var bs := [Close(o), Open(kind), Item(t)];
    assert bs[0] == Close(o) && bs[1..] == [Open(kind), Item(t)];
    TrackItems(kind, t);
  }

  /** Flushing outside a list leaves no list open. */
  lemma FlushTrack(st: State)
    requires st.list.None?
    ensures Track(None, Flush(st).out) == Some(None)
  {
    var f := Flush(st).out;
    if |f| > 0 {
      assert f[1..] == [];
    }
  }

  /** Each step keeps the invariant and appends blocks that lead from the
      list open before it to the list open after it. */
  lemma StepTrack(st: State, line: string)
    requires Inv(st)
    ensures Inv(Step(st, line).st)
    ensures Track(st.list, Step(st, line).out) == Some(Step(st, line).st.list)
  {
    ApplyTrack(st, Classify(line), line);
  }

  lemma ApplyTrack(st: State, kind: Line, line: string)
    requires Inv(st)
    ensures Inv(Apply(st, kind, line).st)
    ensures Track(st.list, Apply(st, kind, line).out) == Some(Apply(st, kind, line).st.list)
  {
    match kind
    case HeadingLine(n, rest) =>
      EndBlocksTrack(st);
      TrackAppend(st.list, EndBlocks(st).out, [Heading(n, Trim(rest))]);
    case ItemLine(k, content) =>
      AddItemTrack(st, k, content);
    case BlankLine =>
      EndBlocksTrack(st);
    case TextLine =>
  }

  lemma {:induction false} RunTrack(st: State, lines: seq<string>)
    requires Inv(st)
    ensures Inv(Run(st, lines).st)
    ensures Track(st.list, Run(st, lines).out) == Some(Run(st, lines).st.list)
    decreases |lines|
  {
    if |lines| > 0 {
      var e := Step(st, lines[0]);
      StepTrack(st, lines[0]);
      RunTrack(e.st, lines[1..]);
      TrackAppend(st.list, e.out, Run(e.st, lines[1..]).out);
    }
  }

  /** The converter's output is well nested: every `<ul>`/`<ol>` it opens is
      closed by the matching tag before another list opens, list items occur
      only inside a list, and nothing is left open at the end. */
  lemma Balanced(md: string)
    ensures Track(None, Blocks(md)) == Some(None)
  {
    var r := Run(Initial, Split(md, '\n'));
    RunTrack(Initial, Split(md, '\n'));
    TrackAppend(None, r.out, EndBlocks(r.st).out);
    EndBlocksTrack(r.st);
  }

  // ---------------------------------------------------------------------
  // What single lines do

  /** A heading line ends the paragraph and the list, then appends the
      heading of its trimmed remainder. */
  lemma HeadingStep(st: State, line: string, n: nat, rest: string)
    requires Inv(st)
    requires Classify(line) == HeadingLine(n, rest)
    ensures Step(st, line).st == Initial
    ensures Step(st, line).out == Pending(st) + [Heading(n, Trim(rest))]
  {
  }

  /** The blocks that end whatever is in progress: the collected paragraph,
      or else the open list. */
  function Pending(st: State): seq<Block>
    requires Inv(st)
  {
    if |st.buffer| > 0 then [Para(Trim(Join(st.buffer, " ")))]
    else if st.list.Some? then [Close(st.list.value)]
    else []
  }

  /** A blank line flushes the paragraph and closes the list. */
  lemma BlankStep(st: State, line: string)
    requires Inv(st)
    requires IsBlank(line)
    ensures Step(st, line) == Emit(Initial, Pending(st))
  {
    assert !StartsWith(line, "# ") && !StartsWith(line, "## ") && !StartsWith(line, "### ")
      && !IsBullet(line) && !IsNumbered(line) by {
      if |line| >= 2 {
        assert IsSpace(line[0]) && IsSpace(line[1]);
      }
      if |line| > 0 {
        assert IsSpace(line[0]);
        assert Digits(line) == 0;
      }
    }
  }

  /** An item of the other kind closes the open list before opening its own. */
  lemma SwitchList(line: string, from: ListKind, to: ListKind, content: string)
    requires Classify(line) == ItemLine(to, content) && from != to
    ensures Step(State(Some(from), []), line)
         == Emit(State(Some(to), []), [Close(from), Open(to), Item(Trim(content))])
  {
  }

  /** An item of the kind already open adds one item and nothing else. */
  lemma SameList(line: string, kind: ListKind, content: string)
    requires Classify(line) == ItemLine(kind, content)
    ensures Step(State(Some(kind), []), line) == Emit(State(Some(kind), []), [Item(Trim(content))])
  {
  }

  /** A text line ends an open list and starts a new paragraph. */
  lemma TextEndsList(line: string, kind: ListKind)
    requires Classify(line) == TextLine
    ensures Step(State(Some(kind), []), line) == Emit(State(None, [line]), [Close(kind)])
  {
  }

  // ---------------------------------------------------------------------
  // Paragraphs

  lemma {:induction false} FoldAppend(step: (State, string) -> Emit, st: State, a: seq<string>, b: seq<string>)
    ensures Fold(step, st, a + b).st == Fold(step, Fold(step, st, a).st, b).st
    ensures Fold(step, st, a + b).out == Fold(step, st, a).out + Fold(step, Fold(step, st, a).st, b).out
    decreases |a|
  {
    if |a| == 0 {
      assert a + b == b;
    } else {
      assert (a + b)[0] == a[0];
      assert (a + b)[1..] == a[1..] + b;
      FoldAppend(step, step(st, a[0]).st, a[1..], b);
    }
  }

  /** Running two pieces of a document one after the other is running the whole. */
  lemma RunAppend(st: State, a: seq<string>, b: seq<string>)
    ensures Run(st, a + b).st == Run(Run(st, a).st, b).st
    ensures Run(st, a + b).out == Run(st, a).out + Run(Run(st, a).st, b).out
  {
    FoldAppend(Step, st, a, b);
  }

  predicate AllText(lines: seq<string>) {
    forall i :: 0 <= i < |lines| ==> Classify(lines[i]) == TextLine
  }

  /** Outside a list, text lines are only collected. */
  lemma {:induction false} CollectText(b: seq<string>, lines: seq<string>)
    requires AllText(lines)
    ensures Run(State(None, b), lines) == Emit(State(None, b + lines), [])
    decreases |lines|
  {
    if |lines| > 0 {
      assert Classify(lines[0]) == TextLine;
      assert AllText(lines[1..]) by {
        forall i | 0 <= i < |lines[1..]| ensures Classify(lines[1..][i]) == TextLine {
          assert lines[1..][i] == lines[i + 1];
        }
      }
      CollectText(b + [lines[0]], lines[1..]);
      assert b + [lines[0]] + lines[1..] == b + lines;
    }
  }

  lemma RunOne(st: State, line: string)
    ensures Run(st, [line]) == Step(st, line)
  {
    var e := Step(st, line);
    assert [line][1..] == [];
    assert Fold(Step, e.st, []) == Emit(e.st, []);
    assert Run(st, [line]) == Emit(e.st, e.out + []);
    assert e.out + [] == e.out;
  }

  /** Consecutive text lines followed by a blank line make exactly one
      paragraph: the lines joined with single spaces, trimmed. */
  lemma ParagraphJoin(lines: seq<string>, blank: string)
    requires |lines| > 0 && AllText(lines)
    requires IsBlank(blank)
    ensures Run(Initial, lines + [blank]) == Emit(Initial, [Para(Trim(Join(lines, " ")))])
  {
    RunAppend(Initial, lines, [blank]);
    TextFromStart(lines);
    BlankAfterText(lines, blank);
    assert [] + [Para(Trim(Join(lines, " ")))] == [Para(Trim(Join(lines, " ")))];
  }

  lemma BlankAfterText(lines: seq<string>, blank: string)
    requires |lines| > 0 && IsBlank(blank)
    ensures Run(State(None, lines), [blank]) == Emit(Initial, [Para(Trim(Join(lines, " ")))])
  {
    var collected := State(None, lines);
    RunOne(collected, blank);
    BlankStep(collected, blank);
  }

  /** The blocks of a document made only of text lines. */
  lemma TextOnlyBlocks(lines: seq<string>)
    requires |lines| > 0 && AllText(lines)
    requires forall i :: 0 <= i < |lines| ==> '\n' !in lines[i]
    ensures Blocks(Join(lines, "\n")) == [Para(Trim(Join(lines, " ")))]
  {
    var md := Join(lines, "\n");
    SplitJoin(lines, '\n');
    assert Split(md, '\n') == lines;
    TextFromStart(lines);
    var r := Run(Initial, lines);
    EndParagraph(lines);
    assert Blocks(md) == r.out + EndBlocks(r.st).out;
  }

  lemma TextFromStart(lines: seq<string>)
    requires AllText(lines)
    ensures Run(Initial, lines) == Emit(State(None, lines), [])
  {
    CollectText([], lines);
    assert [] + lines == lines;
  }

  /** Ending a collected paragraph outside a list emits just that paragraph. */
  lemma EndParagraph(lines: seq<string>)
    requires |lines| > 0
    ensures EndBlocks(State(None, lines)).out == [Para(Trim(Join(lines, " ")))]
  {
  }

  /** A document of text lines alone converts to a single paragraph. */
  lemma SingleParagraph(lines: seq<string>)
    requires |lines| > 0 && AllText(lines)
    requires forall i :: 0 <= i < |lines| ==> '\n' !in lines[i]
    ensures Convert(Join(lines, "\n")) == "<p>" + ApplyInline(Trim(Join(lines, " "))) + "</p>"
    ensures ConvertCorrected(Join(lines, "\n")) == "<p>" + Format(Trim(Join(lines, " "))) + "</p>"
  {
    TextOnlyBlocks(lines);
    ParagraphDocument(Join(lines, "\n"), Trim(Join(lines, " ")));
  }

  lemma ParagraphDocument(md: string, t: string)
    requires Blocks(md) == [Para(t)]
    ensures Convert(md) == "<p>" + ApplyInline(t) + "</p>"
    ensures ConvertCorrected(md) == "<p>" + Format(t) + "</p>"
  {
    OneParagraph(AsWritten, md, t);
    OneParagraph(Corrected, md, t);
  }

  lemma OneParagraph(f: Inliner, md: string, t: string)
    requires Blocks(md) == [Para(t)]
    ensures Trim(Html(f, Blocks(md))) == "<p>" + Inlined(f, t) + "</p>"
  {
    HtmlSingle(f, Para(t));
    ParagraphTrimmed(Inlined(f, t));
  }

  lemma ParagraphTrimmed(f: string)
    ensures Trim("<p>" + f + "</p>\n") == "<p>" + f + "</p>"
  {
    var m := "<p>" + f + "</p>";
    assert m[0] == '<' && m[|m| - 1] == '>';
    TrimAround([], m, "\n");
    assert [] + m + "\n" == "<p>" + f + "</p>\n";
  }

  lemma HtmlSingle(f: Inliner, b: Block)
    ensures Html(f, [b]) == Render(f, b)
  {
    assert [b][1..] == [];
  }

  /** The text a block hands to the inline formatter holds no `[`. */
  predicate LinkFree(b: Block) {
    match b
    case Para(t) => '[' !in t
    case Heading(_, t) => '[' !in t
    case Item(t) => '[' !in t
    case _ => true
  }

  lemma RenderAgrees(b: Block)
    requires LinkFree(b)
    ensures Render(AsWritten, b) == Render(Corrected, b)
  {
    match b
    case Para(t) => FormatAgreesWithoutLinks(t);
    case Heading(_, t) => FormatAgreesWithoutLinks(t);
    case Item(t) => FormatAgreesWithoutLinks(t);
    case _ =>
  }

  /** Blocks without link syntax render the same under either formatter. */
  lemma {:induction false} HtmlAgreesWithoutLinks(bs: seq<Block>)
    requires forall i :: 0 <= i < |bs| ==> LinkFree(bs[i])
    ensures Html(AsWritten, bs) == Html(Corrected, bs)
  {
    if |bs| > 0 {
      RenderAgrees(bs[0]);
      HtmlAgreesWithoutLinks(bs[1..]);
    }
  }

  /** A one-line paragraph document converts to that paragraph alone. */
  lemma OneLine(line: string)
    requires Classify(line) == TextLine && '\n' !in line && Trim(line) == line
    ensures Convert(line) == "<p>" + ApplyInline(line) + "</p>"
    ensures ConvertCorrected(line) == "<p>" + Format(line) + "</p>"
  {
    assert Join([line], "\n") == line && Join([line], " ") == line;
    SingleParagraph([line]);
  }

  /** Wrapping in `<p>` keeps strings apart. */
  lemma ParagraphsDiffer(a: string, b: string)
    requires a != b
    ensures "<p>" + a + "</p>" != "<p>" + b + "</p>"
  {
    assert ("<p>" + a + "</p>")[3..3 + |a|] == a;
    assert ("<p>" + b + "</p>")[3..3 + |b|] == b;
  }

  /** A line that opens with `[` is paragraph text. */
  lemma BracketLine(line: string)
    requires |line| > 0 && line[0] == '['
    ensures Classify(line) == TextLine
  {
    assert !StartsWith(line, "# ") by { if 2 <= |line| { assert line[..2][0] == line[0]; } }
    assert !StartsWith(line, "## ") by { if 3 <= |line| { assert line[..3][0] == line[0]; } }
    assert !StartsWith(line, "### ") by { if 4 <= |line| { assert line[..4][0] == line[0]; } }
    assert Digits(line) == 0;
    assert !IsSpace(line[0]);
  }

  /** Link syntax is paragraph text that `trim` keeps. */
  lemma LinkLine(text: string, url: string)
    ensures Classify(LinkSyntax(text, url)) == TextLine
    ensures Trim(LinkSyntax(text, url)) == LinkSyntax(text, url)
  {
    var line := LinkSyntax(text, url);
    assert line[0] == '[' && line[|line| - 1] == ')';
    BracketLine(line);
    TrimAround([], line, []);
    assert [] + line + [] == line;
  }

  /** A one-line document holding a link whose url has an underscore: as
      written, the `<em>` lands inside the anchor's start tag. */
  lemma ConvertMangles(text: string, u1: string, u2: string)
    requires LinkParts(text, u1 + "_" + u2) && Plain(text) && Plain(u1) && Plain(u2)
    requires forall k :: 0 <= k < |u2| ==> !IsLineTerminator(u2[k])
    requires '\n' !in text && '\n' !in u1
    ensures Convert(LinkSyntax(text, u1 + "_" + u2)) == "<p>" + MangledAnchor(text, u1, u2) + "</p>"
  {
    UrlNoNewline(u1, u2);
    LinkNoNewline(text, u1 + "_" + u2);
    UnderscoreUrlMangled(text, u1, u2);
    LinkLine(text, u1 + "_" + u2);
    OneLine(LinkSyntax(text, u1 + "_" + u2));
  }

  /** The corrected converter turns a one-line link document into exactly
      the anchor, whatever the url holds. */
  lemma ConvertCorrectedKeepsLink(text: string, url: string)
    requires LinkParts(text, url) && Plain(text)
    requires '\n' !in text && '\n' !in url
    ensures ConvertCorrected(LinkSyntax(text, url)) == "<p>" + (AnchorStart(url) + text + AnchorEnd) + "</p>"
  {
    FormatLink(text, url);
    LinkNoNewline(text, url);
    LinkLine(text, url);
    OneLine(LinkSyntax(text, url));
  }

  /** So the two converters part on every such document. */
  lemma ConvertersDiffer(text: string, u1: string, u2: string)
    requires LinkParts(text, u1 + "_" + u2) && Plain(text) && Plain(u1) && Plain(u2)
    requires forall k :: 0 <= k < |u2| ==> !IsLineTerminator(u2[k])
    requires '\n' !in text && '\n' !in u1
    ensures Convert(LinkSyntax(text, u1 + "_" + u2)) != ConvertCorrected(LinkSyntax(text, u1 + "_" + u2))
  {
    var line := LinkSyntax(text, u1 + "_" + u2);
    UrlNoNewline(u1, u2);
    LinkNoNewline(text, u1 + "_" + u2);
    UnderscoreUrlMangled(text, u1, u2);
    LinkLine(text, u1 + "_" + u2);
    OneLine(line);
    ParagraphsDiffer(ApplyInline(line), Format(line));
  }

  lemma LinkNoNewline(text: string, url: string)
    requires '\n' !in text && '\n' !in url
    ensures '\n' !in LinkSyntax(text, url)
  {
  }

  lemma UrlNoNewline(u1: string, u2: string)
    requires forall k :: 0 <= k < |u2| ==> !IsLineTerminator(u2[k])
    requires '\n' !in u1
    ensures '\n' !in u1 + "_" + u2
  {
  }

  /** An empty document converts to nothing. */
  lemma EmptyDocument()
    ensures Convert("") == ""
    ensures ConvertCorrected("") == ""
  {
    assert Split("", '\n') == [""];
    assert IsBlank("");
    BlankStep(Initial, "");
  }
}

=== FILE: maze.dfy ===
/** The geometric maze (content/art/geometric-maze.js): a square with a cross
    through it, and inside each of its four quarters, on a random draw, a
    smaller square drawn the same way, down to six levels. `Math.random` is
    the oracle `rand`; `pos` counts the draws made so far. The squares are
    drawn depth-first, so a quarter's own draws all come before the next
    quarter's coin. */
module Maze {
  import opened Canvas

  /** Levels of recursion the piece asks for. */
  const Depth: int := 6

  /** The most squares `depth` levels can draw: one, and four subtrees. */
  function MaxSquares(depth: int): nat
    decreases if depth <= 0 then 0 else depth
  {
    if depth <= 0 then 0 else 1 + 4 * MaxSquares(depth - 1)
  }

  /** The size a square needs for every level below it to be drawn too:
      4 pixels at the last level, 2.5 times more per level above. */
  function FullSize(depth: int): real
    decreases if depth <= 0 then 0 else depth
  {
    if depth <= 0 then 0.0 else if depth == 1 then 4.0 else 2.5 * FullSize(depth - 1)
  }

  /** Every draw lets its square through. */
  ghost predicate AllPass(rand: nat -> real) {
    forall k: nat :: rand(k) > 0.3
  }

  /** Every mark inside the box of corners (x0, y0), (x1, y1). */
  predicate AllWithin(ps: seq<Prim>, x0: real, y0: real, x1: real, y1: real) {
    forall p :: p in ps ==> Within(p, x0, y0, x1, y1)
  }

  /** A square's own three marks: its outline, then its horizontal and
      vertical centre lines. */
  function Marks(x: real, y: real, size: real): seq<Prim> {
    var h := size / 2.0;
    [StrokeRect(x - h, y - h, size, size), Segment(x - h, y, x + h, y), Segment(x, y - h, x, y + h)]
  }

  /** `drawRecursiveSquare(x, y, size, depth)`: what it draws from draw
      `pos` on, and where its draws stop. Nothing when the depth is used up
      or the square is under 4 pixels; otherwise its marks, then its four
      quarters. */
  function Tree(x: real, y: real, size: real, depth: int, rand: nat -> real, pos: nat): (r: (seq<Prim>, nat))
    decreases if depth <= 0 || size < 4.0 then 0 else depth, 2, 0
  {
    if depth <= 0 || size < 4.0 then ([], pos)
    else
      var k := Quarters(x, y, size, depth, rand, pos, 0);
      (Marks(x, y, size) + k.0, k.1)
  }

  /** The centre of quarter `k` of a square centred at (x, y), `q` being a
      quarter of its size: 0 is top-left, 1 top-right, 2 bottom-left and 3
      bottom-right, the order the squares are drawn in. */
  function QuarterX(x: real, q: real, k: nat): real {
    if k % 2 == 0 then x - q else x + q
  }

  function QuarterY(y: real, q: real, k: nat): real {
    if k < 2 then y - q else y + q
  }

  /** The quarters of a square from quarter `k` on, in drawing order: each
      one's draw and, when it passes, a square at 0.4 of the size, centred
      on the quarter, one level down. */
  function Quarters(x: real, y: real, size: real, depth: int, rand: nat -> real, pos: nat, k: nat): (r: (seq<Prim>, nat))
    decreases if depth <= 0 then 0 else depth, 1, 4 - k
  {
    if depth <= 0 || k >= 4 then ([], pos)
    else
      var q := size / 4.0;
      var a := Sub(QuarterX(x, q, k), QuarterY(y, q, k), size * 0.4, depth - 1, rand, pos);
      var rest := Quarters(x, y, size, depth, rand, a.1, k + 1);
      (a.0 + rest.0, rest.1)
  }

  /** One `if (Math.random() > 0.3) drawRecursiveSquare(...)`: a draw, then
      the quarter's square when the draw exceeds 0.3. */
  function Sub(x: real, y: real, size: real, depth: int, rand: nat -> real, pos: nat): (r: (seq<Prim>, nat))
    decreases if depth <= 0 || size < 4.0 then 0 else depth, 3, 0
  {
    if rand(pos) > 0.3 then Tree(x, y, size, depth, rand, pos + 1) else ([], pos + 1)
  }

  /** A square drawn at all starts with its outline and its horizontal and
      vertical centre lines. */
  lemma TreeMarks(x: real, y: real, size: real, depth: int, rand: nat -> real, pos: nat)
    requires depth > 0 && size >= 4.0
    ensures var t := Tree(x, y, size, depth, rand, pos).0;
      && |t| >= 3
      && t[..3] == [StrokeRect(x - size / 2.0, y - size / 2.0, size, size),
                    Segment(x - size / 2.0, y, x + size / 2.0, y), Segment(x, y - size / 2.0, x, y + size / 2.0)]
  {
    var k := Quarters(x, y, size, depth, rand, pos, 0);
    assert Tree(x, y, size, depth, rand, pos).0 == Marks(x, y, size) + k.0;
  }

  /** When the first quarter's draw passes and the quarter is large enough
      to draw, its square's marks come straight after the parent's: an
      outline at 0.4 of the size whose corner sits 0.45 of the size up and
      left of the parent's centre. */
  lemma FirstChild(x: real, y: real, size: real, depth: int, rand: nat -> real, pos: nat)
    requires depth >= 2 && size * 0.4 >= 4.0 && rand(pos) > 0.3
    ensures var t := Tree(x, y, size, depth, rand, pos).0;
      && |t| >= 6
      && t[..3] == Marks(x, y, size)
      && t[3] == StrokeRect(x - size * 0.45, y - size * 0.45, size * 0.4, size * 0.4)
      && t[3..6] == Marks(x - size / 4.0, y - size / 4.0, size * 0.4)
  {
    var q, s := size / 4.0, size * 0.4;
    var a := Sub(x - q, y - q, s, depth - 1, rand, pos);
    assert a == Tree(x - q, y - q, s, depth - 1, rand, pos + 1);
    TreeMarks(x - q, y - q, s, depth - 1, rand, pos + 1);
    var k := Quarters(x, y, size, depth, rand, pos, 0);
    assert k.0 == a.0 + Quarters(x, y, size, depth, rand, a.1, 1).0;
    var t := Tree(x, y, size, depth, rand, pos).0;
    assert t == Marks(x, y, size) + k.0;
    assert t[3..6] == a.0[..3];
  }

  /** Every square costs three marks and four draws, and there are at most
      `MaxSquares(depth)` of them. */
  lemma {:induction false} TreeCount(x: real, y: real, size: real, depth: int, rand: nat -> real, pos: nat)
    ensures var t := Tree(x, y, size, depth, rand, pos);
      pos <= t.1 && 4 * |t.0| == 3 * (t.1 - pos) && |t.0| <= 3 * MaxSquares(depth)
    decreases if depth <= 0 then 0 else depth, 2, 0
  {
    if depth > 0 && size >= 4.0 {
      QuartersCount(x, y, size, depth, rand, pos, 0);
      assert MaxSquares(depth) == 1 + 4 * MaxSquares(depth - 1);
    }
  }

  /** The quarters from `k` on cost one draw each, then three marks and
      four draws per square under them, with at most `MaxSquares(depth - 1)`
      squares under each. */
  lemma {:induction false} QuartersCount(x: real, y: real, size: real, depth: int, rand: nat -> real, pos: nat, k: nat)
    requires depth > 0 && k <= 4
    ensures var t := Quarters(x, y, size, depth, rand, pos, k);
      && pos + (4 - k) <= t.1
      && 4 * |t.0| == 3 * (t.1 - pos - (4 - k))
      && |t.0| <= 3 * (4 - k) * MaxSquares(depth - 1)
    decreases depth, 1, 4 - k
  {
    if k < 4 {
      var q := size / 4.0;
      var a := Sub(QuarterX(x, q, k), QuarterY(y, q, k), size * 0.4, depth - 1, rand, pos);
      SubCount(QuarterX(x, q, k), QuarterY(y, q, k), size * 0.4, depth - 1, rand, pos);
      QuartersCount(x, y, size, depth, rand, a.1, k + 1);
      OneMoreQuarter(k, MaxSquares(depth - 1));
    }
  }

  /** A quarter costs its own draw, then what its square costs. */
  lemma {:induction false} SubCount(x: real, y: real, size: real, depth: int, rand: nat -> real, pos: nat)
    ensures var t := Sub(x, y, size, depth, rand, pos);
      pos < t.1 && 4 * |t.0| == 3 * (t.1 - pos - 1) && |t.0| <= 3 * MaxSquares(depth)
    decreases if depth <= 0 then 0 else depth, 3, 0
  {
    if rand(pos) > 0.3 {
      TreeCount(x, y, size, depth, rand, pos + 1);
    }
  }

  /** Every mark lies inside the square. */
  lemma {:induction false} TreeWithin(x: real, y: real, size: real, depth: int, rand: nat -> real, pos: nat)
    ensures AllWithin(Tree(x, y, size, depth, rand, pos).0, x - size / 2.0, y - size / 2.0, x + size / 2.0, y + size / 2.0)
    decreases if depth <= 0 then 0 else depth, 2, 0
  {
    if depth > 0 && size >= 4.0 {
      QuartersWithin(x, y, size, depth, rand, pos, 0);
      var k := Quarters(x, y, size, depth, rand, pos, 0);
      assert Tree(x, y, size, depth, rand, pos).0 == Marks(x, y, size) + k.0;
    }
  }

  /** Each quarter's square, 0.4 of the size wide and centred a quarter of
      the size from the centre, lies inside the square. */
  lemma {:induction false} QuartersWithin(x: real, y: real, size: real, depth: int, rand: nat -> real, pos: nat, k: nat)
    requires size >= 0.0
    ensures AllWithin(Quarters(x, y, size, depth, rand, pos, k).0, x - size / 2.0, y - size / 2.0, x + size / 2.0, y + size / 2.0)
    decreases if depth <= 0 then 0 else depth, 1, 4 - k
  {
    if depth > 0 && k < 4 {
      var q, s, h := size / 4.0, size * 0.4, size / 2.0;
      var cx, cy := QuarterX(x, q, k), QuarterY(y, q, k);
      var a := Sub(cx, cy, s, depth - 1, rand, pos);
      SubWithin(cx, cy, s, depth - 1, rand, pos);
      WidenAll(a.0, cx - s / 2.0, cy - s / 2.0, cx + s / 2.0, cy + s / 2.0, x - h, y - h, x + h, y + h);
      QuartersWithin(x, y, size, depth, rand, a.1, k + 1);
    }
  }

  lemma {:induction false} SubWithin(x: real, y: real, size: real, depth: int, rand: nat -> real, pos: nat)
    ensures AllWithin(Sub(x, y, size, depth, rand, pos).0, x - size / 2.0, y - size / 2.0, x + size / 2.0, y + size / 2.0)
    decreases if depth <= 0 then 0 else depth, 3, 0
  {
    if rand(pos) > 0.3 {
      TreeWithin(x, y, size, depth, rand, pos + 1);
    }
  }

  /** When every draw passes and the square is large enough, all
      `MaxSquares(depth)` squares are drawn. */
  lemma {:induction false} TreeFull(x: real, y: real, size: real, depth: int, rand: nat -> real, pos: nat)
    requires AllPass(rand) && size >= FullSize(depth)
    ensures |Tree(x, y, size, depth, rand, pos).0| == 3 * MaxSquares(depth)
    decreases if depth <= 0 then 0 else depth, 2, 0
  {
    if depth > 0 {
      FullSizeAtLeast(depth);
      QuarterFull(size, depth);
      QuartersFull(x, y, size, depth, rand, pos, 0);
      assert MaxSquares(depth) == 1 + 4 * MaxSquares(depth - 1);
    }
  }

  /** When every draw passes and the quarters are large enough, each
      quarter from `k` on draws all `MaxSquares(depth - 1)` squares. */
  lemma {:induction false} QuartersFull(x: real, y: real, size: real, depth: int, rand: nat -> real, pos: nat, k: nat)
    requires AllPass(rand) && depth > 0 && k <= 4 && size * 0.4 >= FullSize(depth - 1)
    ensures |Quarters(x, y, size, depth, rand, pos, k).0| == 3 * (4 - k) * MaxSquares(depth - 1)
    decreases depth, 1, 4 - k
  {
    if k < 4 {
      var q := size / 4.0;
      var cx, cy := QuarterX(x, q, k), QuarterY(y, q, k);
      var a := Sub(cx, cy, size * 0.4, depth - 1, rand, pos);
      assert rand(pos) > 0.3;
      TreeFull(cx, cy, size * 0.4, depth - 1, rand, pos + 1);
      var rest := Quarters(x, y, size, depth, rand, a.1, k + 1);
      QuartersFull(x, y, size, depth, rand, a.1, k + 1);
      assert Quarters(x, y, size, depth, rand, pos, k).0 == a.0 + rest.0;
      SharesAdd(k, MaxSquares(depth - 1), |a.0|, |rest.0|);
    }
  }

  /** A full quarter and the full quarters after it fill the quarters from `k` on. */
  lemma SharesAdd(k: nat, m: nat, a: nat, r: nat)
    requires k < 4 && a == 3 * m && r == 3 * (4 - (k + 1)) * m
    ensures a + r == 3 * (4 - k) * m
  {
  }

  /** Quarters from `k` on hold one quarter's share more than those after. */
  lemma OneMoreQuarter(k: nat, m: nat)
    requires k < 4
    ensures 3 * (4 - k) * m == 3 * m + 3 * (4 - (k + 1)) * m
  {
  }

  /** A square large enough for every level has quarters large enough for
      every level below. */
  lemma QuarterFull(size: real, depth: int)
    requires depth > 0
    ensures size >= FullSize(depth) ==> size * 0.4 >= FullSize(depth - 1)
  {
    if size >= FullSize(depth) {
      assert size * 0.4 >= FullSize(depth) * 0.4;
      if depth > 1 {
        assert FullSize(depth) == 2.5 * FullSize(depth - 1);
      }
    }
  }

  /** A mark inside a box is inside any box around it. */
  lemma WidenAll(ps: seq<Prim>, ax0: real, ay0: real, ax1: real, ay1: real, bx0: real, by0: real, bx1: real, by1: real)
    requires AllWithin(ps, ax0, ay0, ax1, ay1)
    requires bx0 <= ax0 && by0 <= ay0 && ax1 <= bx1 && ay1 <= by1
    ensures AllWithin(ps, bx0, by0, bx1, by1)
  {
  }

  /** The shorter side of the canvas. */
  function Side(width: real, height: real): (m: real)
    ensures m <= width && m <= height && (m == width || m == height)
  {
    if width <= height then width else height
  }

  /** `render`: a white background over the whole canvas, then the maze
      from the first draw on, centred at (`cx`, `cy`) in the middle of the
      canvas, its top square `top` wide at 0.8 of the shorter side, six
      levels deep. The top square is drawn first when it is at least 4
      pixels. The picture is the background and at most 1365 squares of
      three marks each, all of them on the canvas. */
  method Render(width: real, height: real, rand: nat -> real) returns (r: seq<Prim>, cx: real, cy: real, top: real)
    requires 0.0 <= width && 0.0 <= height
    ensures cx == width / 2.0 && cy == height / 2.0 && top == Side(width, height) * 0.8
    ensures |r| >= 1 && r[0] == FillRect(0.0, 0.0, width, height)
    ensures r[1..] == Tree(cx, cy, top, Depth, rand, 0).0
    ensures top >= 4.0 ==> |r| >= 4 && r[1..4] == Marks(cx, cy, top)
    ensures |r| - 1 <= 3 * 1365
    ensures AllWithin(r[1..], 0.0, 0.0, width, height)
  {
    cx, cy, top := width / 2.0, height / 2.0, Side(width, height) * 0.8;
    var maze := Tree(cx, cy, top, Depth, rand, 0).0;
    TreeCount(cx, cy, top, Depth, rand, 0);
    TreeWithin(cx, cy, top, Depth, rand, 0);
    if top >= 4.0 {
      TreeMarks(cx, cy, top, Depth, rand, 0);
    }
    SixLevels();
    WidenAll(maze, cx - top / 2.0, cy - top / 2.0, cx + top / 2.0, cy + top / 2.0, 0.0, 0.0, width, height);
    r := [FillRect(0.0, 0.0, width, height)] + maze;
    assert r[1..] == maze;
    assert top >= 4.0 ==> r[1..4] == maze[..3];
  }

  lemma {:induction false} FullSizeAtLeast(depth: int)
    requires depth >= 1
    ensures FullSize(depth) >= 4.0
    decreases depth
  {
    if depth > 1 {
      FullSizeAtLeast(depth - 1);
    }
  }

  lemma SixLevels()
    ensures MaxSquares(Depth) == 1365
  {
    assert MaxSquares(1) == 1;
    assert MaxSquares(2) == 5;
    assert MaxSquares(3) == 21;
    assert MaxSquares(4) == 85;
    assert MaxSquares(5) == 341;
  }
}

=== FILE: nicu.dfy ===
/** The NICU parent guide's page script (public/content/projects/NICU/script.js):
    eight sections shown one at a time, previous/next buttons that hide at
    either end, and accordions that open and close a condition's text.

    The document is a parameter (`Page`): which element ids exist, which of
    them are `.content-section` elements, which sections have a nav button,
    and which condition headers exist and hold a toggle icon. The script
    reaches elements through `getElementById`/`querySelector` and then uses
    them without a null check, so on a page that lacks one the handler
    throws part-way; `Outcome.threw` records that, and the state keeps every
    change made before the throw, as the browser does. */
module Nicu {
  import opened Wrappers

  const Sections: seq<string> :=
    ["welcome", "first24", "understanding", "advocacy", "feeding", "selfcare", "discharge", "stories"]

  /** The closed icon. */
  const Plus: string := "+"

  /** The open icon as the file spells it: the three characters `âˆ’`, the
      UTF-8 bytes of U+2212 (minus sign) read back as Windows-1252. */
  const Minus: string := "\U{00E2}\U{02C6}\U{2019}"

  datatype Page = Page(
    ids: set<string>,          // every element id in the document
    sectionIds: set<string>,   // ids of the `.content-section` elements
    navSections: set<string>,  // `data-section` values of the `.nav-button`s
    headers: set<string>,      // `data-condition` values of the `.condition-header`s
    icons: set<string>,        // headers that contain a `.toggle-icon`
    hasHeader: bool)           // whether the document has a `<header>`

  /** Everything the script changes: the section index, the elements and nav
      buttons carrying class `active`, the visibility of the two buttons, and
      the text of each accordion's icon. */
  datatype Guide = Guide(
    index: int,
    active: set<string>,
    activeNav: set<string>,
    prevVisible: bool,
    nextVisible: bool,
    iconText: map<string, string>)

  datatype Outcome = Outcome(g: Guide, threw: bool)

  /** `sections.indexOf(id)`: the first position of `id`, or -1. */
  function IndexIn(s: seq<string>, id: string): (i: int)
    ensures -1 <= i < |s|
    ensures i >= 0 ==> s[i] == id && forall k :: 0 <= k < i ==> s[k] != id
    ensures i == -1 <==> id !in s
  {
    if |s| == 0 then -1
    else if s[0] == id then 0
    else
      var r := IndexIn(s[1..], id);
      if r == -1 then -1 else r + 1
  }

  /** `currentSectionIndex` takes only the values `indexOf` can give. */
  predicate InRange(g: Guide) {
    -1 <= g.index < |Sections|
  }

  /** `updateNavigationButtons`. */
  function UpdateButtons(g: Guide): (r: Guide)
    ensures r.index == g.index && r.active == g.active && r.activeNav == g.activeNav
    ensures r.iconText == g.iconText
    ensures !r.prevVisible <==> g.index == 0
    ensures !r.nextVisible <==> g.index == |Sections| - 1
  {
    g.(prevVisible := g.index != 0, nextVisible := g.index != |Sections| - 1)
  }

  /** The state right after the page loads; which elements and nav buttons
      carry `active` and what the icons say come from the markup, and the
      load handler changes none of them. */
  function Load(active: set<string>, activeNav: set<string>, iconText: map<string, string>): (g: Guide)
    ensures g.index == 0 && !g.prevVisible && g.nextVisible
    ensures g.active == active && g.activeNav == activeNav && g.iconText == iconText
  {
    UpdateButtons(Guide(0, active, activeNav, true, true, iconText))
  }

  /** `showSection(id)`: clears `active` from every content section and nav
      button, marks the element with that id and its nav button, records
      the section's index and updates the buttons. A missing element or nav
      button throws before the index is written; a page without `<header>`
      throws at the final scroll, after every change. */
  function Show(page: Page, g: Guide, id: string): Outcome {
    var cleared := g.(active := g.active - page.sectionIds, activeNav := {});
    if id !in page.ids then Outcome(cleared, true)
    else
      var marked := cleared.(active := cleared.active + {id});
      if id !in page.navSections then Outcome(marked, true)
      else Outcome(UpdateButtons(marked.(activeNav := {id}, index := IndexIn(Sections, id))), !page.hasHeader)
  }

  /** `goToPreviousSection`: steps back unless already at the start. */
  function Prev(page: Page, g: Guide): Outcome
    requires InRange(g)
  {
    if g.index > 0 then Show(page, g.(index := g.index - 1), Sections[g.index - 1])
    else Outcome(g, false)
  }

  /** `goToNextSection`: steps on unless already at the last section. */
  function Next(page: Page, g: Guide): Outcome
    requires InRange(g)
  {
    if g.index < |Sections| - 1 then Show(page, g.(index := g.index + 1), Sections[g.index + 1])
    else Outcome(g, false)
  }

  /** `toggleConditionContent(cid)`: flips `active` on `<cid>-content` and
      sets the icon to the minus sign when it opens and `+` when it closes.
      A missing header or content throws before any change; a header
      without an icon throws after the class has been flipped. */
  function Toggle(page: Page, g: Guide, cid: string): Outcome {
    var content := cid + "-content";
    if cid !in page.headers || content !in page.ids then Outcome(g, true)
    else
      var opening := content !in g.active;
      var flipped := g.(active := if opening then g.active + {content} else g.active - {content});
      if cid !in page.icons then Outcome(flipped, true)
      else Outcome(flipped.(iconText := flipped.iconText[cid := if opening then Minus else Plus]), false)
  }

  // ---------------------------------------------------------------------
  // The eight sections

  lemma SectionsDistinct()
    ensures forall i, j :: 0 <= i < j < |Sections| ==> Sections[i] != Sections[j]
  {
    var s := Sections;
    assert s[0][0] == 'w' && s[1][0] == 'f' && s[2][0] == 'u' && s[3][0] == 'a';
    assert s[4][0] == 'f' && s[5][0] == 's' && s[6][0] == 'd' && s[7][0] == 's';
    assert s[1][1] == 'i' && s[4][1] == 'e' && s[5][1] == 'e' && s[7][1] == 't';
  }

  /** Each section's name finds its own position. */
  lemma IndexOfSection(i: nat)
    requires i < |Sections|
    ensures IndexIn(Sections, Sections[i]) == i
  {
    SectionsDistinct();
  }

  /** A page with a header and every section, its element and its nav button. */
  predicate Complete(page: Page) {
    && page.hasHeader
    && forall i :: 0 <= i < |Sections| ==>
      Sections[i] in page.ids && Sections[i] in page.sectionIds && Sections[i] in page.navSections
  }

  /** On a complete page, showing section `i` selects it: the index becomes
      `i`, it is the only content section and the only nav button marked
      active, and the buttons hide exactly at the two ends. */
  lemma ShowSelects(page: Page, g: Guide, i: nat)
    requires Complete(page) && i < |Sections|
    ensures var o := Show(page, g, Sections[i]);
      && !o.threw
      && o.g.index == i
      && o.g.active * page.sectionIds == {Sections[i]}
      && o.g.activeNav == {Sections[i]}
      && (!o.g.prevVisible <==> i == 0)
      && (!o.g.nextVisible <==> i == |Sections| - 1)
      && o.g.iconText == g.iconText
  {
    IndexOfSection(i);
  }

  // ---------------------------------------------------------------------
  // Previous and next

  /** At the first section (or before any), previous does nothing. */
  lemma PrevAtStart(page: Page, g: Guide)
    requires InRange(g) && g.index <= 0
    ensures Prev(page, g) == Outcome(g, false)
  {
  }

  /** At the last section, next does nothing. */
  lemma NextAtEnd(page: Page, g: Guide)
    requires InRange(g) && g.index == |Sections| - 1
    ensures Next(page, g) == Outcome(g, false)
  {
  }

  /** Showing a section throws exactly when its element, its nav button or
      the page header is missing. The index becomes the section's position
      once both lookups succeed, even when the scroll then throws, and is
      left alone otherwise. */
  lemma ShowIndex(page: Page, g: Guide, id: string)
    ensures var o := Show(page, g, id);
      && (o.threw <==> id !in page.ids || id !in page.navSections || !page.hasHeader)
      && o.g.index == if id in page.ids && id in page.navSections then IndexIn(Sections, id) else g.index
  {
  }

  /** Away from the start, previous moves back exactly one section, even on
      a page where showing it then throws. */
  lemma PrevStepsBack(page: Page, g: Guide)
    requires InRange(g) && g.index > 0
    ensures Prev(page, g).g.index == g.index - 1
  {
    var i := g.index - 1;
    IndexOfSection(i);
    ShowIndex(page, g.(index := i), Sections[i]);
  }

  /** Before the end, next moves on exactly one section. */
  lemma NextStepsOn(page: Page, g: Guide)
    requires InRange(g) && g.index < |Sections| - 1
    ensures Next(page, g).g.index == g.index + 1
  {
    var i := g.index + 1;
    IndexOfSection(i);
    ShowIndex(page, g.(index := i), Sections[i]);
  }

  // ---------------------------------------------------------------------
  // Any sequence of clicks

  datatype Event = PrevClick | NextClick | NavClick(section: string) | HeaderClick(condition: string)

  /** Event handlers run one after another; a handler that throws leaves its
      partial changes and the page keeps handling clicks. */
  function Handle(page: Page, g: Guide, e: Event): (o: Outcome)
    requires InRange(g)
    ensures InRange(o.g)
  {
    match e
    case PrevClick => Prev(page, g)
    case NextClick => Next(page, g)
    case NavClick(id) => Show(page, g, id)
    case HeaderClick(cid) => Toggle(page, g, cid)
  }

  function Replay(page: Page, g: Guide, es: seq<Event>): (r: Guide)
    requires InRange(g)
    ensures InRange(r)
    decreases |es|
  {
    if |es| == 0 then g else Replay(page, Handle(page, g, es[0]).g, es[1..])
  }

  /** Only nav targets among the eight sections. */
  predicate KnownTargets(es: seq<Event>) {
    forall k :: 0 <= k < |es| ==> es[k].NavClick? ==> es[k].section in Sections
  }

  /** From the first section, any clicks whose nav targets are among the
      eight sections keep the index within 0..7. */
  lemma {:induction false} IndexStaysInSections(page: Page, g: Guide, es: seq<Event>)
    requires 0 <= g.index < |Sections|
    requires KnownTargets(es)
    ensures 0 <= Replay(page, g, es).index < |Sections|
    decreases |es|
  {
    if |es| > 0 {
      var o := Handle(page, g, es[0]);
      assert 0 <= o.g.index by {
        match es[0]
        case PrevClick =>
          if g.index > 0 { PrevStepsBack(page, g); }
        case NextClick =>
          if g.index < |Sections| - 1 { NextStepsOn(page, g); }
        case NavClick(id) =>
          var i :| 0 <= i < |Sections| && Sections[i] == id;
          IndexOfSection(i);
        case HeaderClick(_) =>
      }
      assert KnownTargets(es[1..]) by {
        forall k | 0 <= k < |es[1..]| ensures es[1..][k].NavClick? ==> es[1..][k].section in Sections {
          assert es[1..][k] == es[k + 1];
        }
      }
      IndexStaysInSections(page, o.g, es[1..]);
    }
  }

  // ---------------------------------------------------------------------
  // Accordions

  /** A condition whose header, icon and content all exist. */
  predicate Accordion(page: Page, cid: string) {
    cid in page.headers && cid in page.icons && cid + "-content" in page.ids
  }

  /** A toggle flips whether the content is open and shows `+` exactly when
      it ends up closed; nothing else changes. */
  lemma ToggleFlips(page: Page, g: Guide, cid: string)
    requires Accordion(page, cid)
    ensures var o := Toggle(page, g, cid);
      && !o.threw
      && (cid + "-content" in o.g.active <==> cid + "-content" !in g.active)
      && cid in o.g.iconText
      && (o.g.iconText[cid] == Plus <==> cid + "-content" !in o.g.active)
      && o.g.active - {cid + "-content"} == g.active - {cid + "-content"}
      && o.g.index == g.index && o.g.activeNav == g.activeNav
  {
    assert Plus != Minus by { assert |Plus| != |Minus|; }
  }

  /** Two toggles of one accordion restore which elements are active. */
  lemma ToggleTwice(page: Page, g: Guide, cid: string)
    requires Accordion(page, cid)
    ensures Toggle(page, Toggle(page, g, cid).g, cid).g.active == g.active
  {
  }
}

=== FILE: site.dfy ===
/** The small pieces of page logic in index.tsx: the sidebar's projects
    expander, the URL a project card links to, the id of an art piece's
    canvas, and the newest-first order of the blog summaries. */
module Site {
  import opened Wrappers
  import opened Text

  // ---------------------------------------------------------------------
  // Projects expander (setupProjectsToggle)

  /** The three things a click writes: the button's `aria-expanded`
      attribute (None when absent), the submenu's `hidden` flag and the
      expander icon's text. */
  datatype Expander = Expander(ariaExpanded: Option<string>, hidden: bool, icon: string)

  const Down: string := "▼"
  const Up: string := "▲"

  /** The click handler: the attribute is read as expanded only when it is
      exactly "true"; it is then written as the negation, the submenu is
      hidden exactly when it was expanded, and the icon points down when
      collapsing and up when expanding. */
  function Click(e: Expander): (r: Expander)
    ensures Consistent(r)
    ensures r.ariaExpanded == Some("true") <==> e.ariaExpanded != Some("true")
    ensures r.hidden <==> e.ariaExpanded == Some("true")
  {
    var wasExpanded := e.ariaExpanded == Some("true");
    Expander(Some(if wasExpanded then "false" else "true"), wasExpanded, if wasExpanded then Down else Up)
  }

  /** The attribute says "true" or "false", the submenu is shown exactly when
      it says "true", and the icon agrees with the submenu. */
  predicate Consistent(e: Expander) {
    && (e.ariaExpanded == Some("true") || e.ariaExpanded == Some("false"))
    && (e.hidden <==> e.ariaExpanded == Some("false"))
    && e.icon == (if e.hidden then Down else Up)
  }

  /** Two clicks give back exactly the state they started from when, and
      only when, that state was consistent; a page whose markup starts
      inconsistent becomes consistent after the first click. */
  lemma ClickTwice(e: Expander)
    ensures Click(Click(e)) == e <==> Consistent(e)
  {
    assert Down != Up by { assert Down[0] != Up[0]; }
    assert "true" != "false";
    if Click(Click(e)) == e {
      assert Consistent(Click(Click(e)));
    }
  }

  // ---------------------------------------------------------------------
  // Project card URL and art canvas id

  /** `content/projects/<folder>/<entry point or index.html>`; an empty entry
      point falls back like a missing one, as `||` does. */
  function ProjectUrl(folderName: string, entryPoint: Option<string>): string {
    var entry := if entryPoint == None || entryPoint == Some("") then "index.html" else entryPoint.value;
    "content/projects/" + folderName + "/" + entry
  }

  /** With no `/` in the folder or entry names, the URL splits back into its
      four path segments, and the last is the entry point or `index.html`. */
  lemma ProjectUrlSegments(folderName: string, entryPoint: Option<string>)
    requires '/' !in folderName
    requires entryPoint.Some? ==> '/' !in entryPoint.value
    ensures var entry := if entryPoint.None? || entryPoint.value == [] then "index.html" else entryPoint.value;
      Split(ProjectUrl(folderName, entryPoint), '/') == ["content", "projects", folderName, entry]
  {
    var entry := if entryPoint.None? || entryPoint.value == [] then "index.html" else entryPoint.value;
    assert '/' !in entry;
    var parts := ["content", "projects", folderName, entry];
    UrlJoin(folderName, entry);
    assert ProjectUrl(folderName, entryPoint) == "content/projects/" + folderName + "/" + entry;
    assert forall k :: 0 <= k < |parts| ==> '/' !in parts[k];
    SplitJoin(parts, '/');
  }

  /** The URL is its four segments joined with `/`. */
  lemma UrlJoin(folderName: string, entry: string)
    ensures Join(["content", "projects", folderName, entry], "/") == "content/projects/" + folderName + "/" + entry
  {
    var parts := ["content", "projects", folderName, entry];
    assert parts[1..] == ["projects", folderName, entry];
    assert parts[1..][1..] == [folderName, entry];
    assert parts[1..][1..][1..] == [entry];
    assert Join([entry], "/") == entry;
    assert Join([folderName, entry], "/") == folderName + "/" + entry;
    assert Join(parts[1..], "/") == "projects" + "/" + (folderName + "/" + entry);
  }

  /** `canvas-` followed by the file name with its first `.js` removed. */
  function CanvasId(fileName: string): string {
    "canvas-" + ReplaceFirst(fileName, ".js", "")
  }

  /** For a name `b.js` in which `.js` occurs only at the end, the id is
      `canvas-b`. */
  lemma CanvasIdOfScript(b: string)
    requires forall i :: 0 <= i < |b| ==> !OccursAt(b + ".js", ".js", i)
    ensures CanvasId(b + ".js") == "canvas-" + b
  {
    ReplaceFirstSuffix(b, ".js", "");
    assert b + ".js" + "" == b + ".js";
    assert b + "" == b;
  }

  /** A name without `.js` is kept whole. */
  lemma CanvasIdNoScript(fileName: string)
    requires forall i :: 0 <= i ==> !OccursAt(fileName, ".js", i)
    ensures CanvasId(fileName) == "canvas-" + fileName
  {
  }

  // ---------------------------------------------------------------------
  // Blog order (loadBlogSummaries)

  datatype Post = Post(fileName: string, title: string, date: string, snippet: string)

  /** `posts.sort((a, b) => date(b) - date(a))`: newest first. Dates are
      `YYYY-MM-DD` strings, whose character order is their calendar order.
      `Array.prototype.sort` is stable, so posts of the same date keep their
      manifest order; inserting each post ahead of every post not newer than
      it, into the already sorted rest, does the same. */
  function SortNewest(posts: seq<Post>): (r: seq<Post>)
    ensures |r| == |posts|
    ensures multiset(r) == multiset(posts)
    ensures Newest(r)
  {
    if |posts| == 0 then []
    else
      var rest := SortNewest(posts[1..]);
      InsertSorted(posts[0], rest);
      assert posts == [posts[0]] + posts[1..];
      Insert(posts[0], rest)
  }

  /** Every post is at least as recent as every later one. */
  predicate Newest(s: seq<Post>) {
    forall i, j :: 0 <= i < j < |s| ==> StrLeq(s[j].date, s[i].date)
  }

  /** Places `x` before the first post whose date is not after its own. */
  function Insert(x: Post, s: seq<Post>): seq<Post> {
    if |s| == 0 then [x]
    else if StrLeq(s[0].date, x.date) then [x] + s
    else [s[0]] + Insert(x, s[1..])
  }

  lemma {:induction false} InsertPerm(x: Post, s: seq<Post>)
    ensures multiset(Insert(x, s)) == multiset([x] + s)
    ensures |Insert(x, s)| == |s| + 1
  {
    if |s| > 0 && !StrLeq(s[0].date, x.date) {
      InsertPerm(x, s[1..]);
      assert s == [s[0]] + s[1..];
    }
  }

  lemma InsertElems(x: Post, s: seq<Post>)
    ensures forall k :: 0 <= k < |Insert(x, s)| ==> Insert(x, s)[k] == x || Insert(x, s)[k] in s
  {
    InsertPerm(x, s);
    forall k | 0 <= k < |Insert(x, s)| ensures Insert(x, s)[k] == x || Insert(x, s)[k] in s {
      var y := Insert(x, s)[k];
      assert y in multiset(Insert(x, s));
      assert y in multiset([x] + s);
    }
  }

  lemma {:induction false} InsertSorted(x: Post, s: seq<Post>)
    requires Newest(s)
    ensures multiset(Insert(x, s)) == multiset([x] + s)
    ensures |Insert(x, s)| == |s| + 1
    ensures Newest(Insert(x, s))
    decreases |s|
  {
    InsertPerm(x, s);
    if |s| == 0 {
    } else if StrLeq(s[0].date, x.date) {
      forall k | 0 <= k < |s| ensures StrLeq(s[k].date, x.date) {
        if k > 0 {
          StrLeqTrans(s[k].date, s[0].date, x.date);
        }
      }
      NewestCons(x, s);
    } else {
      var t := s[1..];
      NewestTail(s);
      InsertSorted(x, t);
      InsertElems(x, t);
      StrLeqTotal(s[0].date, x.date);
      assert forall k :: 0 <= k < |t| ==> StrLeq(t[k].date, s[0].date) by {
        assert forall k :: 0 <= k < |t| ==> t[k] == s[k + 1];
      }
      NewestCons(s[0], Insert(x, t));
    }
  }

  lemma NewestTail(s: seq<Post>)
    requires Newest(s) && |s| > 0
    ensures Newest(s[1..])
  {
    forall i, j | 0 <= i < j < |s[1..]| ensures StrLeq(s[1..][j].date, s[1..][i].date) {
      assert s[1..][i] == s[i + 1] && s[1..][j] == s[j + 1];
    }
  }

  /** A post not older than every post of a newest-first list may go first. */
  lemma NewestCons(x: Post, s: seq<Post>)
    requires Newest(s)
    requires forall k :: 0 <= k < |s| ==> StrLeq(s[k].date, x.date)
    ensures Newest([x] + s)
  {
    var r := [x] + s;
    forall i, j | 0 <= i < j < |r| ensures StrLeq(r[j].date, r[i].date) {
      assert r[j] == s[j - 1];
      if i > 0 {
        assert r[i] == s[i - 1];
      }
    }
  }

  /** The posts of one date, in order. */
  function OfDate(s: seq<Post>, d: string): (r: seq<Post>)
    ensures forall k :: 0 <= k < |r| ==> r[k].date == d
  {
    if |s| == 0 then []
    else (if s[0].date == d then [s[0]] else []) + OfDate(s[1..], d)
  }

  lemma {:induction false} InsertOfDate(x: Post, s: seq<Post>, d: string)
    ensures OfDate(Insert(x, s), d) == (if x.date == d then [x] else []) + OfDate(s, d)
  {
    if |s| == 0 || StrLeq(s[0].date, x.date) {
      assert Insert(x, s) == [x] + s;
      OfDateCons(x, s, d);
    } else {
      // s[0] is strictly newer than x, so it cannot share x's date.
      StrLeqRefl(x.date);
      assert s[0].date != x.date;
      assert Insert(x, s) == [s[0]] + Insert(x, s[1..]);
      InsertOfDate(x, s[1..], d);
      OfDateCons(s[0], Insert(x, s[1..]), d);
      OfDateCons(s[0], s[1..], d);
      assert s == [s[0]] + s[1..];
    }
  }

  lemma OfDateCons(y: Post, t: seq<Post>, d: string)
    ensures OfDate([y] + t, d) == (if y.date == d then [y] else []) + OfDate(t, d)
  {
    assert ([y] + t)[1..] == t;
  }

  lemma {:induction false} StrLeqRefl(a: string)
    ensures StrLeq(a, a)
  {
    if |a| > 0 {
      StrLeqRefl(a[1..]);
    }
  }

  /** The sort is stable: the posts of any one date come out in the order
      the manifest lists them. */
  lemma {:induction false} SortStable(posts: seq<Post>, d: string)
    ensures OfDate(SortNewest(posts), d) == OfDate(posts, d)
  {
    if |posts| > 0 {
      SortStable(posts[1..], d);
      InsertOfDate(posts[0], SortNewest(posts[1..]), d);
    }
  }
}

=== FILE: speedmaster.dfy ===
/** The Omega Speedmaster art piece (content/art/omega-speedmaster.js): one
    frame of the watch face, drawn about the canvas centre. Every angle is
    kept divided by π, so a `turn` of 2 is a full circle and the angles stay
    exact; the source computes them in floating point. The clock reading is
    a parameter in place of `new Date()`. */
module Speedmaster {
  import opened Canvas

  /** The fields `drawTime` reads from the current date. */
  datatype Clock = Clock(hours: nat, minutes: nat, seconds: nat, millis: nat)

  /** The ranges `Date` gives its fields. */
  predicate Valid(c: Clock) {
    c.hours < 24 && c.minutes < 60 && c.seconds < 60 && c.millis < 1000
  }

  // ---------------------------------------------------------------------
  // The hands' angles (drawTime)

  /** Hour hand: the hour reduced modulo 12, then an hour is π/6, a minute
      π/360 and a second π/21600. A valid reading gives an angle in [0, 2). */
  function HourTurn(c: Clock): (t: real)
    ensures Valid(c) ==> 0.0 <= t < 2.0
  {
    DialSecondsBound(c);
    HourTurnSeconds(c);
    (c.hours % 12) as real / 6.0 + c.minutes as real / 360.0 + c.seconds as real / 21600.0
  }

  /** Minute hand: a minute is π/30 and a second π/1800. */
  function MinuteTurn(c: Clock): (t: real)
    ensures Valid(c) ==> 0.0 <= t < 2.0
  {
    c.minutes as real / 30.0 + c.seconds as real / 1800.0
  }

  /** The seconds subdial's hand: seconds and milliseconds, a second being
      π/30. */
  function SecondTurn(c: Clock): (t: real)
    ensures Valid(c) ==> 0.0 <= t < 2.0
  {
    (c.seconds as real + c.millis as real / 1000.0) / 30.0
  }

  /** The simulated chronograph hand: the seconds modulo 30, a second being
      π/15. */
  function ChronoTurn(c: Clock): (t: real)
    ensures 0.0 <= t < 2.0
  {
    (c.seconds % 30) as real / 15.0
  }

  /** Seconds since the last twelve o'clock, as the hour hand reads them. */
  function DialSeconds(c: Clock): nat {
    ((c.hours % 12) * 60 + c.minutes) * 60 + c.seconds
  }

  lemma DialSecondsBound(c: Clock)
    ensures Valid(c) ==> DialSeconds(c) < 43200
  {
  }

  /** The hour hand turns once per 43200 seconds: its angle is the dial
      seconds over 21600. */
  lemma HourTurnSeconds(c: Clock)
    ensures (c.hours % 12) as real / 6.0 + c.minutes as real / 360.0 + c.seconds as real / 21600.0
      == DialSeconds(c) as real / 21600.0
  {
  }

  /** The hour hand moves a twelfth as fast as the minute hand. */
  lemma HourFollowsMinute(c: Clock)
    ensures HourTurn(c) == (c.hours % 12) as real / 6.0 + MinuteTurn(c) / 12.0
  {
  }

  /** The minute hand advances by a sixtieth of what the seconds subdial's
      hand does, on top of the whole minutes. */
  lemma MinuteFollowsSecond(c: Clock)
    requires c.millis == 0
    ensures MinuteTurn(c) == c.minutes as real / 30.0 + SecondTurn(c) / 60.0
  {
  }

  /** The hour is reduced modulo 12: twelve hours later the hand is in the
      same place. */
  lemma HourModTwelve(c: Clock)
    ensures HourTurn(c.(hours := c.hours + 12)) == HourTurn(c)
  {
    assert (c.hours + 12) % 12 == c.hours % 12;
  }

  /** The chronograph hand repeats every 30 seconds. */
  lemma ChronoPeriod(c: Clock)
    ensures ChronoTurn(c.(seconds := c.seconds + 30)) == ChronoTurn(c)
  {
    assert (c.seconds + 30) % 30 == c.seconds % 30;
  }

  /** The seconds a valid reading stands for within twelve hours. */
  predicate SameDialTime(a: Clock, b: Clock) {
    a.hours % 12 == b.hours % 12 && a.minutes == b.minutes && a.seconds == b.seconds
  }

  lemma {:induction false} DialSecondsInjective(a: Clock, b: Clock)
    requires Valid(a) && Valid(b)
    ensures DialSeconds(a) == DialSeconds(b) <==> SameDialTime(a, b)
  {
    if DialSeconds(a) == DialSeconds(b) {
      var ha, hb := a.hours % 12, b.hours % 12;
      var qa, qb := ha * 60 + a.minutes, hb * 60 + b.minutes;
      assert qa * 60 + a.seconds == qb * 60 + b.seconds;
      var d := qb - qa;
      assert d * 60 == a.seconds - b.seconds;
      assert d == 0;
      var e := hb - ha;
      assert e * 60 == a.minutes - b.minutes;
      assert e == 0;
    }
  }

  /** Within twelve hours, the hour hand alone tells the time to the
      second: two valid readings put it in the same place exactly when they
      agree on the hour modulo 12, the minute and the second; and a later
      reading puts it further round. */
  lemma HourHandTellsTime(a: Clock, b: Clock)
    requires Valid(a) && Valid(b)
    ensures HourTurn(a) == HourTurn(b) <==> SameDialTime(a, b)
    ensures DialSeconds(a) < DialSeconds(b) ==> HourTurn(a) < HourTurn(b)
  {
    HourTurnSeconds(a);
    HourTurnSeconds(b);
    DialSecondsInjective(a, b);
    if HourTurn(a) == HourTurn(b) {
      assert DialSeconds(a) as real == DialSeconds(b) as real;
    }
  }

  // ---------------------------------------------------------------------
  // Baton marks (drawBatons)

  /** `num * Math.PI / (count/2)`, divided by π. */
  function BatonTurn(num: nat, count: nat): (t: real)
    requires count > 0
    ensures t == 2.0 * num as real / count as real
  {
    var c := count as real;
    assert num as real / (c / 2.0) == 2.0 * num as real / c;
    num as real / (c / 2.0)
  }

  /** The batons `num = 1..count`: each is turned about (x, y) and drawn as
      a rectangle `length` long whose centre is `radius - length/2` from the
      centre. */
  function Batons(radius: real, x: real, y: real, count: nat, width: real, length: real): (r: seq<Prim>)
    ensures |r| == count
    ensures forall k :: 0 <= k < count ==>
      r[k].Turned? && r[k].ox == x && r[k].oy == y && r[k].turn == 2.0 * (k + 1) as real / count as real
  {
    var location := radius - length / 2.0;
    seq(count, k requires 0 <= k < count =>
      Turned(x, y, BatonTurn(k + 1, count), FillRect(-width / 2.0, -location - length / 2.0, width, length)))
  }

  /** Each baton runs from `radius - length` out to exactly `radius`, on the
      line straight up from the centre before it is turned, whatever its
      width. */
  lemma BatonAtRim(radius: real, x: real, y: real, count: nat, width: real, length: real, k: nat)
    requires k < count
    ensures var b := Batons(radius, x, y, count, width, length)[k].inner;
      b.FillRect? && b.y == -radius && b.y + b.h == -(radius - length) && b.x + b.w / 2.0 == 0.0
  {
  }

  /** Batons are evenly spaced 2/count apart, the first is 2/count round
      and the last lands on a full turn. */
  lemma BatonSpacing(radius: real, x: real, y: real, count: nat, width: real, length: real)
    requires count > 0
    ensures var r := Batons(radius, x, y, count, width, length);
      && r[0].turn == 2.0 / count as real
      && r[count - 1].turn == 2.0
      && forall k :: 0 <= k < count - 1 ==> r[k + 1].turn - r[k].turn == 2.0 / count as real
  {
    var r := Batons(radius, x, y, count, width, length);
    var c := count as real;
    assert r[count - 1].turn == 2.0 * c / c;
    forall k | 0 <= k < count - 1 ensures r[k + 1].turn - r[k].turn == 2.0 / c {
      StepApart((k + 1) as real, c);
    }
  }

  /** Consecutive multiples of 2/c lie 2/c apart. */
  lemma StepApart(n: real, c: real)
    requires c > 0.0
    ensures 2.0 * (n + 1.0) / c - 2.0 * n / c == 2.0 / c
  {
  }

  /** The hour batons sit on every fifth minute baton, and the minute
      batons on every fifth of the 300 fine marks. */
  lemma BatonsNest(radius: real, x: real, y: real, w1: real, l1: real, w2: real, l2: real, w3: real, l3: real, k: nat)
    requires 1 <= k <= 12
    ensures Batons(radius, x, y, 12, w1, l1)[k - 1].turn == Batons(radius, x, y, 60, w2, l2)[5 * k - 1].turn
    ensures Batons(radius, x, y, 60, w2, l2)[5 * k - 1].turn == Batons(radius, x, y, 300, w3, l3)[25 * k - 1].turn
  {
  }

  // ---------------------------------------------------------------------
  // Numerals (drawCustomNumbers, drawTachymeter)

  /** `num.toString()` for a non-negative integer. */
  function Decimal(n: nat): (s: string)
    ensures |s| > 0 && forall i :: 0 <= i < |s| ==> '0' <= s[i] <= '9'
    ensures s[0] == '0' ==> n == 0
  {
    var d := ['0' + (n % 10) as char];
    if n < 10 then d else Decimal(n / 10) + d
  }

  /** The number a string of decimal digits spells. */
  function ValueOf(s: string): int {
    if |s| == 0 then 0 else 10 * ValueOf(s[..|s| - 1]) + (s[|s| - 1] as int - '0' as int)
  }

  lemma {:induction false} DecimalValue(n: nat)
    ensures ValueOf(Decimal(n)) == n
  {
    var d := ['0' + (n % 10) as char];
    if n >= 10 {
      DecimalValue(n / 10);
      var s := Decimal(n / 10) + d;
      assert s[..|s| - 1] == Decimal(n / 10);
    }
  }

  /** The angle (divided by π) a canvas rotation actually applies: the
      HTML Standard's `rotate()` does nothing for an infinite or NaN angle,
      which here arises exactly when the source divides by zero. */
  function Divided(num: real, den: real): real {
    if den == 0.0 then 0.0 else num / den
  }

  /** A numeral `num` of a dial whose last numeral is `last`, placed at
      `num * Math.PI / (last/2)`. */
  function NumeralTurn(num: nat, last: nat): (t: real)
    ensures last > 0 ==> t == 2.0 * num as real / last as real
  {
    if last > 0 then BatonTurn(num, last) else Divided(num as real, 0.0)
  }

  /** A tachymeter mark `num`, placed at `(divisor/num) * Math.PI /
      (last/2)`. */
  function TachyTurn(num: nat, divisor: nat, last: nat): (t: real)
    ensures num > 0 && last > 0 ==> t == 2.0 * (divisor as real / num as real) / last as real
    ensures num == 0 || last == 0 ==> t == 0.0
  {
    var ratio := Divided(divisor as real, num as real);
    if num == 0 then 0.0
    else Divided(ratio, last as real / 2.0)
  }

  /** Each number is written upright, `smallradius` from (x, y) at angle
      `turn(num)`. */
  function Ring(x: real, y: real, smallradius: real, nums: seq<nat>, turn: nat -> real): (r: seq<Prim>)
  {
    seq(|nums|, k requires 0 <= k < |nums| =>
      Orbit(x, y, turn(nums[k]), smallradius, Label(Decimal(nums[k]), 0.0, 0.0)))
  }

  function Numbers(x: real, y: real, smallradius: real, nums: seq<nat>, last: nat): (r: seq<Prim>)
    ensures |r| == |nums|
    ensures last > 0 ==> forall k :: 0 <= k < |nums| ==>
      r[k].Orbit? && r[k].ox == x && r[k].oy == y && r[k].turn == 2.0 * nums[k] as real / last as real
  {
    Ring(x, y, smallradius, nums, (n: nat) => NumeralTurn(n, last))
  }

  function Tachymeter(x: real, y: real, smallradius: real, nums: seq<nat>, divisor: nat, last: nat): (r: seq<Prim>)
    ensures |r| == |nums|
    ensures forall k :: 0 <= k < |nums| ==>
      r[k].Orbit? && r[k].ox == x && r[k].oy == y && r[k].turn == TachyTurn(nums[k], divisor, last)
  {
    Ring(x, y, smallradius, nums, (n: nat) => TachyTurn(n, divisor, last))
  }

  /** The tachymeter: a mark for speed `num` (units an hour) stands where
      the seconds hand points after `3600/num` seconds, the time one unit
      takes at that speed; faster speeds stand earlier; and every speed of
      at least 60 lies within the first turn. */
  lemma TachymeterReadsSpeed(num: nat, num2: nat)
    requires num > 0 && num2 > 0
    ensures TachyTurn(num, 3600, 60) == (3600.0 / num as real) / 30.0
    ensures num < num2 ==> TachyTurn(num2, 3600, 60) < TachyTurn(num, 3600, 60)
    ensures num >= 60 ==> 0.0 < TachyTurn(num, 3600, 60) <= 2.0
  {
    var a, b := num as real, num2 as real;
    if num < num2 {
      assert 3600.0 / b < 3600.0 / a by {
        assert 3600.0 / b * b == 3600.0 && 3600.0 / a * a == 3600.0;
        assert 3600.0 / b * a < 3600.0 / b * b;
      }
    }
    if num >= 60 {
      assert 3600.0 / a <= 60.0 by {
        assert 3600.0 / a * a == 3600.0;
        assert 60.0 * a >= 3600.0;
      }
    }
  }

  /** A speed mark for a whole number of seconds lands on a minute-track
      baton: speed `3600/s` sits on baton `s` of 60 (for `s` dividing 3600,
      1 to 60 seconds). */
  lemma TachymeterOnBaton(radius: real, width: real, length: real, s: nat)
    requires 1 <= s <= 60 && 3600 % s == 0
    ensures TachyTurn(3600 / s, 3600, 60) == Batons(radius, 0.0, 0.0, 60, width, length)[s - 1].turn
  {
    var n := 3600 / s;
    assert n * s == 3600;
    assert (n as real) * (s as real) == 3600.0;
    assert 3600.0 / n as real == s as real;
  }

  // ---------------------------------------------------------------------
  // Hands (drawHand, flatswordHand, diamondHand)

  /** The flat sword hand: a bar 0.95 of the length, then a triangular tip
      reaching the full length. */
  function FlatSword(length: real, width: real): seq<Prim> {
    var l2 := length * 0.95;
    [FillRect(-width / 2.0, 0.0, width, -l2),
     Polygon([(-width / 2.0, -l2), (0.0, -length), (width / 2.0, -l2)])]
  }

  /** The chronograph's diamond hand: a tapering blade and a diamond on it. */
  function Diamond(length: real, width: real): seq<Prim> {
    [Polygon([(0.0, -length), (width * 0.2, -length), (width / 2.0, length / 4.0),
              (-width / 2.0, length / 4.0), (-width * 0.2, -length)]),
     Polygon([(0.0, -length * 0.65), (width * 1.3, -length * 0.7),
              (0.0, -length * 0.83), (-width * 1.3, -length * 0.7)])]
  }

  /** `drawHand`: the shape turned by the hand's angle about (x, y). */
  function Hand(turn: real, x: real, y: real, shape: seq<Prim>): (r: seq<Prim>)
  {
    seq(|shape|, k requires 0 <= k < |shape| => Turned(x, y, turn, shape[k]))
  }

  /** `drawTime`: hour, minute and chronograph hands on the main dial, then
      the two fixed subdial hands and the seconds hand on the left subdial. */
  function Time(c: Clock, radius: real): (r: seq<Prim>)
    ensures |r| == 12 && forall k :: 0 <= k < 12 ==> r[k].Turned?
    ensures r[0].turn == HourTurn(c) && r[2].turn == MinuteTurn(c) && r[4].turn == ChronoTurn(c)
    ensures r[10].turn == SecondTurn(c) && r[10].ox == -radius * 0.5 && r[10].oy == 0.0
    ensures forall k :: 0 <= k < 6 ==> r[k].ox == 0.0 && r[k].oy == 0.0
    ensures r[6].turn == 0.0 && r[8].turn == 0.0
  {
    Hand(HourTurn(c), 0.0, 0.0, FlatSword(radius * 0.65, radius * 0.04))
    + Hand(MinuteTurn(c), 0.0, 0.0, FlatSword(radius, radius * 0.04))
    + Hand(ChronoTurn(c), 0.0, 0.0, Diamond(radius, radius * 0.04))
    + Hand(0.0, 0.0, radius * 0.5, FlatSword(radius * 0.3, radius * 0.02))
    + Hand(0.0, radius * 0.5, 0.0, FlatSword(radius * 0.3, radius * 0.02))
    + Hand(SecondTurn(c), -radius * 0.5, 0.0, FlatSword(radius * 0.3, radius * 0.02))
  }

  /** On the hour, the hour hand points at that hour's baton (twelve
      o'clock being the last baton, one full turn round). */
  lemma HourHandOnBaton(c: Clock, radius: real, width: real, length: real)
    requires c.minutes == 0 && c.seconds == 0
    ensures var h := c.hours % 12;
      HourTurn(c) + (if h == 0 then 2.0 else 0.0) == Batons(radius, 0.0, 0.0, 12, width, length)[(h + 11) % 12].turn
  {
  }

  /** On the minute, the minute hand points at that minute's baton. */
  lemma MinuteHandOnBaton(c: Clock, radius: real, width: real, length: real)
    requires Valid(c) && c.seconds == 0
    ensures MinuteTurn(c) + (if c.minutes == 0 then 2.0 else 0.0)
      == Batons(radius, 0.0, 0.0, 60, width, length)[(c.minutes + 59) % 60].turn
  {
  }

  /** The chronograph hand sweeps the 60-mark track in 30 seconds: at
      second `s` it points at minute baton `2 (s mod 30)`. */
  lemma ChronoOnBaton(c: Clock, radius: real, width: real, length: real)
    ensures var m := 2 * (c.seconds % 30);
      ChronoTurn(c) + (if m == 0 then 2.0 else 0.0) == Batons(radius, 0.0, 0.0, 60, width, length)[(m + 59) % 60].turn
  {
  }

  // ---------------------------------------------------------------------
  // One frame (drawClock)

  /** `min(width/2, height/2) * 0.6`. */
  function Radius(width: real, height: real): (radius: real)
    ensures radius * 2.0 <= width * 0.6 && radius * 2.0 <= height * 0.6
    ensures radius * 2.0 == width * 0.6 || radius * 2.0 == height * 0.6
  {
    (if width / 2.0 <= height / 2.0 then width / 2.0 else height / 2.0) * 0.6
  }

  /** `drawFace`: the bezel (filled, then outlined), the dial (outlined,
      then filled) and the centre dot. */
  function Face(radius: real): seq<Prim> {
    [Disc(0.0, 0.0, radius * 1.2, true), Disc(0.0, 0.0, radius * 1.2, false),
     Disc(0.0, 0.0, radius, false), Disc(0.0, 0.0, radius, true),
     Disc(0.0, 0.0, radius * 0.04, true)]
  }

  /** `drawLogo`: centred text `location` radii above the centre. */
  function Logo(radius: real, text: string, location: real): Prim {
    Label(text, 0.0, -radius * location)
  }

  /** `drawSubdial`: an outlined ring and a filled hub a tenth its size. */
  function Subdial(r: real, x: real, y: real): seq<Prim> {
    [Disc(x, y, r, false), Disc(x, y, r * 0.1, true)]
  }

  const TachyNumbers: seq<nat> :=
    [450, 400, 350, 300, 250, 200, 150, 140, 130, 120, 110, 100, 90, 80, 70, 60, 175, 65, 75, 85, 500, 600]

  /** The face and the four logo lines. */
  function Head(radius: real): (r: seq<Prim>)
    ensures |r| == 9
  {
    Face(radius)
    + [Logo(radius, "Ω", 0.7), Logo(radius, "Omega", 0.55),
       Logo(radius, "Speedmaster", 0.45), Logo(radius, "Professional", 0.35)]
  }

  /** The 12 hour, 60 minute and 300 fine batons of the main dial. */
  function MainBatons(radius: real): (r: seq<Prim>)
    ensures |r| == 372
  {
    Batons(radius, 0.0, 0.0, 12, radius * 0.04, radius * 0.20)
    + Batons(radius, 0.0, 0.0, 60, radius * 0.01, radius * 0.15)
    + Batons(radius, 0.0, 0.0, 300, radius * 0.005, radius * 0.04)
  }

  /** The seconds (left), 12-hour (lower) and 30-minute (right) subdials,
      each with its batons. */
  function Subdials(radius: real): (r: seq<Prim>)
    ensures |r| == 60
  {
    Subdial(radius * 0.3, -radius * 0.5, 0.0)
    + Batons(radius * 0.3, -radius * 0.5, 0.0, 12, radius * 0.01, radius * 0.06)
    + Subdial(radius * 0.3, 0.0, radius * 0.5)
    + Batons(radius * 0.3, 0.0, radius * 0.5, 12, radius * 0.01, radius * 0.06)
    + Subdial(radius * 0.3, radius * 0.5, 0.0)
    + Batons(radius * 0.3, radius * 0.5, 0.0, 30, radius * 0.01, radius * 0.06)
  }

  /** The subdials' numerals. */
  function Numerals(radius: real): (r: seq<Prim>)
    ensures |r| == 10
  {
    Numbers(-radius * 0.5, 0.0, radius * 0.2, [60, 20, 40], 60)
    + Numbers(0.0, radius * 0.5, radius * 0.2, [3, 6, 9, 12], 12)
    + Numbers(radius * 0.5, 0.0, radius * 0.2, [10, 20, 30], 30)
  }

  /** One frame of `drawClock`, in its parts. */
  datatype Frame = Frame(
    head: seq<Prim>,       // face and logos
    hands: seq<Prim>,      // `drawTime`
    batons: seq<Prim>,     // the main dial's 12, 60 and 300 batons
    subdials: seq<Prim>,   // three subdials, each with its batons
    tachymeter: seq<Prim>,
    numerals: seq<Prim>)   // the subdials' numerals

  /** The frame's primitives in drawing order. */
  function Drawing(f: Frame): (r: seq<Prim>)
    ensures |r| == |f.head| + |f.hands| + |f.batons| + |f.subdials| + |f.tachymeter| + |f.numerals|
  {
    f.head + f.hands + f.batons + f.subdials + f.tachymeter + f.numerals
  }

  /** `drawClock` for a canvas of the given size at the given reading,
      about the canvas centre. */
  function FrameOf(width: real, height: real, c: Clock): Frame {
    var radius := Radius(width, height);
    Frame(Head(radius), Time(c, radius), MainBatons(radius), Subdials(radius),
      Tachymeter(0.0, 0.0, radius * 1.1, TachyNumbers, 3600, 60), Numerals(radius))
  }

  /** A frame has 485 primitives; its hands show the reading; and its
      tachymeter stays within one turn. */
  lemma FrameShows(width: real, height: real, c: Clock)
    ensures |Drawing(FrameOf(width, height, c))| == 485
    ensures var h := FrameOf(width, height, c).hands;
      && |h| == 12 && h[0].Turned? && h[2].Turned? && h[4].Turned? && h[10].Turned?
      && h[0].turn == HourTurn(c) && h[2].turn == MinuteTurn(c)
      && h[4].turn == ChronoTurn(c) && h[10].turn == SecondTurn(c)
    ensures var t := FrameOf(width, height, c).tachymeter;
      forall k :: 0 <= k < |t| ==> t[k].Orbit? && 0.0 < t[k].turn <= 2.0
  {
    var radius := Radius(width, height);
    TachymeterWithinTurn(0.0, 0.0, radius * 1.1);
  }

  /** Every speed on the tachymeter is at least 60 units an hour, so the
      whole scale lies within one turn of the dial. */
  lemma TachymeterWithinTurn(x: real, y: real, smallradius: real)
    ensures var r := Tachymeter(x, y, smallradius, TachyNumbers, 3600, 60);
      forall k :: 0 <= k < |r| ==> 0.0 < r[k].turn <= 2.0
  {
    var r := Tachymeter(x, y, smallradius, TachyNumbers, 3600, 60);
    assert forall j :: 0 <= j < |TachyNumbers| ==> TachyNumbers[j] >= 60;
    forall k | 0 <= k < |r| ensures 0.0 < r[k].turn <= 2.0 {
      TachymeterReadsSpeed(TachyNumbers[k], TachyNumbers[k]);
    }
  }

  /** Every subdial numeral sits on one of its subdial's batons: the
      seconds dial's 60, 20, 40 on batons 12, 4, 8 of 12; the 12-hour
      dial's 3, 6, 9, 12 on batons 3, 6, 9, 12 of 12; the 30-minute dial's
      10, 20, 30 on batons 10, 20, 30 of 30. */
  lemma NumeralsOnBatons(radius: real, w: real, l: real, sr: real)
    ensures var n := Numbers(-radius * 0.5, 0.0, sr, [60, 20, 40], 60);
      var b := Batons(radius * 0.3, -radius * 0.5, 0.0, 12, w, l);
      n[0].turn == b[11].turn && n[1].turn == b[3].turn && n[2].turn == b[7].turn
    ensures var n := Numbers(0.0, radius * 0.5, sr, [3, 6, 9, 12], 12);
      var b := Batons(radius * 0.3, 0.0, radius * 0.5, 12, w, l);
      forall k :: 0 <= k < 4 ==> n[k].turn == b[3 * k + 2].turn && n[k].ox == b[3 * k + 2].ox && n[k].oy == b[3 * k + 2].oy
    ensures var n := Numbers(radius * 0.5, 0.0, sr, [10, 20, 30], 30);
      var b := Batons(radius * 0.3, radius * 0.5, 0.0, 30, w, l);
      forall k :: 0 <= k < 3 ==> n[k].turn == b[10 * k + 9].turn && n[k].ox == b[10 * k + 9].ox
  {
  }
}

=== FILE: text.dfy ===
/** The JavaScript string operations the site relies on, over `seq<char>`:
    `trim`, `startsWith`, `endsWith`, `split`, `join`, `indexOf`,
    string-pattern `replace` (first occurrence only), the regex classes
    `\s`, `\w` and `.`, ASCII `toUpperCase`, and the code-unit ordering of `<`. */
module Text {
  import opened Wrappers

  /** The characters JavaScript's `.` refuses: the ECMAScript line terminators. */
  predicate IsLineTerminator(c: char) {
    c == '\n' || c == '\r' || c == '\U{2028}' || c == '\U{2029}'
  }

  /** ECMAScript WhiteSpace or LineTerminator: what `trim` removes and `\s` matches. */
  predicate IsSpace(c: char) {
    || IsLineTerminator(c)
    || c == '\t' || c == '\U{000B}' || c == '\U{000C}' || c == ' '
    || c == '\U{00A0}' || c == '\U{FEFF}' || c == '\U{1680}'
    || ('\U{2000}' <= c <= '\U{200A}')
    || c == '\U{202F}' || c == '\U{205F}' || c == '\U{3000}'
  }

  /** `s.trim() === ''`. */
  predicate IsBlank(s: string) {
    forall i :: 0 <= i < |s| ==> IsSpace(s[i])
  }

  /** `\w`: ASCII letters, digits and underscore. */
  predicate IsWordChar(c: char) {
    ('a' <= c <= 'z') || ('A' <= c <= 'Z') || ('0' <= c <= '9') || c == '_'
  }

  predicate IsDigit(c: char) {
    '0' <= c <= '9'
  }

  /** `toUpperCase` restricted to the characters `\w` can match. */
  function UpperAscii(c: char): (u: char)
    ensures IsWordChar(c) ==> IsWordChar(u)
    ensures !('a' <= u <= 'z')
    ensures c != u ==> 'a' <= c <= 'z' && u as int == c as int - 32
  {
    if 'a' <= c <= 'z' then (c as int - 32) as char else c
  }

  predicate StartsWith(s: string, prefix: string) {
    |prefix| <= |s| && s[..|prefix|] == prefix
  }

  predicate EndsWith(s: string, suffix: string) {
    |suffix| <= |s| && s[|s| - |suffix|..] == suffix
  }

  /** `p` occurs in `s` starting at index `i`. */
  predicate OccursAt(s: string, p: string, i: int) {
    0 <= i && i + |p| <= |s| && s[i..i + |p|] == p
  }

  /** `s.trimStart()`: the longest suffix of `s` that does not start with a space. */
  function TrimStart(s: string): (r: string)
    ensures |r| <= |s| && r == s[|s| - |r|..]
    ensures forall i :: 0 <= i < |s| - |r| ==> IsSpace(s[i])
    ensures r == [] || !IsSpace(r[0])
  {
    if |s| > 0 && IsSpace(s[0]) then TrimStart(s[1..]) else s
  }

  /** `s.trimEnd()`: the longest prefix of `s` that does not end with a space. */
  function TrimEnd(s: string): (r: string)
    ensures |r| <= |s| && r == s[..|r|]
    ensures forall i :: |r| <= i < |s| ==> IsSpace(s[i])
    ensures r == [] || !IsSpace(r[|r| - 1])
  {
    if |s| > 0 && IsSpace(s[|s| - 1]) then TrimEnd(s[..|s| - 1]) else s
  }

  /** `s.trim()`. */
  function Trim(s: string): (r: string)
    ensures |r| <= |s|
    ensures r == [] || (!IsSpace(r[0]) && !IsSpace(r[|r| - 1]))
    ensures r == [] <==> IsBlank(s)
  {
    var t := TrimStart(s);
    var r := TrimEnd(t);
    assert r == [] ==> t == [] by {
      assert |t| > 0 ==> IsSpace(t[0]) || r != [];
    }
    r
  }

  /** Trimming removes exactly the spaces around a core that neither starts
      nor ends with a space. */
  lemma TrimAround(p: string, m: string, q: string)
    requires IsBlank(p) && IsBlank(q)
    requires |m| > 0 && !IsSpace(m[0]) && !IsSpace(m[|m| - 1])
    ensures Trim(p + m + q) == m
  {
    TrimStartAt(p, m + q);
    assert p + m + q == p + (m + q);
    TrimEndAt(m, q);
  }

  /** `trimStart` stops at the first non-space: it drops a blank prefix and
      keeps the rest whole. */
  lemma TrimStartAt(p: string, t: string)
    requires IsBlank(p) && |t| > 0 && !IsSpace(t[0])
    ensures TrimStart(p + t) == t
  {
    var s := p + t;
    var r := TrimStart(s);
    var k := |s| - |r|;
    assert s[|p|] == t[0];
    assert k == |p|;
    assert r == s[|p|..] == t;
  }

  /** `trimEnd` stops at the last non-space. */
  lemma TrimEndAt(m: string, q: string)
    requires IsBlank(q) && |m| > 0 && !IsSpace(m[|m| - 1])
    ensures TrimEnd(m + q) == m
  {
    var t := m + q;
    var r := TrimEnd(t);
    assert t[|m| - 1] == m[|m| - 1];
    assert forall j :: |m| <= j < |t| ==> IsSpace(t[j]) by {
      assert forall j :: |m| <= j < |t| ==> t[j] == q[j - |m|];
    }
    assert |r| == |m|;
    assert r == t[..|m|] == m;
  }

  /** `parts.join(sep)`. */
  function Join(parts: seq<string>, sep: string): string
  {
    if |parts| == 0 then []
    else if |parts| == 1 then parts[0]
    else parts[0] + sep + Join(parts[1..], sep)
  }

  /** `s.split(sep)` for a one-character separator: always at least one
      part, and no part contains the separator. */
  function Split(s: string, sep: char): (parts: seq<string>)
    ensures |parts| >= 1
    ensures forall k :: 0 <= k < |parts| ==> sep !in parts[k]
  {
    if |s| == 0 then [[]]
    else
      var rest := Split(s[1..], sep);
      if s[0] == sep then [[]] + rest
      else [[s[0]] + rest[0]] + rest[1..]
  }

  /** Joining the parts of a split with the separator gives back the string. */
  lemma {:induction false} JoinSplit(s: string, sep: char)
    ensures Join(Split(s, sep), [sep]) == s
  {
    if |s| > 0 {
      var rest := Split(s[1..], sep);
      JoinSplit(s[1..], sep);
      if s[0] == sep {
        assert Split(s, sep) == [[]] + rest;
        assert ([[]] + rest)[1..] == rest;
      } else {
        var parts := Split(s, sep);
        assert parts == [[s[0]] + rest[0]] + rest[1..];
        if |rest| > 1 {
          assert parts[1..] == rest[1..];
          assert Join(rest, [sep]) == rest[0] + [sep] + Join(rest[1..], [sep]);
        }
      }
    }
  }

  lemma {:induction false} SplitNoSep(p: string, sep: char)
    requires sep !in p
    ensures Split(p, sep) == [p]
  {
    if |p| > 0 {
      SplitNoSep(p[1..], sep);
      assert [p[0]] + p[1..] == p;
    }
  }

  lemma {:induction false} SplitAtSep(p: string, q: string, sep: char)
    requires sep !in p
    ensures Split(p + [sep] + q, sep) == [p] + Split(q, sep)
  {
    if |p| == 0 {
      assert (p + [sep] + q)[1..] == q;
    } else {
      assert (p + [sep] + q)[1..] == p[1..] + [sep] + q;
      SplitAtSep(p[1..], q, sep);
      assert [p[0]] + p[1..] == p;
    }
  }

  /** Splitting a join of separator-free parts gives back the parts. */
  lemma {:induction false} SplitJoin(parts: seq<string>, sep: char)
    requires |parts| >= 1
    requires forall k :: 0 <= k < |parts| ==> sep !in parts[k]
    ensures Split(Join(parts, [sep]), sep) == parts
  {
    if |parts| == 1 {
      SplitNoSep(parts[0], sep);
    } else {
      SplitJoin(parts[1..], sep);
      SplitAtSep(parts[0], Join(parts[1..], [sep]), sep);
      assert [parts[0]] + parts[1..] == parts;
    }
  }

  /** The first index at or after `from` where `p` occurs in `s`. */
  function IndexFrom(s: string, p: string, from: nat): (r: Option<nat>)
    requires from <= |s|
    ensures r.Some? ==> from <= r.value && OccursAt(s, p, r.value)
    ensures forall i :: from <= i && (r.None? || i < r.value) ==> !OccursAt(s, p, i)
    decreases |s| - from
  {
    if OccursAt(s, p, from) then Some(from)
    else if from + |p| >= |s| then None
    else IndexFrom(s, p, from + 1)
  }

  /** `s.indexOf(p)`, with None for -1. */
  function IndexOf(s: string, p: string): (r: Option<nat>)
    ensures r.Some? ==> OccursAt(s, p, r.value)
    ensures forall i :: 0 <= i && (r.None? || i < r.value) ==> !OccursAt(s, p, i)
  {
    IndexFrom(s, p, 0)
  }

  /** `s.replace(p, rep)` with a string pattern: only the first occurrence
      is replaced, and a string without `p` is returned unchanged. */
  function ReplaceFirst(s: string, p: string, rep: string): (r: string)
  {
    match IndexOf(s, p)
    case None => s
    case Some(i) => s[..i] + rep + s[i + |p|..]
  }

  /** Replacing the first occurrence of `p` by nothing in `b + p + q`, where
      `b + p` holds no earlier occurrence, gives `b + q`. */
  lemma ReplaceFirstSuffix(b: string, p: string, q: string)
    requires forall i :: 0 <= i < |b| ==> !OccursAt(b + p, p, i)
    ensures ReplaceFirst(b + p + q, p, "") == b + q
  {
    var s := b + p + q;
    assert OccursAt(s, p, |b|) by { assert s[|b|..|b| + |p|] == p; }
    forall i | 0 <= i < |b| ensures !OccursAt(s, p, i) {
      if OccursAt(s, p, i) {
        assert s[i..i + |p|] == (b + p)[i..i + |p|];
        assert OccursAt(b + p, p, i);
      }
    }
    assert IndexOf(s, p) == Some(|b|);
    assert s[..|b|] == b;
    assert s[|b| + |p|..] == q;
  }

  /** `s.replace(/a/g, b)` for a one-character pattern. */
  function ReplaceChar(s: string, a: char, b: char): (r: string)
  {
    seq(|s|, i requires 0 <= i < |s| => if s[i] == a then b else s[i])
  }

  /** `a <= b` on strings: lexicographic order of characters. */
  predicate StrLeq(a: string, b: string) {
    |a| == 0 || (|b| > 0 && (a[0] < b[0] || (a[0] == b[0] && StrLeq(a[1..], b[1..]))))
  }

  /** Any two strings are comparable. */
  lemma {:induction false} StrLeqTotal(a: string, b: string)
    ensures StrLeq(a, b) || StrLeq(b, a)
  {
    if |a| > 0 && |b| > 0 && a[0] == b[0] {
      StrLeqTotal(a[1..], b[1..]);
    }
  }

  lemma {:induction false} StrLeqTrans(a: string, b: string, c: string)
    requires StrLeq(a, b) && StrLeq(b, c)
    ensures StrLeq(a, c)
  {
    if |a| > 0 && a[0] == b[0] && b[0] == c[0] {
      StrLeqTrans(a[1..], b[1..], c[1..]);
    }
  }
}

=== FILE: wrappers.dfy ===
/** The Option type used wherever the source works with a value that may be
    absent (`undefined`, `null`, a failed regex match, a missing file). */
module Wrappers {

  datatype Option<+T> = None | Some(value: T) {

    /** Returns the value held in Some, or `default` when None. */
    function GetOr(default: T): T {
      match this
      case Some(v) => v
      case None => default
    }
  }
}
